=== FILE: README.md ===
# Tools: reference counting, callbacks, enumerators, binary archive, string helpers

This project is a Dafny model of the sequential core of the `Tools` C++ library, with proofs about that model. The core has five parts:

- **Reference counting** (`refcount.dfy`, module `RefCounting`).
  - `IXInterfaceImpl` is modelled as a class `RefObj` with a count and a lifetime flag. `delete this` becomes the single transition of `alive` from true to false.
  - `IXInterfaceImpl_NoRef` is `NoRefObj`.
  - The smart pointer `VxSmartInterfacePtr` is `SmartRef`. Each constructor, assignment, `reset`, `swap` and `detach` is proved to issue exactly the `AddRef` and `Release` calls the C++ code issues.
  - A pure state machine (`RcState`, `Run`) states the counting protocol over whole call sequences.
- **Callback registry** (`callbacks.dfy`, module `Callbacks`).
  - `CXCallBackMgr` is a class over a handle table and a 32-bit seed.
  - Its three operations are proved against pure functions on a `Registry` value: `AssignSpec`, `CloseSpec` and `FireSpec`.
- **Restartable enumerators** (`enumerator.dfy`, module `Enumerators`; `ordering.dfy`, module `Ordering`).
  - `CArrayEnumerator`, `CSetEnumerator` and `CMapEnumerator` run the same state machine: the cursor `m_iterCur` and the flags `bReset` and `bNeedReset`. One generic class `Enumerator<T, U>` models all three.
  - They differ only in their item sequence:
    - a vector is used as it is;
    - a `std::set<int>` is `Ordering.Ascending`;
    - a `std::map<int, V>` is `Ordering.MapItems`, projected by `PairProj`.
- **Binary archive** (`ints.dfy`, module `Ints`; `archive.dfy`, module `Archive`; `archive_collections.dfy`, module `ArchiveCollections`).
  - `CBlockArchive` is a class holding a cursor and a reference to the caller's byte string (a shared `Buffer` object). Its writes are therefore visible to the caller.
  - Every `operator<<` and `operator>>` is proved against two functions:
    - `Overwrite`/`Encode`, the bytes a writer puts at the cursor;
    - `Decode`, the value a reader returns, or `out_of_range`, and where the reader leaves the cursor.
  - Round-trip lemmas connect `Encode` and `Decode`.
  - The vector, list and map template serialisers loop over the archive. They are proved against layout and reader functions, and those functions are proved to round-trip.
- **String helpers** (`stdstring.dfy`, module `StdString`; `strings.dfy`, module `StringHelper`; `split.dfy`, module `StringSplit`).
  - The `std::string` searches that the helpers use are modelled as functions with complete postconditions.
  - Helpers that change a `string&` in place become methods that take the old value and return the new one.
  - `Split` and `ReplaceAll` are proved against a reference walk, `SplitAll`. That walk cuts a string at each leftmost occurrence of a pattern.

Integer widths follow the source:
- `i8` … `u64` are subset types of `int`.
- Conversions between signed and unsigned types wrap modulo 2^n (`ToSigned`, `ToUnsigned`).
- `_InterlockedIncrement` on the seed wraps at 2^31 (`Inc32`).
- A 32-bit count or length in the archive is taken modulo 2^32.
- The archive cursor (`std::string::size_type`, and `size_t` in `SetCursor`) is a 64-bit `u64`, as on a 64-bit build. The 32-bit build is not modelled (see Left out).

Handle wrap-around in the callback registry (`IXInterfaces.h:1136-1142`):
- Once the 32-bit seed wraps to a negative value, it restarts at 0, and handle 1 is issued again.
- The new target is stored under that handle, over any live registration.
- `Callbacks.WrapReissuesLiveHandle` exhibits the overwrite. `Callbacks.AssignFreshBeforeWrap` shows that no handle is reissued before the wrap.

Default arguments are passed explicitly:
- `Split`'s `sep = ""` and `nMaxSplit = -1`: the latter is the constant `StringSplit.NoLimit`, 2^32 - 1.
- `SetCursor`'s default of 0 is an ordinary argument of `Archive.BlockArchive.SetCursor`.

## Model

| member | source | states |
|---|---|---|
| Ints.ToUnsigned | BlockArchive.cpp:172-179 | a signed value converted to the unsigned type of width m is the value itself or the value plus 2^m, and lies in [0, 2^m) |
| Ints.ToSigned | BlockArchive.cpp:62-65 | an unsigned value converted to the signed type of its width is the value or the value minus 2^m, and lies in [-2^(m-1), 2^(m-1)) |
| Ints.SignedOfUnsigned | BlockArchive.cpp:172-179 | converting a signed value to unsigned and back gives the value again |
| Ints.UnsignedOfSigned | BlockArchive.cpp:62-65 | converting an unsigned value to signed and back gives the value again |
| Ints.Inc32 | IXInterfaces.h:1136 | a 32-bit increment adds one below 2^31 - 1 and wraps 2^31 - 1 to -2^31 |
| Ints.BE16 | BlockArchive.cpp:72-73 | htons produces exactly two bytes |
| Ints.BE32 | BlockArchive.cpp:89-90 | htonl produces exactly four bytes |
| Ints.BE64 | BlockArchive.cpp:101-112 | the big-endian form of a 64-bit value is eight bytes |
| Ints.BE16RoundTrip | BlockArchive.cpp:185-194 | ntohs inverts htons |
| Ints.BE32RoundTrip | BlockArchive.cpp:215-224 | ntohl inverts htonl |
| Ints.BE64RoundTrip | BlockArchive.cpp:241-253 | decoding the eight big-endian bytes of a 64-bit value gives the value |
| Ints.BE16OfFromBE16 | BlockArchive.cpp:185-194 | every two bytes are the htons form of the value they decode to |
| Ints.BE32OfFromBE32 | BlockArchive.cpp:215-224 | every four bytes are the htonl form of the value they decode to |
| Ints.BE64OfFromBE64 | BlockArchive.cpp:241-253 | every eight bytes are the high-then-low layout of the 64-bit value they decode to |
| Ordering.Least | IXInterfaces.h:877-904 | a non-empty set's least element is in the set and no greater than any element |
| Ordering.Ascending | IXInterfaces.h:877-904 | a std::set is visited in strictly increasing order, and each element exactly once |
| Ordering.Keys | BlockArchive.h:133-138 | the keys of a list of entries, in order, at the same positions |
| Ordering.MapItems | BlockArchive.h:133-138 | a std::map is visited in strictly ascending key order, one entry per key, each holding a key of the map and that key's value |
| Ordering.MapItemsIndex | BlockArchive.h:133-138 | each key of the map stands at some position of the visit |
| Ordering.MapItemsComplete | BlockArchive.h:133-138 | the visit misses no key of the map |
| RefCounting.AddRefSpec | IXInterfaces.h:591-594 | AddRef on a live object raises the count by one and keeps it alive |
| RefCounting.ReleaseSpec | IXInterfaces.h:595-604 | Release lowers the count by one, the result is never negative (the debug assertion), and the object is destroyed exactly when the count reaches 0 |
| RefCounting.Repeat | IXInterfaces.h:591-604 | n copies of one call |
| RefCounting.RunAppend | IXInterfaces.h:591-604 | running two call sequences one after the other is running their concatenation |
| RefCounting.RunAddRefs | IXInterfaces.h:591-594 | n AddRef calls raise the count by n |
| RefCounting.RunReleasesAlive | IXInterfaces.h:595-604 | k Release calls from a count above k lower the count by k and destroy nothing |
| RefCounting.BalancedCallsDestroyOnce | IXInterfaces.h:595-604 | on a fresh object, n AddRef calls and n - 1 Release calls leave it alive with count 1, and the n-th Release destroys it |
| RefCounting.NoCallAfterDestruction | IXInterfaces.h:599-602 | once an object is destroyed, no further call is valid |
| RefCounting.RefObj.constructor | IXInterfaces.h:547-548 | a new object starts alive with count 0 |
| RefCounting.RefObj.CopyOf | IXInterfaces.h:569-571 | a copy-constructed object starts at count 0; the count is not copied |
| RefCounting.RefObj.AssignFrom | IXInterfaces.h:584-588 | copy assignment leaves the target's count and lifetime unchanged |
| RefCounting.RefObj.AddRef | IXInterfaces.h:591-594 | the count goes up by one and the new count is returned |
| RefCounting.RefObj.Release | IXInterfaces.h:595-604 | the count goes down by one, the new count is returned, and the object is destroyed exactly when that count is 0 |
| RefCounting.NoRefObj.AddRef | IXInterfaces.h:621-624 | always returns 1 |
| RefCounting.NoRefObj.Release | IXInterfaces.h:625-628 | always returns 2 and destroys nothing |
| RefCounting.TryAs | IXInterfaces.h:99-113 | the checked downcast yields the same object when it offers the capability and null otherwise, never an error |
| RefCounting.SmartRef.Null | IXInterfaces.h:81-90 | default and nullptr construction hold nothing |
| RefCounting.SmartRef.FromRaw | IXInterfaces.h:91-98 | holds p; exactly one AddRef when p is non-null and addref is set, no count change otherwise |
| RefCounting.SmartRef.FromOther | IXInterfaces.h:99-113 | holds the downcast of p; AddRef only when the downcast succeeded and addref is set |
| RefCounting.SmartRef.CopyAs | IXInterfaces.h:115-129 | holds the downcast of the source's pointer; one AddRef exactly when that is non-null |
| RefCounting.SmartRef.Copy | IXInterfaces.h:130-137 | shares the source's object with exactly one AddRef when non-null |
| RefCounting.SmartRef.Move | IXInterfaces.h:140-144 | takes the source's pointer, leaves the source null and changes no count |
| RefCounting.SmartRef.Destroy | IXInterfaces.h:147-153 | exactly one Release when non-null, none otherwise |
| RefCounting.SmartRef.Swap | IXInterfaces.h:227-232 | the two pointers are exchanged and no count changes |
| RefCounting.SmartRef.Reset | IXInterfaces.h:187-190 | reset() (and operator=(nullptr), lines 155-159) releases the held object once and leaves the pointer null |
| RefCounting.SmartRef.ResetTo | IXInterfaces.h:192-195 | reset(p, addref) holds p afterwards; the old object is released once unless it is p; resetting to the object already held with addref never destroys it |
| RefCounting.SmartRef.AssignCopy | IXInterfaces.h:167-171 | copy assignment holds the source's object with one added reference, releases the previous object once, and self-assignment changes no count |
| RefCounting.SmartRef.AssignCopyAs | IXInterfaces.h:161-165 | cross-type copy assignment holds the downcast of the source's object: one added reference when the downcast succeeds, none when it fails and the pointer ends null; the previous object is released once unless it is the one now held |
| RefCounting.SmartRef.AssignMove | IXInterfaces.h:174-184 | move assignment releases the previous object, takes the source's pointer without counting and leaves the source null; assignment to itself does nothing |
| RefCounting.SmartRef.Detach | IXInterfaces.h:202-207 | returns the held pointer, leaves the wrapper null and changes no count |
| Callbacks.NextHandle | IXInterfaces.h:1136-1141 | the drawn handle is at least 1: the seed plus one below 2^31 - 1, and 1 when the increment wraps |
| Callbacks.AssignKeepsValid | IXInterfaces.h:1129-1145 | Assign keeps every handle in the table positive and the seed non-negative |
| Callbacks.CloseKeepsValid | IXInterfaces.h:1146-1150 | Close keeps the table's invariant |
| Callbacks.AssignNull | IXInterfaces.h:1131-1134 | a null target returns the invalid handle -1 and changes nothing |
| Callbacks.AssignRegisters | IXInterfaces.h:1136-1144 | a non-null target gets a handle of at least 1 (never -1) that maps to it; every other entry is kept |
| Callbacks.AssignThenFire | IXInterfaces.h:1129-1160 | firing the handle Assign returned calls that target's OnCallBack with the parameter |
| Callbacks.CloseThenFire | IXInterfaces.h:1146-1157 | after Close(h), Fire(h, p) returns S_FALSE for every parameter |
| Callbacks.CloseIdempotent | IXInterfaces.h:1146-1150 | closing an unknown handle changes nothing, and closing twice is closing once |
| Callbacks.InvalidHandleInert | IXInterfaces.h:1146-1157 | Fire and Close on the invalid handle do nothing and return S_FALSE |
| Callbacks.AssignFreshBeforeWrap | IXInterfaces.h:1136-1142 | before the seed wraps, Assign draws a handle nobody holds, so no registration is overwritten |
| Callbacks.WrapReissuesLiveHandle | IXInterfaces.h:1137-1142 | after the wrap, handle 1 is issued again and a live registration under it is replaced |
| Callbacks.Step | IXInterfaces.h:1129-1160 | any call keeps the registry valid |
| Callbacks.Replay | IXInterfaces.h:1129-1160 | any sequence of calls keeps the registry valid |
| Callbacks.ClosedStaysClosed | IXInterfaces.h:1129-1160 | a closed handle stays unknown, and Fire on it returns S_FALSE, whatever calls follow, as long as the seed does not wrap |
| Callbacks.CallbackMgr.constructor | IXInterfaces.h:1122-1125 | the registry starts empty with seed 0 |
| Callbacks.CallbackMgr.Assign | IXInterfaces.h:1129-1145 | the new state and the returned handle are those of AssignSpec |
| Callbacks.CallbackMgr.Close | IXInterfaces.h:1146-1150 | the handle is erased and nothing else changes |
| Callbacks.CallbackMgr.Fire | IXInterfaces.h:1151-1160 | returns S_FALSE for an unknown handle, otherwise the target's result, and changes nothing |
| Enumerators.MoveNextAdvances | IXInterfaces.h:789-816 | MoveNext keeps the state well formed; it returns true exactly when an item exists at the next index and then stands on it; otherwise it arms the automatic reset |
| Enumerators.CurrentAfterMoveNext | IXInterfaces.h:789-833 | after MoveNext returns true, Current yields the projected item at the position reached |
| Enumerators.CurrentFailsOffItem | IXInterfaces.h:818-833 | Current throws after an explicit Reset and after a MoveNext that returned false |
| Enumerators.Advance | IXInterfaces.h:789-816 | the state after any number of MoveNext calls is well formed |
| Enumerators.FullPass | IXInterfaces.h:789-816 | from a fresh or exhausted enumerator over n items, calls 1..n return true and stand on items 0..n-1, and call n+1 returns false and arms a restart |
| Enumerators.EmptyNeverMoves | IXInterfaces.h:797-801 | over an empty container MoveNext always returns false |
| Enumerators.RestartsAfterPass | IXInterfaces.h:791-795 | after a pass has ended, the next MoveNext starts again at the first item, as on a fresh enumerator |
| Enumerators.Enumerator.constructor | IXInterfaces.h:766-770 | the enumerator starts with bNeedReset set, bReset clear and a singular cursor |
| Enumerators.Enumerator.Count | IXInterfaces.h:777-780 | the container size as an unsigned long, whatever the cursor |
| Enumerators.Enumerator.Reset | IXInterfaces.h:782-787 | the cursor goes back to the first item, with bReset set and bNeedReset clear |
| Enumerators.Enumerator.MoveNext | IXInterfaces.h:789-816 | the new state and the result are those of MoveNextSpec, and the state stays well formed |
| Enumerators.Enumerator.Current | IXInterfaces.h:818-833 | the projected item under the cursor, or the exception thrown after a Reset or at the end |
| Archive.Overwrite | BlockArchive.cpp:36-40 | string::replace at the cursor: bytes before it are kept, the data lands at the cursor, the bytes after the data are kept, and the string grows when the data runs past its end |
| Archive.OverwriteConcat | BlockArchive.cpp:101-112 | two writes at consecutive positions are one write of both |
| Archive.Default | BlockArchive.h:93 | a default-constructed element is a value of its type |
| Archive.EncodeLayout | BlockArchive.cpp:43-132 | integers are written big-endian in two's complement over their own width (int64 as its high then its low half); a bool is the byte 0 or 1; a string is its length modulo 2^32 followed by its bytes |
| Archive.Decode | BlockArchive.cpp:159-286 | a successful read yields a value of the requested type and advances the cursor without passing the end; a failed read leaves the cursor between its start and the end |
| Archive.FixedReadBounds | BlockArchive.cpp:159-253 | a fixed-size read succeeds exactly when enough bytes remain and then consumes its width; a failed 8, 16 or 32-bit read leaves the cursor unchanged, and a failed 64-bit read may already have consumed the high half |
| Archive.StringReadBounds | BlockArchive.cpp:262-278 | a string read throws with the cursor unchanged when the length prefix is incomplete, and throws after consuming the prefix when the body runs past the end |
| Archive.BoolReadIsNonZero | BlockArchive.cpp:279-286 | a bool read accepts any byte and yields whether it is non-zero |
| Archive.HiLoJoin | BlockArchive.cpp:250 | the reader's shift-and-mask rebuilds the 64-bit value from the two halves the writer split off |
| Archive.DecodeEncode | BlockArchive.cpp:43-286 | reading a type where its encoding lies gives the value written and stops right after it (strings shorter than 2^32) |
| Archive.DecodeEncodeNarrow | BlockArchive.cpp:159-232 | round trip of int8, int16 and int32 |
| Archive.DecodeEncodeUnsigned | BlockArchive.cpp:172-240 | round trip of the unsigned 8, 16 and 32-bit types through their signed delegates |
| Archive.DecodeEncodeInt64 | BlockArchive.cpp:241-253 | round trip of int64 through two 32-bit halves |
| Archive.DecodeEncodeUInt64 | BlockArchive.cpp:254-261 | round trip of uint64 |
| Archive.DecodeEncodeBool | BlockArchive.cpp:279-286 | round trip of bool |
| Archive.DecodeEncodeString | BlockArchive.cpp:262-278 | round trip of a string shorter than 2^32 bytes |
| Archive.WriteThenRead | BlockArchive.cpp:43-286 | writing v at cursor c and reading the same type at c yields v, whatever the buffer held |
| Archive.BlockArchive.constructor | BlockArchive.cpp:6-10 | the archive refers to the caller's buffer with the cursor at 0 |
| Archive.BlockArchive.SetCursor | BlockArchive.cpp:17-20 | the cursor becomes min(c, buffer length) |
| Archive.BlockArchive.GetCursor | BlockArchive.cpp:22-25 | the cursor as a DWORD |
| Archive.BlockArchive.GetBuffer | BlockArchive.cpp:306-309 | the caller's buffer as it stands |
| Archive.BlockArchive.ReadBytes | BlockArchive.cpp:27-34 | copies min(nMax, remaining) bytes from the cursor, returns that count, advances the cursor by it and leaves the buffer unchanged |
| Archive.BlockArchive.WriteBytes | BlockArchive.cpp:36-40 | overwrites the n bytes at the cursor, growing the buffer if needed, and advances the cursor by n |
| Archive.BlockArchive.WriteInt8 | BlockArchive.cpp:43-60 | overwrites the byte at the cursor or appends it at the end; the cursor advances by 1 |
| Archive.BlockArchive.WriteUInt8 | BlockArchive.cpp:62-65 | writes the byte of the signed conversion |
| Archive.BlockArchive.WriteInt16 | BlockArchive.cpp:67-77 | two big-endian bytes at the cursor; the cursor advances by 2 |
| Archive.BlockArchive.WriteUInt16 | BlockArchive.cpp:79-82 | delegates to the int16 writer |
| Archive.BlockArchive.WriteInt32 | BlockArchive.cpp:84-94 | four big-endian bytes at the cursor; the cursor advances by 4 |
| Archive.BlockArchive.WriteUInt32 | BlockArchive.cpp:96-99 | delegates to the int32 writer |
| Archive.BlockArchive.WriteInt64 | BlockArchive.cpp:101-112 | the high half and then the low half as int32; the cursor advances by 8 |
| Archive.BlockArchive.WriteUInt64 | BlockArchive.cpp:114-117 | delegates to the int64 writer |
| Archive.BlockArchive.WriteString | BlockArchive.cpp:119-127 | the uint32 length, then the raw bytes; the cursor advances by 4 plus the length |
| Archive.BlockArchive.WriteBool | BlockArchive.cpp:129-132 | one byte, 0 or 1 |
| Archive.BlockArchive.ReadInt8 | BlockArchive.cpp:159-171 | the result and the new cursor are those of Decode: a byte when one remains, out_of_range otherwise |
| Archive.BlockArchive.ReadUInt8 | BlockArchive.cpp:172-179 | as Decode for uint8 |
| Archive.BlockArchive.ReadInt16 | BlockArchive.cpp:180-201 | as Decode for int16 |
| Archive.BlockArchive.ReadUInt16 | BlockArchive.cpp:202-209 | as Decode for uint16 |
| Archive.BlockArchive.ReadInt32 | BlockArchive.cpp:210-232 | as Decode for int32 |
| Archive.BlockArchive.ReadUInt32 | BlockArchive.cpp:233-240 | as Decode for uint32 |
| Archive.BlockArchive.ReadInt64 | BlockArchive.cpp:241-253 | as Decode for int64, including a high half already consumed when the low half is missing |
| Archive.BlockArchive.ReadUInt64 | BlockArchive.cpp:254-261 | as Decode for uint64 |
| Archive.BlockArchive.ReadString | BlockArchive.cpp:262-278 | as Decode for strings, including the prefix already consumed when the body is missing |
| Archive.BlockArchive.ReadBool | BlockArchive.cpp:279-286 | as Decode for bool |
| Archive.BlockArchive.WriteValue | BlockArchive.h:45-54 | the overload for the value's type writes its encoding at the cursor and advances past it |
| Archive.BlockArchive.ReadValue | BlockArchive.h:59-68 | the overload for the type reads as Decode does |
| ArchiveCollections.ScalarRoundTrips | BlockArchive.cpp:43-286 | every value of a scalar type reads back where it was written, whatever surrounds it |
| ArchiveCollections.CountRoundTrip | BlockArchive.h:80-92 | a container's count reads back, and the elements start four bytes later |
| ArchiveCollections.EncodeAllSnoc | BlockArchive.h:81-84 | the element loop's output grows by one element's encoding per pass |
| ArchiveCollections.Resize | BlockArchive.h:93 | resize keeps the first n elements and pads with default values |
| ArchiveCollections.DecodeElems | BlockArchive.h:94-97 | the element loop keeps its size and leaves the elements before the current one alone |
| ArchiveCollections.DecodeSeq | BlockArchive.h:88-100 | a failed count read leaves the container untouched; otherwise the container is resized to the count |
| ArchiveCollections.DecodeElemsEncoded | BlockArchive.h:94-97 | reading encoded elements in place gives exactly those elements |
| ArchiveCollections.SeqRoundTrip | BlockArchive.h:77-100 | the vector reader gives back exactly what the writer wrote, whatever the target held, and stops right after it |
| ArchiveCollections.ScalarSeqRoundTrip | BlockArchive.h:102-127 | the vector and list round trip for scalar elements |
| ArchiveCollections.WriteElems | BlockArchive.h:81-84 | the writer's loop puts every element's encoding at the cursor, in order |
| ArchiveCollections.WriteSeq | BlockArchive.h:77-87 | the vector (and list) writer puts the uint32 count and then the elements at the cursor |
| ArchiveCollections.ReadSeq | BlockArchive.h:88-100 | the vector (and list) reader's result, cursor and success are those of DecodeSeq |
| ArchiveCollections.EncodeEntriesSnoc | BlockArchive.h:133-138 | the map writer's output grows by one entry per pass |
| ArchiveCollections.DecodeEntriesStep | BlockArchive.h:148-153 | a successful entry read lets the loop go on from where it stopped |
| ArchiveCollections.DecodeMap | BlockArchive.h:143-156 | a failed count read leaves the map untouched |
| ArchiveCollections.DecodeEntriesKeepsKeys | BlockArchive.h:148-153 | the entry loop never removes a key |
| ArchiveCollections.DecodeMapKeepsKeys | BlockArchive.h:143-156 | the map reader does not clear the map: every key already present stays, whether the read succeeds or fails |
| ArchiveCollections.KeySetCons | BlockArchive.h:148-153 | the keys of a list of entries are the first key and the rest's keys |
| ArchiveCollections.InsertKeepsAndLaterWins | BlockArchive.h:148-153 | reading entries into a map that is not cleared: the keys are the old ones plus the read ones; an entry not followed by another with the same key decides that key's value; a key no entry names keeps its old value |
| ArchiveCollections.InsertAgreeing | BlockArchive.h:148-153 | inserting entries that agree with a map adds exactly those entries of it |
| ArchiveCollections.RestrictAddKey | BlockArchive.h:148-153 | adding one key's entry and then the others is adding them all |
| ArchiveCollections.DecodeEntryEncoded | BlockArchive.h:150-152 | reading an encoded entry stores it and stops right after it |
| ArchiveCollections.EntriesOfMapRoundTrip | BlockArchive.h:133-138 | entries taken from a map whose keys and values round-trip all round-trip |
| ArchiveCollections.DecodeEntriesEncoded | BlockArchive.h:148-153 | reading n encoded entries inserts them in order |
| ArchiveCollections.MapItemsKeys | BlockArchive.h:133-138 | the visited keys are exactly the map's keys |
| ArchiveCollections.RestrictToAllKeys | BlockArchive.h:133-138 | a map restricted to all its keys is itself |
| ArchiveCollections.MapItemsCover | BlockArchive.h:133-138 | the visited entries cover the map |
| ArchiveCollections.InsertMapItems | BlockArchive.h:133-153 | inserting a map's entries in visit order into acc gives acc updated by the map |
| ArchiveCollections.DecodeMapFromParts | BlockArchive.h:143-156 | a count followed by encoded entries reads as the entries inserted in order |
| ArchiveCollections.MapRoundTrip | BlockArchive.h:129-156 | reading what the map writer wrote into any map gives that map updated by every written entry, stopping right after the encoding |
| ArchiveCollections.ScalarEntriesRoundTrip | BlockArchive.h:129-156 | the entries of a map of scalar keys and values all round-trip |
| ArchiveCollections.ScalarMapRoundTrip | BlockArchive.h:129-156 | the map round trip for integer keys and scalar values |
| ArchiveCollections.EncodeEntriesStep | BlockArchive.h:133-138 | the first i + 1 entries encode as the first i followed by entry i |
| ArchiveCollections.EncodeAllStep | BlockArchive.h:81-84 | the first i + 1 elements encode as the first i followed by element i |
| ArchiveCollections.WriteEntry | BlockArchive.h:136-137 | one pass of the map writer: the key, then the value |
| ArchiveCollections.WriteEntries | BlockArchive.h:133-138 | the map writer's loop writes the entries it is given, in the order given, each as its key then its value (WriteMap gives it MapItems, in ascending key order) |
| ArchiveCollections.WriteMap | BlockArchive.h:129-141 | the map writer puts the uint32 count at the cursor, then the entries of MapItems, so in ascending key order |
| ArchiveCollections.EntryKeyFails | BlockArchive.h:150-151 | a failed key read leaves the map untouched |
| ArchiveCollections.EntryValueFails | BlockArchive.h:152 | a failed value read leaves a default value under a new key |
| ArchiveCollections.EntryRead | BlockArchive.h:150-152 | a successful entry read stores the value under the key |
| ArchiveCollections.ReadEntry | BlockArchive.h:150-152 | one pass of the map reader, as DecodeEntry |
| ArchiveCollections.ReadMap | BlockArchive.h:143-156 | the map reader's map, cursor and success are those of DecodeMap |
| StdString.Find | StringHelper.h:95 | find returns the first occurrence at or after the start position, or npos when there is none |
| StdString.RFind | StringHelper.h:104 | rfind returns the last occurrence, or npos |
| StdString.RFindAtOrBefore | StringHelper.h:104 | the last occurrence at or before a position |
| StdString.FindFirstOf | StringHelper.h:147 | the first position at or after the start whose character is in the set, or npos |
| StdString.FindFirstNotOf | StringHelper.h:155 | the first position at or after the start whose character is not in the set, or npos |
| StdString.FindLastNotOf | StringHelper.h:38 | the last position whose character is not in the set, or npos |
| StdString.FindLastNotOfBelow | StringHelper.h:38 | the last position below n whose character is not in the set |
| StdString.CStr | StringHelper.h:97 | c_str() read as a C string is the prefix before the first NUL |
| StdString.FindInSuffix | StringHelper.h:95 | searching from a position is searching the suffix that starts there |
| StringHelper.TrimLeftOf | StringHelper.h:55-59 | the result is a suffix of s, it does not start with a target, and everything cut off is a target |
| StringHelper.TrimRightOf | StringHelper.h:61-65 | the result is a prefix of s, it does not end with a target, and everything cut off is a target |
| StringHelper.TrimLeftUnique | StringHelper.h:55-59 | those three properties determine TrimLeft's result |
| StringHelper.TrimRightUnique | StringHelper.h:61-65 | those three properties determine TrimRight's result |
| StringHelper.TrimKeepsMiddle | StringHelper.h:67-73 | Trim keeps a slice of s and everything cut off at either end is a target |
| StringHelper.TrimEitherOrder | StringHelper.h:67-73 | trimming the right end first gives the same result |
| StringHelper.TrimIdempotent | StringHelper.h:67-73 | trimming twice is trimming once |
| StringHelper.TrimLeft | StringHelper.h:23-34 | the in-place TrimLeft is TrimLeft with the whitespace set; an all-whitespace string becomes "" |
| StringHelper.TrimRight | StringHelper.h:36-47 | the in-place TrimRight is TrimRight with the whitespace set |
| StringHelper.Trim | StringHelper.h:49-53 | the in-place Trim is Trim with the whitespace set |
| StringHelper.CaseRoundTrip | StringHelper.h:75-89 | mapping to one case and then to the other is mapping to the other, and leaves no letter of the first case |
| StringHelper.Upper | StringHelper.h:75-81 | same length, each character through toupper independently, no lower-case letter left |
| StringHelper.Lower | StringHelper.h:83-89 | same length, each character through tolower independently, no upper-case letter left |
| StringHelper.BeginsWith | StringHelper.h:111-115 | true exactly when the prefix is a prefix of s (always for "") |
| StringHelper.EndsWith | StringHelper.h:102-109 | true exactly when the suffix is a suffix of s (always for "") |
| StringHelper.LeadingZerosValue | StringHelper.h:237-247 | zeros in front of a numeral do not change its value |
| StringHelper.ZerosValue | StringHelper.h:237-247 | a string of zeros has the value 0 |
| StringHelper.RemoveFrontZero | StringHelper.h:237-247 | an all-zero or empty string is unchanged; otherwise the leading zeros are dropped and nothing else; a numeral keeps its value |
| StringSplit.SplitAll | StringHelper.h:118-141 | cutting at every separator gives between 1 and length + 1 pieces |
| StringSplit.JoinSplitAll | StringHelper.h:118-141 | the pieces glued with the separator give s back |
| StringSplit.SplitAllFree | StringHelper.h:118-141 | no piece contains the separator |
| StringSplit.SplitSepStep | StringHelper.h:126-133 | one turn of the separator loop takes the piece before the next separator and continues after it |
| StringSplit.SplitWsStep | StringHelper.h:147-156 | one turn of the whitespace loop takes the piece before the next whitespace and continues at the next non-whitespace |
| StringSplit.Split | StringHelper.h:118-165 | the pieces (or the exception) are those of SplitSpec, whose meaning SplitWithSeparator, SplitRejoins, SplitOnWhitespace and SplitOnWhitespaceAnyLimit state |
| StringSplit.SplitOnSeparator | StringHelper.h:122-141 | the separator branch's pieces are SplitSepFrom from the start |
| StringSplit.SplitSepLoopStep | StringHelper.h:126-135 | the separator loop's invariant survives one turn |
| StringSplit.SplitSepLoopExit | StringHelper.h:136-139 | after the loop, the remainder is appended unless the limit is reached |
| StringSplit.SplitOnSpaces | StringHelper.h:142-161 | the whitespace branch's pieces or exception are SplitWsFrom from the start: by SplitOnWhitespaceAnyLimit, a result is the first nMaxSplit whitespace-separated fields of s; by SplitOnWhitespace, with the limit out of reach, it throws exactly on trailing whitespace |
| StringSplit.SplitWsLoopStep | StringHelper.h:147-156 | the whitespace loop's invariant survives one turn |
| StringSplit.SplitWsLoopExit | StringHelper.h:157-160 | after the loop, the remainder is appended unless the limit is reached, and substr(npos) throws |
| StringSplit.SplitSepTakes | StringHelper.h:122-141 | the separator branch takes the first (limit - count) pieces of the reference walk |
| StringSplit.SplitSepTakesStep | StringHelper.h:126-133 | the inductive step of SplitSepTakes |
| StringSplit.SplitSepLast | StringHelper.h:136-139 | without a further separator, the rest is the last piece unless the limit is reached |
| StringSplit.SplitWithSeparator | StringHelper.h:122-141 | with a separator, Split returns at most nMaxSplit pieces, none containing the separator, and they are the leading pieces of the reference walk (the remainder is dropped at the limit) |
| StringSplit.SplitRejoins | StringHelper.h:122-141 | with no limit, the pieces glue back with the separator to give s exactly |
| StringSplit.SplitWsThrows | StringHelper.h:147-160 | with the limit out of reach, the whitespace branch throws exactly when s ends in whitespace |
| StringSplit.SplitOnWhitespace | StringHelper.h:117-161 | Split with an empty separator (limit out of reach) throws exactly when s ends in whitespace; otherwise no piece holds whitespace, every piece but the first is non-empty, and s is the pieces with a non-empty run of whitespace between each two neighbours |
| StringSplit.SplitWsFixedFields | StringHelper.h:142-161 | the corrected walk cuts s[b..] into pieces separated by non-empty runs of whitespace; only the first and last piece may be empty, the last only when s ends in whitespace |
| StringSplit.SplitOnWhitespaceAnyLimit | StringHelper.h:142-161 | for every nMaxSplit, a result of the whitespace branch is the first nMaxSplit fields of s (all of them when there are fewer), and asking for fewer than all the fields never throws |
| StringSplit.SplitLimitBeforeTrailingSpace | StringHelper.h:149-159 | with nMaxSplit 2, "a b " gives "a" and "b": the loop stops at the limit, so the final substr and its exception are skipped |
| StringSplit.WsFixedTakesFields | StringHelper.h:149-153 | under any limit the corrected walk gives the first limit fields |
| StringSplit.WsFixedTakes | StringHelper.h:149-153 | under a smaller limit the corrected walk keeps the leading pieces of the walk under a larger one |
| StringSplit.WsFixedLimitFree | StringHelper.h:149-153 | a limit the walk cannot reach does not change its pieces |
| StringSplit.WsThrowsWithinLimit | StringHelper.h:149-159 | the whitespace branch throws only when the fields still to take, added to those taken, stay within the limit |
| StringSplit.WsFieldsSeparate | StringHelper.h:117 | the fields are separated by non-empty runs of whitespace, and only the first and last can be empty |
| StringSplit.SplitWsFixedCut | StringHelper.h:146-153 | one cut: the piece before the whitespace found, then the walk resumed after the whole run, at a non-whitespace character or at the end |
| StringSplit.SplitTrailingSpaceThrows | StringHelper.h:155-159 | Split("a ") throws, where the corrected walk gives "a" and "" |
| StringSplit.SplitWsFixed | StringHelper.h:142-161 | the whitespace branch with the end of s standing in for npos (see Findings) |
| StringSplit.SplitWsFixedAgrees | StringHelper.h:142-161 | the corrected branch never throws, gives at most the limit's number of pieces, none holding whitespace, and agrees with Split wherever Split does not throw |
| StringSplit.Splice | StringHelper.h:97 | s.replace(p, n, ins) keeps what precedes p, puts ins at p and keeps what follows the replaced part |
| StringSplit.ReplaceStep | StringHelper.h:95-98 | a loop turn happens exactly when src is found, and each turn brings the walk closer to the end |
| StringSplit.ReplaceAll | StringHelper.h:91-100 | the result is the walk that inserts dst.c_str() and advances by dst.length(), for every input on which the loop ends |
| StringSplit.ReplaceEmptyInsertsNothing | StringHelper.h:95-98 | with an empty src and nothing inserted, every turn leaves the string as it is and the walk ends |
| StringSplit.ReplaceEmptySrcEnds | StringHelper.h:91-100 | ReplaceAll("ab", "", "\0") ends and gives "ab" |
| StringSplit.ReplaceWalkJoins | StringHelper.h:95-98 | the walk over u + t from |u| keeps u and replaces every reference-walk occurrence in t; inserted text is never rescanned |
| StringSplit.ReplaceWalkUnfold | StringHelper.h:95-98 | one turn of the walk at a found position |
| StringSplit.ReplaceStepAt | StringHelper.h:95-98 | the turn at a found position splices and advances |
| StringSplit.ReplaceWalkNext | StringHelper.h:95-98 | the walk continues from the turn's result |
| StringSplit.ReplaceWalkDone | StringHelper.h:95 | without a further occurrence the walk stops |
| StringSplit.SplitAllStep | StringHelper.h:126-133 | the reference walk at a found separator |
| StringSplit.SplitAllDone | StringHelper.h:136-139 | the reference walk without a separator is the whole string |
| StringSplit.SpliceInSuffix | StringHelper.h:97 | splicing within the suffix after u keeps u |
| StringSplit.JoinCons | StringHelper.h:118-141 | joining a first piece and the rest puts the separator between them |
| StringSplit.ReplaceAllJoins | StringHelper.h:91-100 | for dst without NUL, ReplaceAll replaces every non-overlapping occurrence of src, leftmost first, by dst without rescanning inserted text, and leaves s unchanged when src does not occur |
| StringSplit.ReplaceSkipsAfterNul | StringHelper.h:97-98 | with dst "\0b", ReplaceAll("aa", "a") gives "a": the second "a" is skipped |
| StringSplit.ReplaceFixedReplacesBoth | StringHelper.h:97-98 | the corrected replace turns "cc" with src "c" into dst twice for any dst, so "aa" with dst "\0b" becomes "\0b\0b" |
| StringSplit.ReplaceAllFixed | StringHelper.h:91-100 | inserting dst itself replaces every reference-walk occurrence, NUL or not, and leaves s unchanged when src does not occur |

## Left out

- The leak tracker `MemLeakHelper` (IXInterfaces.h:500-541, 550-566) is not modelled. It is diagnostic code built on stack back-traces, debug output and file access.
- The locks `VxCriticalSectionLock`, `VxMutexLock` and `VxLockHelper`, LockHelper.h and SingleAppDetecter.h are not modelled. Each registry call is treated as atomic.
- The atomicity of `_InterlockedIncrement` and `_InterlockedDecrement` is not modelled, and neither is the deadlock when a target re-enters the registry from `Fire`. These are concurrency concerns.
- Server.cpp, WorkThreadBase.cpp and WorkThreadBase.h are not part of this model. They hold service and thread glue with no computable logic.
- The `USE_BOOST` branches, the preprocessor macros (IXInterfaces.h:51-71) and the usage example under `#if 0` (IXInterfaces.h:1170-1408) are left out.
- `CXString` and `CXMemBuf` are thin adapters over `std::basic_string` and are left out.
- `VxSmartInterfacePtr::address()`, `operator*` and `operator->` (IXInterfaces.h:209-225) are left out. They hand out the raw pointer or its address.
  - `get`, `operator!` and `operator==` are `Get`, `IsNull` and `Equals`. They compare addresses only and carry no contract of their own.
- The `dynamic_cast` mechanics are abstracted. Each object carries the set of capabilities a downcast can reach (`TryAs`).
- Float and double serialisation (BlockArchive.cpp:134-156, 288-304) is not modelled, because it reinterprets floating-point bits.
- The formatting helpers (StringHelper.h:167-299) are not modelled. They rely on `vsnprintf`, string streams and doubles.
- toupper and tolower follow the "C" locale: only ASCII letters change.
- Template serialisers are modelled for scalar elements only: integers, bool and strings. Map keys are restricted to integer types. Nested containers are not modelled.
- RefCounting.RefObj.Release: requires a count of at least 1. The source only checks this with a debug assertion.
- RefCounting.SmartRef.AssignMove: requires that when source and target hold the same object, that object holds at least two references, one per owner.
- Enumerators.Enumerator.Current: requires a non-singular cursor. Current before the first MoveNext or Reset is undefined in the source.
- Enumerators.PairProj: carries no contract. It is the map enumerator's pair conversion.
- StringSplit.ReplaceAll: requires a non-empty `src`, or a `dst` holding a NUL. An empty `src` is found at every position. With a NUL-free `dst` each turn inserts as much as it advances, so the source loop never ends. With a NUL in `dst` it inserts less than it advances, and the loop ends.
  - The source's `int nPos`, compared with -1, is modelled as an unbounded position, so strings of 2^31 characters or more are not covered.
- StringHelper.RemoveFrontZero: the source's `int i` is modelled as unbounded.
- StringHelper.Upper: the source passes a plain `char` to `toupper` (StringHelper.h:79). Where `char` is signed, a byte of 0x80 or above is a negative argument, which is undefined behaviour (the MSVC runtime asserts). The model uses Dafny's `char`, leaves such characters unchanged and does not capture the undefined case.
- StringHelper.Lower: the same holds for `tolower` (StringHelper.h:87).
- Archive.BlockArchive: every method requires `Valid()`, a cursor no greater than the buffer's length. The caller shares the buffer and may shrink it below the cursor. The source then throws `out_of_range` from `Read` and `Write` (BlockArchive.cpp:30, 38) and from the readers, and the int8 writer appends at the end instead of writing at the cursor (BlockArchive.cpp:48-55). The model does not cover a buffer shrunk below the cursor.
- Enumerators.Enumerator: fixes `items` at construction. `CArrayEnumerator` is itself a `std::vector`, built empty and filled afterwards, and it can be changed between `MoveNext` calls (IXInterfaces.h:757-770). The model covers an enumerator over a vector that is not changed once enumeration starts. Iterator invalidation by a later change is not modelled.
- Archive.Decode: `size_t` is modelled as 64 bits. This also applies to `BlockArchive.ReadString` and `StringReadBounds`. On a 32-bit build, the string reader's check `m_uCursor + dwLen <= m_refBuf.length()` (BlockArchive.cpp:267) is a 32-bit sum that can wrap. For the buffer `FF FF FF FF 01 02 03 04` read as a string at cursor 0, the sum is 4 + 0xFFFFFFFF, which wraps to 3. The check passes. `assign` then takes the 4 remaining bytes, and `m_uCursor += dwLen` (line 270) moves the cursor back to 3. The model instead fails with `OutOfRange`. Its promises that a string read never passes the end of the buffer, and that a body running past the end throws, hold on the 64-bit build only.
- Archive.DecodeEncode: the round trip holds for strings shorter than 2^32 bytes. A longer string's length prefix is truncated, and reading back that prefix cannot recover the string.
- StringSplit.SplitRejoins: is stated for strings shorter than the default limit of 2^32 - 1, so that the limit is never reached.
- StringSplit.WsThrowsWithinLimit: when the limit can be reached, only this direction is stated (an exception means all fields were asked for). That the exception then also requires trailing whitespace is proved only with the limit out of reach (`SplitOnWhitespace`).
- `string&` parameters that the helpers change in place are modelled as a value in and a value out. Aliasing between arguments is not modelled.

## Findings

| source | as written | input that shows it | evidently intended | confidence | as-written member | corrected member |
|---|---|---|---|---|---|---|
| StringHelper.h:155-159 | after a trailing run of whitespace, `find_first_not_of` returns npos and the final `s.substr(npos)` throws `std::out_of_range` | `Split("a ", "")` | the pieces "a" and "" (a trailing run ends in an empty piece, as a leading run starts with one), no exception | not executed; high | StringSplit.SplitTrailingSpaceThrows | StringSplit.SplitWsFixedAgrees |
| StringHelper.h:97-98 | inserts `dst.c_str()`, which stops at the first NUL, and then advances by `dst.length()` | `ReplaceAll(s = "aa", src = "a", dst = "\0b")` gives "a" | every occurrence replaced by all of `dst`: "\0b\0b" | not executed; medium | StringSplit.ReplaceSkipsAfterNul | StringSplit.ReplaceAllFixed |

=== FILE: archive.dfy ===
/**
 * CBlockArchive: a read/write cursor over a byte string that belongs to the
 * caller. Integers travel in network byte order, a 64-bit integer as its high
 * and then its low 32 bits, a bool as one byte, a string as a 32-bit length
 * followed by its bytes. Reads check the bounds and throw out_of_range.
 *
 * The layer of functions (Overwrite, Encode, Decode) says what each operator
 * does to the bytes; the class's methods are proved against it.
 */
module Archive {
  import opened Ints

  /** std::string::replace(c, n, data, n) on a string of length >= c: the
      |data| bytes at c are replaced, and the string grows when they run past
      its end. */
  function Overwrite(b: seq<byte>, c: nat, data: seq<byte>): (r: seq<byte>)
    requires c <= |b|
    ensures |r| == if c + |data| <= |b| then |b| else c + |data|
    ensures r[..c] == b[..c]
    ensures r[c..c + |data|] == data
    ensures c + |data| <= |b| ==> r[c + |data|..] == b[c + |data|..]
  {
    b[..c] + data + (if c + |data| <= |b| then b[c + |data|..] else [])
  }

  /** Two writes at consecutive positions are one write of both. This is how
      the 64-bit and string operators build on the smaller ones. */
  lemma OverwriteConcat(b: seq<byte>, c: nat, x: seq<byte>, y: seq<byte>)
    requires c <= |b|
    ensures Overwrite(Overwrite(b, c, x), c + |x|, y) == Overwrite(b, c, x + y)
  {
    var l := Overwrite(Overwrite(b, c, x), c + |x|, y);
    var r := Overwrite(b, c, x + y);
    assert |l| == |r|;
    forall i | 0 <= i < |l| ensures l[i] == r[i] {
      if i < c {
        assert l[i] == l[..c][i];
        assert r[i] == r[..c][i];
      } else if i < c + |x| {
        assert l[i] == Overwrite(b, c, x)[i];
        assert Overwrite(b, c, x)[i] == Overwrite(b, c, x)[c..c + |x|][i - c];
        assert r[i] == r[c..c + |x + y|][i - c];
      } else if i < c + |x| + |y| {
        assert l[i] == l[c + |x|..c + |x| + |y|][i - c - |x|];
        assert r[i] == r[c..c + |x + y|][i - c];
      } else {
        assert l[i] == l[c + |x| + |y|..][i - c - |x| - |y|];
        assert r[i] == r[c + |x| + |y|..][i - c - |x| - |y|];
      }
    }
  }

  // -----------------------------------------------------------------------
  // What each operator writes

  /** The types the operators accept (float and double are not modelled). */
  datatype Kind = I8 | U8 | I16 | U16 | I32 | U32 | I64 | U64 | Bool | Str

  datatype Value = Int(n: int) | Flag(b: bool) | Text(s: seq<byte>)

  predicate IsIntKind(k: Kind) {
    k != Bool && k != Str
  }

  /** `v` is a value of the C++ type `k`. */
  predicate Fits(k: Kind, v: Value) {
    match k
    case I8 => v.Int? && -0x80 <= v.n < 0x80
    case U8 => v.Int? && 0 <= v.n < 0x100
    case I16 => v.Int? && -0x8000 <= v.n < 0x8000
    case U16 => v.Int? && 0 <= v.n < 0x1_0000
    case I32 => v.Int? && -0x8000_0000 <= v.n < 0x8000_0000
    case U32 => v.Int? && 0 <= v.n < 0x1_0000_0000
    case I64 => v.Int? && -0x8000_0000_0000_0000 <= v.n < 0x8000_0000_0000_0000
    case U64 => v.Int? && 0 <= v.n < 0x1_0000_0000_0000_0000
    case Bool => v.Flag?
    case Str => v.Text?
  }

  /** The value a default-constructed object of type `k` holds (what resize and
      map::operator[] insert). */
  function Default(k: Kind): (v: Value)
    ensures Fits(k, v)
  {
    match k
    case Bool => Flag(false)
    case Str => Text([])
    case _ => Int(0)
  }

  /** The high and low halves of a 64-bit value as the writer computes them:
      `(__int32)(v >> 32 & 0xFFFFFFFF)` and `(__int32)(v & 0xFFFFFFFF)`. */
  function Hi(n: i64): i32 {
    ToSigned(ToUnsigned(n, TWO64) / 0x1_0000_0000, TWO32)
  }

  function Lo(n: i64): i32 {
    ToSigned(ToUnsigned(n, TWO64) % 0x1_0000_0000, TWO32)
  }

  /** The bytes operator<< writes for `v`. Each unsigned overload converts to
      the signed type of its width and delegates, as the source does. */
  function Encode(k: Kind, v: Value): seq<byte>
    requires Fits(k, v)
    decreases k != I8 && k != I16 && k != I32, k == U64 || k == Str
  {
    match k
    case I8 => [ToUnsigned(v.n, TWO8)]
    case U8 => Encode(I8, Int(ToSigned(v.n, TWO8)))
    case I16 => BE16(ToUnsigned(v.n, TWO16))
    case U16 => Encode(I16, Int(ToSigned(v.n, TWO16)))
    case I32 => BE32(ToUnsigned(v.n, TWO32))
    case U32 => Encode(I32, Int(ToSigned(v.n, TWO32)))
    case I64 => Encode(I32, Int(Hi(v.n))) + Encode(I32, Int(Lo(v.n)))
    case U64 => Encode(I64, Int(ToSigned(v.n, TWO64)))
    case Bool => Encode(I8, Int(if v.b then 1 else 0))
    case Str => Encode(U32, Int(|v.s| % TWO32)) + v.s
  }

  /** The number of bytes of each fixed-size type. */
  function Width(k: Kind): nat
    requires k != Str
  {
    match k
    case I8 => 1
    case U8 => 1
    case Bool => 1
    case I16 => 2
    case U16 => 2
    case I32 => 4
    case U32 => 4
    case I64 => 8
    case U64 => 8
  }

  /** The layout: every integer in two's complement, big-endian, over its own
      width (the 64-bit one included, although it is written as two halves); a
      bool as the byte 0 or 1; a string as its length modulo 2^32, big-endian,
      then its bytes. */
  lemma EncodeLayout(k: Kind, v: Value)
    requires Fits(k, v)
    ensures k == I8 || k == U8 ==> Encode(k, v) == [ToUnsigned(v.n, TWO8)]
    ensures k == I16 || k == U16 ==> Encode(k, v) == BE16(ToUnsigned(v.n, TWO16))
    ensures k == I32 || k == U32 ==> Encode(k, v) == BE32(ToUnsigned(v.n, TWO32))
    ensures k == I64 || k == U64 ==> Encode(k, v) == BE64(ToUnsigned(v.n, TWO64))
    ensures k == Bool ==> Encode(k, v) == [if v.b then 1 else 0]
    ensures k == Str ==> Encode(k, v) == BE32(|v.s| % TWO32) + v.s
    ensures k != Str ==> |Encode(k, v)| == Width(k)
  {
    match k {
      case I64 => Int64Layout(v.n);
      case U64 => Int64Layout(ToSigned(v.n, TWO64));
      case _ =>
    }
  }

  lemma Int64Layout(n: i64)
    ensures Encode(I64, Int(n)) == BE64(ToUnsigned(n, TWO64))
  {
    var u := ToUnsigned(n, TWO64);
    UnsignedOfSigned(u / 0x1_0000_0000, TWO32);
    UnsignedOfSigned(u % 0x1_0000_0000, TWO32);
  }

  // -----------------------------------------------------------------------
  // What each operator reads

  /** The outcome of operator>> started at a position: the value and the
      position after it, or out_of_range thrown with the cursor left at `at`
      (a read made of several reads may already have moved it). */
  datatype Decoded = Got(v: Value, next: nat) | OutOfRange(at: nat)

  function Decode(k: Kind, b: seq<byte>, at: nat): (d: Decoded)
    requires at <= |b|
    ensures d.Got? ==> Fits(k, d.v) && at < d.next <= |b|
    ensures d.OutOfRange? ==> at <= d.at <= |b|
    decreases k != I8 && k != I16 && k != I32, k == U64 || k == Str
  {
    match k
    case I8 =>
      if at + 1 <= |b| then Got(Int(ToSigned(b[at], TWO8)), at + 1) else OutOfRange(at)
    case I16 =>
      if at + 2 <= |b| then Got(Int(ToSigned(FromBE16(b[at..at + 2]), TWO16)), at + 2)
      else OutOfRange(at)
    case I32 =>
      if at + 4 <= |b| then Got(Int(ToSigned(FromBE32(b[at..at + 4]), TWO32)), at + 4)
      else OutOfRange(at)
    case U8 =>
      var d := Decode(I8, b, at);
      if d.OutOfRange? then d else Got(Int(ToUnsigned(d.v.n, TWO8)), d.next)
    case U16 =>
      var d := Decode(I16, b, at);
      if d.OutOfRange? then d else Got(Int(ToUnsigned(d.v.n, TWO16)), d.next)
    case U32 =>
      var d := Decode(I32, b, at);
      if d.OutOfRange? then d else Got(Int(ToUnsigned(d.v.n, TWO32)), d.next)
    case I64 =>
      var hi := Decode(I32, b, at);
      if hi.OutOfRange? then hi
      else
        var lo := Decode(I32, b, hi.next);
        if lo.OutOfRange? then lo
        else Got(Int(hi.v.n * 0x1_0000_0000 + ToUnsigned(lo.v.n, TWO32)), lo.next)
    case U64 =>
      var d := Decode(I64, b, at);
      if d.OutOfRange? then d else Got(Int(ToUnsigned(d.v.n, TWO64)), d.next)
    case Bool =>
      var d := Decode(I8, b, at);
      if d.OutOfRange? then d else Got(Flag(d.v.n != 0), d.next)
    case Str =>
      var d := Decode(U32, b, at);
      if d.OutOfRange? then d
      else if d.next + d.v.n <= |b| then Got(Text(b[d.next..d.next + d.v.n]), d.next + d.v.n)
      else OutOfRange(d.next)
  }

  /** A fixed-size read succeeds exactly when enough bytes remain, and then
      consumes exactly its width. A failed 8, 16 or 32-bit read leaves the
      cursor where it was; a failed 64-bit read has already consumed the high
      half when that half was there. */
  lemma FixedReadBounds(k: Kind, b: seq<byte>, at: nat)
    requires at <= |b| && k != Str
    ensures Decode(k, b, at).Got? <==> at + Width(k) <= |b|
    ensures Decode(k, b, at).Got? ==> Decode(k, b, at).next == at + Width(k)
    ensures Decode(k, b, at).OutOfRange? && k != I64 && k != U64 ==> Decode(k, b, at).at == at
    ensures Decode(k, b, at).OutOfRange? && (k == I64 || k == U64) ==>
      Decode(k, b, at).at == (if at + 4 <= |b| then at + 4 else at)
  {
  }

  /** A string read throws when its length prefix is incomplete (cursor left
      in place) or when its body would run past the end (cursor left after the
      prefix). */
  lemma StringReadBounds(b: seq<byte>, at: nat)
    requires at <= |b|
    ensures at + 4 > |b| ==> Decode(Str, b, at) == OutOfRange(at)
    ensures at + 4 <= |b| ==>
      var len := FromBE32(b[at..at + 4]);
      Decode(Str, b, at) == if at + 4 + len <= |b| then Got(Text(b[at + 4..at + 4 + len]), at + 4 + len) else OutOfRange(at + 4)
  {
    if at + 4 <= |b| {
      var u := FromBE32(b[at..at + 4]);
      UnsignedOfSigned(u, TWO32);
    }
  }

  /** A bool read accepts any byte and yields whether it is non-zero. */
  lemma BoolReadIsNonZero(b: seq<byte>, at: nat)
    requires at < |b|
    ensures Decode(Bool, b, at) == Got(Flag(b[at] != 0), at + 1)
  {
  }

  /** Reading a kind where its encoding lies gives back the value written and
      stops right after it. Strings must be shorter than 2^32 bytes, the range
      of the length prefix. */
  lemma DecodeEncode(k: Kind, v: Value, b: seq<byte>, at: nat)
    requires Fits(k, v) && (k == Str ==> |v.s| < TWO32)
    requires at + |Encode(k, v)| <= |b| && b[at..at + |Encode(k, v)|] == Encode(k, v)
    ensures Decode(k, b, at) == Got(v, at + |Encode(k, v)|)
  {
    if k == I8 || k == I16 || k == I32 {
      DecodeEncodeNarrow(k, v, b, at);
    } else if k == U8 || k == U16 || k == U32 {
      DecodeEncodeUnsigned(k, v, b, at);
    } else if k == I64 {
      DecodeEncodeInt64(k, v, b, at);
    } else if k == U64 {
      DecodeEncodeUInt64(k, v, b, at);
    } else if k == Bool {
      DecodeEncodeBool(k, v, b, at);
    } else {
      DecodeEncodeString(k, v, b, at);
    }
  }

  /** The signed kind an unsigned kind delegates to. */
  function Signed(k: Kind): Kind
    requires k == U8 || k == U16 || k == U32
  {
    match k
    case U8 => I8
    case U16 => I16
    case U32 => I32
  }

  function Modulus(k: Kind): int
    requires k == U8 || k == U16 || k == U32
  {
    match k
    case U8 => TWO8
    case U16 => TWO16
    case U32 => TWO32
  }

  lemma DecodeEncodeUnsigned(k: Kind, v: Value, b: seq<byte>, at: nat)
    requires (k == U8 || k == U16 || k == U32) && Fits(k, v)
    requires at + |Encode(k, v)| <= |b| && b[at..at + |Encode(k, v)|] == Encode(k, v)
    ensures Decode(k, b, at) == Got(v, at + |Encode(k, v)|)
  {
    var m := Modulus(k);
    var w := Int(ToSigned(v.n, m));
    assert Encode(k, v) == Encode(Signed(k), w);
    DecodeEncodeNarrow(Signed(k), w, b, at);
    UnsignedOfSigned(v.n, m);
  }

  lemma DecodeEncodeUInt64(k: Kind, v: Value, b: seq<byte>, at: nat)
    requires k == U64 && Fits(k, v)
    requires at + |Encode(k, v)| <= |b| && b[at..at + |Encode(k, v)|] == Encode(k, v)
    ensures Decode(k, b, at) == Got(v, at + |Encode(k, v)|)
  {
    var w := Int(ToSigned(v.n, TWO64));
    assert Encode(k, v) == Encode(I64, w);
    DecodeEncodeInt64(I64, w, b, at);
    UnsignedOfSigned(v.n, TWO64);
  }

  lemma DecodeEncodeBool(k: Kind, v: Value, b: seq<byte>, at: nat)
    requires k == Bool && Fits(k, v)
    requires at + |Encode(k, v)| <= |b| && b[at..at + |Encode(k, v)|] == Encode(k, v)
    ensures Decode(k, b, at) == Got(v, at + |Encode(k, v)|)
  {
    var w := Int(if v.b then 1 else 0);
    assert Encode(k, v) == Encode(I8, w);
    DecodeEncodeNarrow(I8, w, b, at);
  }

  lemma DecodeEncodeNarrow(k: Kind, v: Value, b: seq<byte>, at: nat)
    requires k == I8 || k == I16 || k == I32
    requires Fits(k, v)
    requires at + |Encode(k, v)| <= |b| && b[at..at + |Encode(k, v)|] == Encode(k, v)
    ensures Decode(k, b, at) == Got(v, at + |Encode(k, v)|)
  {
    var e := Encode(k, v);
    match k {
      case I8 =>
        assert b[at] == e[0];
      case I16 =>
        BE16RoundTrip(ToUnsigned(v.n, TWO16));
      case I32 =>
        BE32RoundTrip(ToUnsigned(v.n, TWO32));
    }
  }

  lemma DecodeEncodeInt64(k: Kind, v: Value, b: seq<byte>, at: nat)
    requires k == I64 && Fits(k, v)
    requires at + |Encode(k, v)| <= |b| && b[at..at + |Encode(k, v)|] == Encode(k, v)
    ensures Decode(k, b, at) == Got(v, at + |Encode(k, v)|)
  {
    var n := v.n;
    var x, y := Encode(I32, Int(Hi(n))), Encode(I32, Int(Lo(n)));
    assert Encode(k, v) == x + y;
    SliceSplit(b, at, x, y);
    DecodeEncodeNarrow(I32, Int(Hi(n)), b, at);
    DecodeEncodeNarrow(I32, Int(Lo(n)), b, at + 4);
    HiLoJoin(n);
  }

  lemma DecodeEncodeString(k: Kind, v: Value, b: seq<byte>, at: nat)
    requires k == Str && Fits(k, v) && |v.s| < TWO32
    requires at + |Encode(k, v)| <= |b| && b[at..at + |Encode(k, v)|] == Encode(k, v)
    ensures Decode(k, b, at) == Got(v, at + |Encode(k, v)|)
  {
    var n := Int(|v.s| % TWO32);
    var x := Encode(U32, n);
    assert Encode(k, v) == x + v.s;
    SliceSplit(b, at, x, v.s);
    DecodeEncodeUnsigned(U32, n, b, at);
    ModOfSmall(|v.s|, TWO32);
    DecodeStrStep(b, at, |v.s|, at + |x|);
  }

  /** The string reader: the length, then that many bytes. */
  lemma DecodeStrStep(b: seq<byte>, at: nat, n: nat, next: nat)
    requires at <= |b| && Decode(U32, b, at) == Got(Int(n), next) && next + n <= |b|
    ensures Decode(Str, b, at) == Got(Text(b[next..next + n]), next + n)
  {
  }

  /** The reader's `(__int64(hi) << 32) | (__int64(lo) & 0xFFFFFFFF)` puts the
      two halves the writer split off back together. */
  lemma HiLoJoin(n: i64)
    ensures Hi(n) * 0x1_0000_0000 + ToUnsigned(Lo(n), TWO32) == n
  {
    var u := ToUnsigned(n, TWO64);
    var q, r := u / 0x1_0000_0000, u % 0x1_0000_0000;
    assert u == q * 0x1_0000_0000 + r;
    UnsignedOfSigned(r, TWO32);
  }

  lemma SliceSplit(b: seq<byte>, at: nat, x: seq<byte>, y: seq<byte>)
    requires at + |x| + |y| <= |b| && b[at..at + |x + y|] == x + y
    ensures b[at..at + |x|] == x
    ensures b[at + |x|..at + |x| + |y|] == y
  {
    assert b[at..at + |x|] == b[at..at + |x + y|][..|x|];
    assert b[at + |x|..at + |x| + |y|] == b[at..at + |x + y|][|x|..];
  }

  /** Writing `v` at `c` and reading the same kind at `c` gives back `v`,
      whatever else the buffer holds. */
  lemma WriteThenRead(k: Kind, v: Value, b: seq<byte>, c: nat)
    requires c <= |b| && Fits(k, v) && (k == Str ==> |v.s| < TWO32)
    ensures Decode(k, Overwrite(b, c, Encode(k, v)), c) == Got(v, c + |Encode(k, v)|)
  {
    DecodeEncode(k, v, Overwrite(b, c, Encode(k, v)), c);
  }

  // -----------------------------------------------------------------------
  // The archive object

  /** The caller's std::string, which the archive holds by reference. */
  class Buffer {
    var bytes: seq<byte>

    constructor (bytes: seq<byte>)
      ensures this.bytes == bytes
    {
      this.bytes := bytes;
    }
  }

  /** What a read operator hands back: the value, or out_of_range thrown. */
  datatype Outcome = Ok(value: Value) | Thrown

  /** The outcome and the new cursor a Decoded result stands for. */
  function Effect(d: Decoded): (Outcome, nat) {
    if d.Got? then (Ok(d.v), d.next) else (Thrown, d.at)
  }

  class BlockArchive {
    const buf: Buffer
    var cursor: nat

    ghost predicate Valid()
      reads this, buf
    {
      cursor <= |buf.bytes|
    }

    /** The archive starts at the beginning of the caller's buffer, which it
        leaves as it is. */
    constructor (buf: Buffer)
      ensures this.buf == buf && cursor == 0 && Valid()
    {
      this.buf := buf;
      cursor := 0;
    }

    method SetCursor(c: u64)
      modifies this
      ensures cursor == Min(c, |buf.bytes|) && Valid()
    {
      cursor := Min(c, |buf.bytes|);
    }

    /** The cursor as a DWORD. */
    method GetCursor() returns (r: u32)
      ensures r == cursor % TWO32
    {
      r := cursor % TWO32;
    }

    method GetBuffer() returns (b: seq<byte>)
      ensures b == buf.bytes
    {
      b := buf.bytes;
    }

    /** Read(buf, nMax): as many of the next nMax bytes as there are. */
    method ReadBytes(nMax: u32) returns (data: seq<byte>, n: u32)
      requires Valid()
      modifies this
      ensures n == Min(nMax, |buf.bytes| - old(cursor))
      ensures data == buf.bytes[old(cursor)..old(cursor) + n]
      ensures cursor == old(cursor) + n && Valid()
    {
      n := Min(nMax, |buf.bytes| - cursor);
      data := buf.bytes[cursor..cursor + n];
      cursor := cursor + n;
    }

    /** Write(lpBuf, nBytes). */
    method WriteBytes(data: seq<byte>)
      requires Valid() && |data| < TWO32
      modifies this, buf
      ensures buf.bytes == Overwrite(old(buf.bytes), old(cursor), data)
      ensures cursor == old(cursor) + |data| && Valid()
    {
      buf.bytes := Overwrite(buf.bytes, cursor, data);
      cursor := cursor + |data|;
    }

    method WriteInt8(v: i8)
      requires Valid()
      modifies this, buf
      ensures buf.bytes == Overwrite(old(buf.bytes), old(cursor), Encode(I8, Int(v)))
      ensures cursor == old(cursor) + 1 && Valid()
    {
      var u := ToUnsigned(v, TWO8);
      if cursor < |buf.bytes| {
        buf.bytes := buf.bytes[cursor := u];
      } else {
        buf.bytes := buf.bytes + [u];
      }
      cursor := cursor + 1;
    }

    method WriteUInt8(v: byte)
      requires Valid()
      modifies this, buf
      ensures buf.bytes == Overwrite(old(buf.bytes), old(cursor), Encode(U8, Int(v)))
      ensures cursor == old(cursor) + 1 && Valid()
    {
      WriteInt8(ToSigned(v, TWO8));
    }

    method WriteInt16(v: i16)
      requires Valid()
      modifies this, buf
      ensures buf.bytes == Overwrite(old(buf.bytes), old(cursor), Encode(I16, Int(v)))
      ensures cursor == old(cursor) + 2 && Valid()
    {
      var net := BE16(ToUnsigned(v, TWO16));
      buf.bytes := Overwrite(buf.bytes, cursor, net);
      cursor := cursor + 2;
    }

    method WriteUInt16(v: u16)
      requires Valid()
      modifies this, buf
      ensures buf.bytes == Overwrite(old(buf.bytes), old(cursor), Encode(U16, Int(v)))
      ensures cursor == old(cursor) + 2 && Valid()
    {
      WriteInt16(ToSigned(v, TWO16));
    }

    method WriteInt32(v: i32)
      requires Valid()
      modifies this, buf
      ensures buf.bytes == Overwrite(old(buf.bytes), old(cursor), Encode(I32, Int(v)))
      ensures cursor == old(cursor) + 4 && Valid()
    {
      var net := BE32(ToUnsigned(v, TWO32));
      buf.bytes := Overwrite(buf.bytes, cursor, net);
      cursor := cursor + 4;
    }

    method WriteUInt32(v: u32)
      requires Valid()
      modifies this, buf
      ensures buf.bytes == Overwrite(old(buf.bytes), old(cursor), Encode(U32, Int(v)))
      ensures cursor == old(cursor) + 4 && Valid()
    {
      WriteInt32(ToSigned(v, TWO32));
    }

    method WriteInt64(v: i64)
      requires Valid()
      modifies this, buf
      ensures buf.bytes == Overwrite(old(buf.bytes), old(cursor), Encode(I64, Int(v)))
      ensures cursor == old(cursor) + 8 && Valid()
    {
      WriteInt32(Hi(v));
      WriteInt32(Lo(v));
      OverwriteConcat(old(buf.bytes), old(cursor), Encode(I32, Int(Hi(v))), Encode(I32, Int(Lo(v))));
    }

    method WriteUInt64(v: u64)
      requires Valid()
      modifies this, buf
      ensures buf.bytes == Overwrite(old(buf.bytes), old(cursor), Encode(U64, Int(v)))
      ensures cursor == old(cursor) + 8 && Valid()
    {
      WriteInt64(ToSigned(v, TWO64));
    }

    method WriteString(s: seq<byte>)
      requires Valid()
      modifies this, buf
      ensures buf.bytes == Overwrite(old(buf.bytes), old(cursor), Encode(Str, Text(s)))
      ensures cursor == old(cursor) + 4 + |s| && Valid()
    {
      WriteUInt32(|s| % TWO32);
      buf.bytes := Overwrite(buf.bytes, cursor, s);
      cursor := cursor + |s|;
      OverwriteConcat(old(buf.bytes), old(cursor), Encode(U32, Int(|s| % TWO32)), s);
    }

    method WriteBool(b: bool)
      requires Valid()
      modifies this, buf
      ensures buf.bytes == Overwrite(old(buf.bytes), old(cursor), Encode(Bool, Flag(b)))
      ensures cursor == old(cursor) + 1 && Valid()
    {
      WriteInt8(if b then 1 else 0);
    }

    method ReadInt8() returns (r: Outcome)
      requires Valid()
      modifies this
      ensures (r, cursor) == Effect(Decode(I8, buf.bytes, old(cursor))) && Valid()
    {
      if cursor + 1 <= |buf.bytes| {
        r := Ok(Int(ToSigned(buf.bytes[cursor], TWO8)));
        cursor := cursor + 1;
      } else {
        r := Thrown;
      }
    }

    method ReadUInt8() returns (r: Outcome)
      requires Valid()
      modifies this
      ensures (r, cursor) == Effect(Decode(U8, buf.bytes, old(cursor))) && Valid()
    {
      r := ReadInt8();
      if r.Ok? {
        r := Ok(Int(ToUnsigned(r.value.n, TWO8)));
      }
    }

    method ReadInt16() returns (r: Outcome)
      requires Valid()
      modifies this
      ensures (r, cursor) == Effect(Decode(I16, buf.bytes, old(cursor))) && Valid()
    {
      if cursor + 2 <= |buf.bytes| {
        var raw := FromBE16(buf.bytes[cursor..cursor + 2]);
        cursor := cursor + 2;
        r := Ok(Int(ToSigned(raw, TWO16)));
      } else {
        r := Thrown;
      }
    }

    method ReadUInt16() returns (r: Outcome)
      requires Valid()
      modifies this
      ensures (r, cursor) == Effect(Decode(U16, buf.bytes, old(cursor))) && Valid()
    {
      r := ReadInt16();
      if r.Ok? {
        r := Ok(Int(ToUnsigned(r.value.n, TWO16)));
      }
    }

    method ReadInt32() returns (r: Outcome)
      requires Valid()
      modifies this
      ensures (r, cursor) == Effect(Decode(I32, buf.bytes, old(cursor))) && Valid()
    {
      if cursor + 4 <= |buf.bytes| {
        var raw := FromBE32(buf.bytes[cursor..cursor + 4]);
        cursor := cursor + 4;
        r := Ok(Int(ToSigned(raw, TWO32)));
      } else {
        r := Thrown;
      }
    }

    method ReadUInt32() returns (r: Outcome)
      requires Valid()
      modifies this
      ensures (r, cursor) == Effect(Decode(U32, buf.bytes, old(cursor))) && Valid()
    {
      r := ReadInt32();
      if r.Ok? {
        r := Ok(Int(ToUnsigned(r.value.n, TWO32)));
      }
    }

    method ReadInt64() returns (r: Outcome)
      requires Valid()
      modifies this
      ensures (r, cursor) == Effect(Decode(I64, buf.bytes, old(cursor))) && Valid()
    {
      var hi := ReadInt32();
      if hi.Thrown? {
        return Thrown;
      }
      var lo := ReadInt32();
      if lo.Thrown? {
        return Thrown;
      }
      r := Ok(Int(hi.value.n * 0x1_0000_0000 + ToUnsigned(lo.value.n, TWO32)));
    }

    method ReadUInt64() returns (r: Outcome)
      requires Valid()
      modifies this
      ensures (r, cursor) == Effect(Decode(U64, buf.bytes, old(cursor))) && Valid()
    {
      r := ReadInt64();
      if r.Ok? {
        r := Ok(Int(ToUnsigned(r.value.n, TWO64)));
      }
    }

    method ReadString() returns (r: Outcome)
      requires Valid()
      modifies this
      ensures (r, cursor) == Effect(Decode(Str, buf.bytes, old(cursor))) && Valid()
    {
      var len := ReadUInt32();
      if len.Thrown? {
        return Thrown;
      }
      if cursor + len.value.n <= |buf.bytes| {
        r := Ok(Text(buf.bytes[cursor..cursor + len.value.n]));
        cursor := cursor + len.value.n;
      } else {
        r := Thrown;
      }
    }

    method ReadBool() returns (r: Outcome)
      requires Valid()
      modifies this
      ensures (r, cursor) == Effect(Decode(Bool, buf.bytes, old(cursor))) && Valid()
    {
      r := ReadInt8();
      if r.Ok? {
        r := Ok(Flag(r.value.n != 0));
      }
    }

    /** operator<< for a value of kind `k`: the overload a template
        instantiated at that type calls. */
    method WriteValue(k: Kind, v: Value)
      requires Valid() && Fits(k, v)
      modifies this, buf
      ensures buf.bytes == Overwrite(old(buf.bytes), old(cursor), Encode(k, v))
      ensures cursor == old(cursor) + |Encode(k, v)| && Valid()
    {
      EncodeLayout(k, v);
      match k {
        case I8 => WriteInt8(v.n);
        case U8 => WriteUInt8(v.n);
        case I16 => WriteInt16(v.n);
        case U16 => WriteUInt16(v.n);
        case I32 => WriteInt32(v.n);
        case U32 => WriteUInt32(v.n);
        case I64 => WriteInt64(v.n);
        case U64 => WriteUInt64(v.n);
        case Bool => WriteBool(v.b);
        case Str => WriteString(v.s);
      }
    }

    /** operator>> for a value of kind `k`. */
    method ReadValue(k: Kind) returns (r: Outcome)
      requires Valid()
      modifies this
      ensures (r, cursor) == Effect(Decode(k, buf.bytes, old(cursor))) && Valid()
    {
      match k {
        case I8 => r := ReadInt8();
        case U8 => r := ReadUInt8();
        case I16 => r := ReadInt16();
        case U16 => r := ReadUInt16();
        case I32 => r := ReadInt32();
        case U32 => r := ReadUInt32();
        case I64 => r := ReadInt64();
        case U64 => r := ReadUInt64();
        case Bool => r := ReadBool();
        case Str => r := ReadString();
      }
    }
  }

  /** A caller's session: write an int64 and a string, seek back, read both;
      the archive's writes show in the caller's string. */
  method WriteSeekRead(owner: Buffer, n: i64, s: seq<byte>)
    requires |s| < TWO32 && |owner.bytes| < TWO32
    modifies owner
  {
    var ar := new BlockArchive(owner);
    var start := |owner.bytes|;
    ar.SetCursor(start);
    ar.WriteInt64(n);
    ar.WriteString(s);
    var written := owner.bytes;
    ar.SetCursor(start);
    var e1, e2 := Encode(I64, Int(n)), Encode(Str, Text(s));
    EncodeLayout(I64, Int(n));
    OverwriteConcat(old(owner.bytes), start, e1, e2);
    SliceSplit(written, start, e1, e2);
    var x := ar.ReadInt64();
    DecodeEncode(I64, Int(n), written, start);
    assert x == Ok(Int(n));
    var y := ar.ReadString();
    DecodeEncode(Str, Text(s), written, start + 8);
    assert y == Ok(Text(s));
  }
}

=== FILE: archive_collections.dfy ===
/**
 * The template serialisers of BlockArchive.h for std::vector, std::list and
 * std::map: a 32-bit count, then the elements (or key, value pairs) through
 * the archive's operators for the element type. Vector and list share one
 * layout and one reading procedure (resize to the count, then read each
 * element in order), so one pair of methods models both.
 *
 * Like the templates, the layouts are defined for any element writer and
 * reader; the methods use the archive's own (Writes(k), Reads(k)).
 */
module ArchiveCollections {
  import opened Ints
  import opened Ordering
  import opened Archive

  /** operator<< and operator>> for an element type, as functions. */
  type Writer = Value -> seq<byte>
  type Reader = (seq<byte>, nat) -> Decoded

  function Writes(k: Kind): Writer {
    v => if Fits(k, v) then Encode(k, v) else []
  }

  function Reads(k: Kind): Reader {
    (b: seq<byte>, at: nat) => if at <= |b| then Decode(k, b, at) else OutOfRange(at)
  }

  /** Reading `x` back where `enc` put it gives `x` and stops right after it,
      whatever surrounds it. */
  ghost predicate RoundTrips(enc: Writer, dec: Reader, x: Value) {
    forall b: seq<byte>, at: nat {:trigger RoundTripAt(enc, dec, x, b, at)} :: RoundTripAt(enc, dec, x, b, at)
  }

  /** The round trip of `x` at position `at` of `b`. */
  ghost predicate RoundTripAt(enc: Writer, dec: Reader, x: Value, b: seq<byte>, at: nat) {
    at + |enc(x)| <= |b| && b[at..at + |enc(x)|] == enc(x) ==> dec(b, at) == Got(x, at + |enc(x)|)
  }

  /** The archive's operators round-trip every value of their type, strings
      up to 2^32 - 1 bytes. */
  lemma ScalarRoundTrips(k: Kind, x: Value)
    requires Fits(k, x) && (x.Text? ==> |x.s| < TWO32)
    ensures RoundTrips(Writes(k), Reads(k), x)
  {
    var e := Encode(k, x);
    assert Writes(k)(x) == e;
    forall b: seq<byte>, at: nat ensures RoundTripAt(Writes(k), Reads(k), x, b, at) {
      if at + |e| <= |b| && b[at..at + |e|] == e {
        DecodeEncode(k, x, b, at);
      }
    }
  }

  /** The count in front of a container's elements reads back, and the
      elements start four bytes later. */
  lemma CountRoundTrip(n: nat, rest: seq<byte>, b: seq<byte>, at: nat)
    requires n < TWO32
    requires at + |Encode(U32, Int(n % TWO32)) + rest| <= |b|
    requires b[at..at + |Encode(U32, Int(n % TWO32)) + rest|] == Encode(U32, Int(n % TWO32)) + rest
    ensures |Encode(U32, Int(n % TWO32))| == 4
    ensures Decode(U32, b, at) == Got(Int(n), at + 4)
    ensures b[at + 4..at + 4 + |rest|] == rest
  {
    var count := Encode(U32, Int(n % TWO32));
    SliceSplit(b, at, count, rest);
    DecodeEncodeUnsigned(U32, Int(n % TWO32), b, at);
    EncodeLayout(U32, Int(n % TWO32));
    ModOfSmall(n, TWO32);
  }

  // -----------------------------------------------------------------------
  // Sequences (std::vector and std::list)

  function EncodeAll(enc: Writer, xs: seq<Value>): seq<byte> {
    if xs == [] then [] else enc(xs[0]) + EncodeAll(enc, xs[1..])
  }

  /** What the vector and list writers produce: the count as an unsigned
      32-bit integer, then every element in order. */
  function EncodeSeq(enc: Writer, xs: seq<Value>): seq<byte> {
    Encode(U32, Int(|xs| % TWO32)) + EncodeAll(enc, xs)
  }

  lemma {:induction false} EncodeAllSnoc(enc: Writer, xs: seq<Value>, x: Value)
    ensures EncodeAll(enc, xs + [x]) == EncodeAll(enc, xs) + enc(x)
    decreases |xs|
  {
    if xs == [] {
      assert [] + [x] == [x];
      assert [x][1..] == [];
    } else {
      assert (xs + [x])[0] == xs[0];
      assert (xs + [x])[1..] == xs[1..] + [x];
      EncodeAllSnoc(enc, xs[1..], x);
    }
  }

  /** std::vector::resize and std::list::resize: keep the first n elements,
      fill up with default values. */
  function Resize(xs: seq<Value>, n: nat, d: Value): (r: seq<Value>)
    ensures |r| == n
    ensures forall i :: 0 <= i < n ==> r[i] == if i < |xs| then xs[i] else d
  {
    if n <= |xs| then xs[..n] else xs + seq(n - |xs|, _ => d)
  }

  /** The container after a read, where the cursor stopped, and whether the
      read reached the end without out_of_range. */
  datatype SeqRead = SeqRead(vals: seq<Value>, stop: nat, ok: bool)

  /** Reading elements i.. of `vals` in place, one after the other. Elements
      before the one that fails have been read; it and those after it keep
      what they held. */
  function DecodeElems(dec: Reader, b: seq<byte>, at: nat, vals: seq<Value>, i: nat): (r: SeqRead)
    requires i <= |vals|
    ensures |r.vals| == |vals| && r.vals[..i] == vals[..i]
    decreases |vals| - i
  {
    if i == |vals| then SeqRead(vals, at, true)
    else
      var d := dec(b, at);
      if d.OutOfRange? then SeqRead(vals, d.at, false)
      else
        var r := DecodeElems(dec, b, d.next, vals[i := d.v], i + 1);
        assert r.vals[..i] == r.vals[..i + 1][..i];
        r
  }

  /** What the vector and list readers do to the container `init`: read the
      count (on failure the container is untouched), resize to it, then
      overwrite the elements in order until one read fails. */
  function DecodeSeq(dec: Reader, d: Value, b: seq<byte>, at: nat, init: seq<Value>): (r: SeqRead)
    requires at <= |b|
    ensures Decode(U32, b, at).OutOfRange? ==> r == SeqRead(init, Decode(U32, b, at).at, false)
    ensures Decode(U32, b, at).Got? ==> |r.vals| == Decode(U32, b, at).v.n
  {
    var n := Decode(U32, b, at);
    if n.OutOfRange? then SeqRead(init, n.at, false)
    else DecodeElems(dec, b, n.next, Resize(init, n.v.n, d), 0)
  }

  lemma {:induction false} DecodeElemsEncoded(enc: Writer, dec: Reader, b: seq<byte>, at: nat, vals: seq<Value>, i: nat, xs: seq<Value>)
    requires |vals| == |xs| && i <= |xs| && vals[..i] == xs[..i]
    requires forall j :: 0 <= j < |xs| ==> RoundTrips(enc, dec, xs[j])
    requires at + |EncodeAll(enc, xs[i..])| <= |b| && b[at..at + |EncodeAll(enc, xs[i..])|] == EncodeAll(enc, xs[i..])
    ensures DecodeElems(dec, b, at, vals, i) == SeqRead(xs, at + |EncodeAll(enc, xs[i..])|, true)
    decreases |xs| - i
  {
    if i == |xs| {
      assert vals == vals[..i] && xs == xs[..i];
    } else {
      var x, rest := enc(xs[i]), EncodeAll(enc, xs[i + 1..]);
      assert EncodeAll(enc, xs[i..]) == x + rest by {
        assert xs[i..][0] == xs[i] && xs[i..][1..] == xs[i + 1..];
      }
      SliceSplit(b, at, x, rest);
      assert RoundTrips(enc, dec, xs[i]);
      assert RoundTripAt(enc, dec, xs[i], b, at);
      var vals' := vals[i := xs[i]];
      assert vals'[..i + 1] == xs[..i + 1] by {
        assert vals'[..i + 1] == vals[..i] + [xs[i]];
        assert xs[..i + 1] == xs[..i] + [xs[i]];
      }
      DecodeElemsEncoded(enc, dec, b, at + |x|, vals', i + 1, xs);
    }
  }

  /** Round trip: reading what the writer produced gives back the elements
      exactly, whatever the target container held before, and stops right
      after them. */
  lemma SeqRoundTrip(enc: Writer, dec: Reader, d: Value, xs: seq<Value>, init: seq<Value>, b: seq<byte>, at: nat)
    requires |xs| < TWO32 && forall j :: 0 <= j < |xs| ==> RoundTrips(enc, dec, xs[j])
    requires at + |EncodeSeq(enc, xs)| <= |b| && b[at..at + |EncodeSeq(enc, xs)|] == EncodeSeq(enc, xs)
    ensures DecodeSeq(dec, d, b, at, init) == SeqRead(xs, at + |EncodeSeq(enc, xs)|, true)
  {
    CountRoundTrip(|xs|, EncodeAll(enc, xs), b, at);
    assert xs[0..] == xs;
    DecodeElemsEncoded(enc, dec, b, at + 4, Resize(init, |xs|, d), 0, xs);
  }

  /** The archive's vector and list round trip for elements of kind `k`. */
  lemma ScalarSeqRoundTrip(k: Kind, xs: seq<Value>, init: seq<Value>, b: seq<byte>, at: nat)
    requires |xs| < TWO32
    requires forall j :: 0 <= j < |xs| ==> Fits(k, xs[j]) && (xs[j].Text? ==> |xs[j].s| < TWO32)
    requires at + |EncodeSeq(Writes(k), xs)| <= |b| && b[at..at + |EncodeSeq(Writes(k), xs)|] == EncodeSeq(Writes(k), xs)
    ensures DecodeSeq(Reads(k), Default(k), b, at, init) == SeqRead(xs, at + |EncodeSeq(Writes(k), xs)|, true)
  {
    forall j | 0 <= j < |xs| ensures RoundTrips(Writes(k), Reads(k), xs[j]) {
      ScalarRoundTrips(k, xs[j]);
    }
    SeqRoundTrip(Writes(k), Reads(k), Default(k), xs, init, b, at);
  }

  lemma EncodeAllStep(enc: Writer, xs: seq<Value>, i: nat)
    requires i < |xs|
    ensures EncodeAll(enc, xs[..i + 1]) == EncodeAll(enc, xs[..i]) + enc(xs[i])
  {
    assert xs[..i + 1] == xs[..i] + [xs[i]];
    EncodeAllSnoc(enc, xs[..i], xs[i]);
  }

  /** The vector and list writers' loop over the elements. */
  method WriteElems(ar: BlockArchive, k: Kind, xs: seq<Value>)
    requires ar.Valid() && forall j :: 0 <= j < |xs| ==> Fits(k, xs[j])
    modifies ar, ar.buf
    ensures ar.buf.bytes == Overwrite(old(ar.buf.bytes), old(ar.cursor), EncodeAll(Writes(k), xs))
    ensures ar.cursor == old(ar.cursor) + |EncodeAll(Writes(k), xs)| && ar.Valid()
  {
    ghost var b0, c0 := ar.buf.bytes, ar.cursor;
    ghost var w: seq<byte> := [];
    assert xs[..0] == [];
    assert Overwrite(b0, c0, w) == b0;
    var i := 0;
    while i < |xs|
      invariant 0 <= i <= |xs| && ar.Valid()
      invariant w == EncodeAll(Writes(k), xs[..i])
      invariant ar.buf.bytes == Overwrite(b0, c0, w) && ar.cursor == c0 + |w|
    {
      ar.WriteValue(k, xs[i]);
      OverwriteConcat(b0, c0, w, Writes(k)(xs[i]));
      EncodeAllStep(Writes(k), xs, i);
      w := w + Writes(k)(xs[i]);
      i := i + 1;
    }
    assert xs[..i] == xs;
  }

  /** operator<< for std::vector<T> (and the same loop over a std::list<T>). */
  method WriteSeq(ar: BlockArchive, k: Kind, xs: seq<Value>)
    requires ar.Valid() && forall j :: 0 <= j < |xs| ==> Fits(k, xs[j])
    modifies ar, ar.buf
    ensures ar.buf.bytes == Overwrite(old(ar.buf.bytes), old(ar.cursor), EncodeSeq(Writes(k), xs))
    ensures ar.cursor == old(ar.cursor) + |EncodeSeq(Writes(k), xs)| && ar.Valid()
  {
    ghost var b0, c0 := ar.buf.bytes, ar.cursor;
    ar.WriteUInt32(|xs| % TWO32);
    EncodeLayout(U32, Int(|xs| % TWO32));
    WriteElems(ar, k, xs);
    OverwriteConcat(b0, c0, Encode(U32, Int(|xs| % TWO32)), EncodeAll(Writes(k), xs));
  }

  /** operator>> for std::vector<T> and std::list<T>: `vals` is the target
      container, returned as it stands afterwards; `ok` is false when
      out_of_range was thrown. */
  method ReadSeq(ar: BlockArchive, k: Kind, vals: seq<Value>) returns (ok: bool, out: seq<Value>)
    requires ar.Valid()
    modifies ar
    ensures DecodeSeq(Reads(k), Default(k), ar.buf.bytes, old(ar.cursor), vals) == SeqRead(out, ar.cursor, ok)
    ensures ar.Valid()
  {
    var n := ar.ReadUInt32();
    if n.Thrown? {
      return false, vals;
    }
    out := Resize(vals, n.value.n, Default(k));
    var i := 0;
    while i < |out|
      invariant 0 <= i <= |out| && ar.Valid()
      invariant DecodeElems(Reads(k), ar.buf.bytes, ar.cursor, out, i) == DecodeSeq(Reads(k), Default(k), ar.buf.bytes, old(ar.cursor), vals)
    {
      var r := ar.ReadValue(k);
      if r.Thrown? {
        return false, out;
      }
      out := out[i := r.value];
      i := i + 1;
    }
    return true, out;
  }

  // -----------------------------------------------------------------------
  // Maps (std::map with an integer key type)

  /** One map entry: its key, then its value. */
  function EntryBytes(kenc: Writer, venc: Writer, p: (int, Value)): seq<byte> {
    kenc(Int(p.0)) + venc(p.1)
  }

  function EncodeEntries(kenc: Writer, venc: Writer, ps: seq<(int, Value)>): seq<byte> {
    if ps == [] then []
    else EntryBytes(kenc, venc, ps[0]) + EncodeEntries(kenc, venc, ps[1..])
  }

  /** What the map writer produces: the count, then key and value of every
      entry in ascending key order. */
  function EncodeMap(kenc: Writer, venc: Writer, m: map<int, Value>): seq<byte> {
    Encode(U32, Int(|m| % TWO32)) + EncodeEntries(kenc, venc, MapItems(m))
  }

  lemma {:induction false} EncodeEntriesSnoc(kenc: Writer, venc: Writer, ps: seq<(int, Value)>, p: (int, Value))
    ensures EncodeEntries(kenc, venc, ps + [p]) == EncodeEntries(kenc, venc, ps) + EntryBytes(kenc, venc, p)
    decreases |ps|
  {
    if ps == [] {
      assert [] + [p] == [p];
      assert [p][1..] == [];
    } else {
      assert (ps + [p])[0] == ps[0];
      assert (ps + [p])[1..] == ps[1..] + [p];
      EncodeEntriesSnoc(kenc, venc, ps[1..], p);
    }
  }

  datatype MapRead = MapRead(m: map<int, Value>, stop: nat, ok: bool)

  /** Reading one key, value pair into `m`: `m[key]` inserts the default
      value `d` for a new key before the value is read, so a failed value read
      leaves that entry behind. A key reader yields integers. On success `ok`
      holds and `stop` is where the next entry starts. */
  function DecodeEntry(kdec: Reader, vdec: Reader, d: Value, b: seq<byte>, at: nat, m: map<int, Value>): MapRead {
    var dk := kdec(b, at);
    if dk.OutOfRange? then MapRead(m, dk.at, false)
    else if !dk.v.Int? then MapRead(m, dk.next, false)
    else
      var key := dk.v.n;
      var m1 := if key in m then m else m[key := d];
      var dv := vdec(b, dk.next);
      if dv.OutOfRange? then MapRead(m1, dv.at, false)
      else MapRead(m1[key := dv.v], dv.next, true)
  }

  /** Reading `remaining` pairs into `m`, stopping at the first failure. */
  function DecodeEntries(kdec: Reader, vdec: Reader, d: Value, b: seq<byte>, at: nat, m: map<int, Value>, remaining: nat): MapRead
    decreases remaining
  {
    if remaining == 0 then MapRead(m, at, true)
    else
      var e := DecodeEntry(kdec, vdec, d, b, at, m);
      if !e.ok then e else DecodeEntries(kdec, vdec, d, b, e.stop, e.m, remaining - 1)
  }

  lemma DecodeEntriesStep(kdec: Reader, vdec: Reader, d: Value, b: seq<byte>, at: nat, m: map<int, Value>,
                          remaining: nat, m': map<int, Value>, stop: nat, remaining': nat)
    requires remaining == remaining' + 1 && DecodeEntry(kdec, vdec, d, b, at, m) == MapRead(m', stop, true)
    ensures DecodeEntries(kdec, vdec, d, b, at, m, remaining) == DecodeEntries(kdec, vdec, d, b, stop, m', remaining')
  {
  }

  /** What the map reader does to the map `m`. */
  function DecodeMap(kdec: Reader, vdec: Reader, d: Value, b: seq<byte>, at: nat, m: map<int, Value>): (r: MapRead)
    requires at <= |b|
    ensures Decode(U32, b, at).OutOfRange? ==> r == MapRead(m, Decode(U32, b, at).at, false)
  {
    var n := Decode(U32, b, at);
    if n.OutOfRange? then MapRead(m, n.at, false)
    else DecodeEntries(kdec, vdec, d, b, n.next, m, n.v.n)
  }

  lemma {:induction false} DecodeEntriesKeepsKeys(kdec: Reader, vdec: Reader, d: Value, b: seq<byte>, at: nat,
                                                  m: map<int, Value>, remaining: nat)
    ensures m.Keys <= DecodeEntries(kdec, vdec, d, b, at, m, remaining).m.Keys
    decreases remaining
  {
    if remaining > 0 {
      var e := DecodeEntry(kdec, vdec, d, b, at, m);
      if e.ok {
        DecodeEntriesKeepsKeys(kdec, vdec, d, b, e.stop, e.m, remaining - 1);
      }
    }
  }

  /** The map reader only adds or overwrites entries: every key already in
      `m` is still there afterwards, whether the read succeeds or fails. */
  lemma DecodeMapKeepsKeys(kdec: Reader, vdec: Reader, d: Value, b: seq<byte>, at: nat, m: map<int, Value>)
    requires at <= |b|
    ensures m.Keys <= DecodeMap(kdec, vdec, d, b, at, m).m.Keys
  {
    var n := Decode(U32, b, at);
    if n.Got? {
      DecodeEntriesKeepsKeys(kdec, vdec, d, b, n.next, m, n.v.n);
    }
  }

  /** Storing the entries into `acc` one after the other: a later value for
      the same key replaces an earlier one. */
  function Insert(acc: map<int, Value>, ps: seq<(int, Value)>): map<int, Value>
    decreases |ps|
  {
    if ps == [] then acc else Insert(acc[ps[0].0 := ps[0].1], ps[1..])
  }

  function KeySet(ps: seq<(int, Value)>): set<int> {
    set i | 0 <= i < |ps| :: ps[i].0
  }

  lemma KeySetCons(ps: seq<(int, Value)>)
    requires ps != []
    ensures KeySet(ps) == {ps[0].0} + KeySet(ps[1..])
  {
    forall x | x in KeySet(ps) ensures x in {ps[0].0} + KeySet(ps[1..]) {
      var i :| 0 <= i < |ps| && ps[i].0 == x;
      if i > 0 {
        assert ps[1..][i - 1].0 == x;
      }
    }
    forall x | x in KeySet(ps[1..]) ensures x in KeySet(ps) {
      var i :| 0 <= i < |ps[1..]| && ps[1..][i].0 == x;
      assert ps[i + 1].0 == x;
    }
  }

  /** The result holds the old keys and the inserted ones, no others; the
      last pair for a key decides its value; a key no pair names keeps the
      value it had in `acc`. */
  lemma {:induction false} InsertKeepsAndLaterWins(acc: map<int, Value>, ps: seq<(int, Value)>)
    ensures Insert(acc, ps).Keys == acc.Keys + KeySet(ps)
    ensures forall i :: 0 <= i < |ps| && (forall j :: i < j < |ps| ==> ps[j].0 != ps[i].0) ==>
      Insert(acc, ps)[ps[i].0] == ps[i].1
    ensures forall k :: k in acc && k !in KeySet(ps) ==> Insert(acc, ps)[k] == acc[k]
    decreases |ps|
  {
    if ps != [] {
      var acc', tl := acc[ps[0].0 := ps[0].1], ps[1..];
      InsertKeepsAndLaterWins(acc', tl);
      KeySetCons(ps);
      forall i | 0 <= i < |ps| && (forall j :: i < j < |ps| ==> ps[j].0 != ps[i].0)
        ensures Insert(acc, ps)[ps[i].0] == ps[i].1
      {
        if i == 0 {
          forall j | 0 <= j < |tl| ensures tl[j].0 != ps[0].0 {
            assert tl[j] == ps[j + 1];
          }
        } else {
          forall j | i - 1 < j < |tl| ensures tl[j].0 != tl[i - 1].0 {
            assert ps[j + 1].0 != ps[i].0;
          }
          assert tl[i - 1] == ps[i];
        }
      }
    }
  }

  /** The entries of `m` whose keys are in `ks`. */
  function Restrict(m: map<int, Value>, ks: set<int>): map<int, Value> {
    map k | k in ks && k in m :: m[k]
  }

  /** Inserting entries that agree with `m` adds exactly those entries of `m`. */
  lemma {:induction false} InsertAgreeing(acc: map<int, Value>, ps: seq<(int, Value)>, m: map<int, Value>)
    requires forall i :: 0 <= i < |ps| ==> ps[i].0 in m && m[ps[i].0] == ps[i].1
    ensures Insert(acc, ps) == acc + Restrict(m, KeySet(ps))
    decreases |ps|
  {
    if ps == [] {
      assert Restrict(m, KeySet(ps)) == map[];
    } else {
      InsertAgreeing(acc[ps[0].0 := ps[0].1], ps[1..], m);
      KeySetCons(ps);
      RestrictAddKey(acc, m, ps[0].0, KeySet(ps[1..]));
    }
  }

  lemma RestrictAddKey(acc: map<int, Value>, m: map<int, Value>, k: int, ks: set<int>)
    requires k in m
    ensures acc[k := m[k]] + Restrict(m, ks) == acc + Restrict(m, {k} + ks)
  {
  }

  /** Reading one entry that the map writer produced stores it and stops
      right after it. */
  lemma DecodeEntryEncoded(kenc: Writer, venc: Writer, kdec: Reader, vdec: Reader, d: Value,
                           b: seq<byte>, at: nat, acc: map<int, Value>, p: (int, Value))
    requires RoundTrips(kenc, kdec, Int(p.0)) && RoundTrips(venc, vdec, p.1)
    requires at + |EntryBytes(kenc, venc, p)| <= |b|
    requires b[at..at + |EntryBytes(kenc, venc, p)|] == EntryBytes(kenc, venc, p)
    ensures DecodeEntry(kdec, vdec, d, b, at, acc) == MapRead(acc[p.0 := p.1], at + |EntryBytes(kenc, venc, p)|, true)
  {
    var key, val := kenc(Int(p.0)), venc(p.1);
    SliceSplit(b, at, key, val);
    assert RoundTripAt(kenc, kdec, Int(p.0), b, at);
    assert RoundTripAt(venc, vdec, p.1, b, at + |key|);
    var m1 := if p.0 in acc then acc else acc[p.0 := d];
    assert m1[p.0 := p.1] == acc[p.0 := p.1];
  }

  /** Every key and every value in `ps` round-trips. */
  ghost predicate EntriesRoundTrip(kenc: Writer, venc: Writer, kdec: Reader, vdec: Reader, ps: seq<(int, Value)>)
    decreases |ps|
  {
    ps != [] ==>
      && RoundTrips(kenc, kdec, Int(ps[0].0)) && RoundTrips(venc, vdec, ps[0].1)
      && EntriesRoundTrip(kenc, venc, kdec, vdec, ps[1..])
  }

  lemma {:induction false} EntriesOfMapRoundTrip(kenc: Writer, venc: Writer, kdec: Reader, vdec: Reader,
                                                 m: map<int, Value>, ps: seq<(int, Value)>)
    requires forall i :: 0 <= i < |ps| ==> ps[i].0 in m && m[ps[i].0] == ps[i].1
    requires forall key :: key in m ==> RoundTrips(kenc, kdec, Int(key)) && RoundTrips(venc, vdec, m[key])
    ensures EntriesRoundTrip(kenc, venc, kdec, vdec, ps)
    decreases |ps|
  {
    if ps != [] {
      assert ps[0].0 in m;
      EntriesOfMapRoundTrip(kenc, venc, kdec, vdec, m, ps[1..]);
    }
  }

  lemma {:induction false} DecodeEntriesEncoded(kenc: Writer, venc: Writer, kdec: Reader, vdec: Reader, d: Value,
                                                b: seq<byte>, at: nat, acc: map<int, Value>, ps: seq<(int, Value)>)
    requires EntriesRoundTrip(kenc, venc, kdec, vdec, ps)
    requires at + |EncodeEntries(kenc, venc, ps)| <= |b|
    requires b[at..at + |EncodeEntries(kenc, venc, ps)|] == EncodeEntries(kenc, venc, ps)
    ensures DecodeEntries(kdec, vdec, d, b, at, acc, |ps|) == MapRead(Insert(acc, ps), at + |EncodeEntries(kenc, venc, ps)|, true)
    decreases |ps|
  {
    if ps != [] {
      var e, rest := EntryBytes(kenc, venc, ps[0]), EncodeEntries(kenc, venc, ps[1..]);
      var acc' := acc[ps[0].0 := ps[0].1];
      assert EncodeEntries(kenc, venc, ps) == e + rest;
      SliceSplit(b, at, e, rest);
      DecodeEntryEncoded(kenc, venc, kdec, vdec, d, b, at, acc, ps[0]);
      DecodeEntriesStep(kdec, vdec, d, b, at, acc, |ps|, acc', at + |e|, |ps[1..]|);
      DecodeEntriesEncoded(kenc, venc, kdec, vdec, d, b, at + |e|, acc', ps[1..]);
      assert Insert(acc, ps) == Insert(acc', ps[1..]);
    }
  }

  /** Every key of `m` has an entry in MapItems(m), so the entries cover `m`. */
  lemma MapItemsKeys(m: map<int, Value>)
    ensures KeySet(MapItems(m)) == m.Keys
  {
    var ps := MapItems(m);
    forall k | k in m ensures k in KeySet(ps) {
      var i := MapItemsIndex(m, k);
      assert ps[i].0 == k;
    }
  }

  lemma RestrictToAllKeys(m: map<int, Value>, ks: set<int>)
    requires ks == m.Keys
    ensures Restrict(m, ks) == m
  {
  }

  lemma MapItemsCover(m: map<int, Value>)
    ensures Restrict(m, KeySet(MapItems(m))) == m
  {
    MapItemsKeys(m);
    RestrictToAllKeys(m, KeySet(MapItems(m)));
  }

  /** Storing the entries of `m` in iteration order into `acc` is `acc + m`. */
  lemma InsertMapItems(acc: map<int, Value>, m: map<int, Value>)
    ensures Insert(acc, MapItems(m)) == acc + m
  {
    MapItemsCover(m);
    InsertAgreeing(acc, MapItems(m), m);
  }

  lemma DecodeMapFromParts(kenc: Writer, venc: Writer, kdec: Reader, vdec: Reader, d: Value,
                           b: seq<byte>, at: nat, acc: map<int, Value>, ps: seq<(int, Value)>)
    requires at <= |b| && Decode(U32, b, at) == Got(Int(|ps|), at + 4)
    requires EntriesRoundTrip(kenc, venc, kdec, vdec, ps)
    requires at + 4 + |EncodeEntries(kenc, venc, ps)| <= |b|
    requires b[at + 4..at + 4 + |EncodeEntries(kenc, venc, ps)|] == EncodeEntries(kenc, venc, ps)
    ensures DecodeMap(kdec, vdec, d, b, at, acc) == MapRead(Insert(acc, ps), at + 4 + |EncodeEntries(kenc, venc, ps)|, true)
  {
    DecodeEntriesEncoded(kenc, venc, kdec, vdec, d, b, at + 4, acc, ps);
  }

  /** Round trip: reading what the map writer produced into any map `acc`
      gives `acc` with every entry of `m` added or replaced, and stops right
      after the encoding. */
  lemma MapRoundTrip(kenc: Writer, venc: Writer, kdec: Reader, vdec: Reader, d: Value,
                     m: map<int, Value>, acc: map<int, Value>, b: seq<byte>, at: nat)
    requires |m| < TWO32
    requires forall key :: key in m ==> RoundTrips(kenc, kdec, Int(key)) && RoundTrips(venc, vdec, m[key])
    requires at + |EncodeMap(kenc, venc, m)| <= |b| && b[at..at + |EncodeMap(kenc, venc, m)|] == EncodeMap(kenc, venc, m)
    ensures DecodeMap(kdec, vdec, d, b, at, acc) == MapRead(acc + m, at + |EncodeMap(kenc, venc, m)|, true)
  {
    var ps := MapItems(m);
    CountRoundTrip(|m|, EncodeEntries(kenc, venc, ps), b, at);
    EntriesOfMapRoundTrip(kenc, venc, kdec, vdec, m, ps);
    DecodeMapFromParts(kenc, venc, kdec, vdec, d, b, at, acc, ps);
    InsertMapItems(acc, m);
  }

  /** Every entry of a map whose keys and values fit their kinds round-trips
      through the scalar codecs. */
  lemma ScalarEntriesRoundTrip(kk: Kind, vk: Kind, m: map<int, Value>)
    requires IsIntKind(kk)
    requires forall key :: key in m ==> Fits(kk, Int(key)) && Fits(vk, m[key]) && (m[key].Text? ==> |m[key].s| < TWO32)
    ensures forall key :: key in m ==> RoundTrips(Writes(kk), Reads(kk), Int(key)) && RoundTrips(Writes(vk), Reads(vk), m[key])
  {
    forall key | key in m ensures RoundTrips(Writes(kk), Reads(kk), Int(key)) && RoundTrips(Writes(vk), Reads(vk), m[key]) {
      ScalarRoundTrips(kk, Int(key));
      ScalarRoundTrips(vk, m[key]);
    }
  }

  /** The archive's map round trip for keys of the integer kind `kk` and values
      of kind `vk`. */
  lemma ScalarMapRoundTrip(kk: Kind, vk: Kind, m: map<int, Value>, acc: map<int, Value>, b: seq<byte>, at: nat)
    requires |m| < TWO32 && IsIntKind(kk)
    requires forall key :: key in m ==> Fits(kk, Int(key)) && Fits(vk, m[key]) && (m[key].Text? ==> |m[key].s| < TWO32)
    requires at + |EncodeMap(Writes(kk), Writes(vk), m)| <= |b|
    requires b[at..at + |EncodeMap(Writes(kk), Writes(vk), m)|] == EncodeMap(Writes(kk), Writes(vk), m)
    ensures DecodeMap(Reads(kk), Reads(vk), Default(vk), b, at, acc) == MapRead(acc + m, at + |EncodeMap(Writes(kk), Writes(vk), m)|, true)
  {
    ScalarEntriesRoundTrip(kk, vk, m);
    MapRoundTrip(Writes(kk), Writes(vk), Reads(kk), Reads(vk), Default(vk), m, acc, b, at);
  }

  lemma EncodeEntriesStep(kenc: Writer, venc: Writer, ps: seq<(int, Value)>, i: nat)
    requires i < |ps|
    ensures EncodeEntries(kenc, venc, ps[..i + 1]) == EncodeEntries(kenc, venc, ps[..i]) + EntryBytes(kenc, venc, ps[i])
  {
    assert ps[..i + 1] == ps[..i] + [ps[i]];
    EncodeEntriesSnoc(kenc, venc, ps[..i], ps[i]);
  }

  /** One pass of the map writer's loop: the key, then the value. */
  method WriteEntry(ar: BlockArchive, kk: Kind, vk: Kind, p: (int, Value))
    requires ar.Valid() && Fits(kk, Int(p.0)) && Fits(vk, p.1)
    modifies ar, ar.buf
    ensures ar.buf.bytes == Overwrite(old(ar.buf.bytes), old(ar.cursor), EntryBytes(Writes(kk), Writes(vk), p))
    ensures ar.cursor == old(ar.cursor) + |EntryBytes(Writes(kk), Writes(vk), p)| && ar.Valid()
  {
    ghost var before, at := ar.buf.bytes, ar.cursor;
    ar.WriteValue(kk, Int(p.0));
    ar.WriteValue(vk, p.1);
    OverwriteConcat(before, at, Encode(kk, Int(p.0)), Encode(vk, p.1));
  }

  /** The map writer's loop over the entries in iteration order. */
  method WriteEntries(ar: BlockArchive, kk: Kind, vk: Kind, ps: seq<(int, Value)>)
    requires ar.Valid() && forall j :: 0 <= j < |ps| ==> Fits(kk, Int(ps[j].0)) && Fits(vk, ps[j].1)
    modifies ar, ar.buf
    ensures ar.buf.bytes == Overwrite(old(ar.buf.bytes), old(ar.cursor), EncodeEntries(Writes(kk), Writes(vk), ps))
    ensures ar.cursor == old(ar.cursor) + |EncodeEntries(Writes(kk), Writes(vk), ps)| && ar.Valid()
  {
    ghost var b0, c0 := ar.buf.bytes, ar.cursor;
    ghost var w: seq<byte> := [];
    assert ps[..0] == [];
    assert Overwrite(b0, c0, w) == b0;
    var i := 0;
    while i < |ps|
      invariant 0 <= i <= |ps| && ar.Valid()
      invariant w == EncodeEntries(Writes(kk), Writes(vk), ps[..i])
      invariant ar.buf.bytes == Overwrite(b0, c0, w) && ar.cursor == c0 + |w|
    {
      WriteEntry(ar, kk, vk, ps[i]);
      OverwriteConcat(b0, c0, w, EntryBytes(Writes(kk), Writes(vk), ps[i]));
      EncodeEntriesStep(Writes(kk), Writes(vk), ps, i);
      w := w + EntryBytes(Writes(kk), Writes(vk), ps[i]);
      i := i + 1;
    }
    assert ps[..i] == ps;
  }

  /** operator<< for std::map<K, V>. */
  method WriteMap(ar: BlockArchive, kk: Kind, vk: Kind, m: map<int, Value>)
    requires ar.Valid() && forall key :: key in m ==> Fits(kk, Int(key)) && Fits(vk, m[key])
    modifies ar, ar.buf
    ensures ar.buf.bytes == Overwrite(old(ar.buf.bytes), old(ar.cursor), EncodeMap(Writes(kk), Writes(vk), m))
    ensures ar.cursor == old(ar.cursor) + |EncodeMap(Writes(kk), Writes(vk), m)| && ar.Valid()
  {
    ghost var b0, c0 := ar.buf.bytes, ar.cursor;
    ar.WriteUInt32(|m| % TWO32);
    EncodeLayout(U32, Int(|m| % TWO32));
    var ps := MapItems(m);
    WriteEntries(ar, kk, vk, ps);
    OverwriteConcat(b0, c0, Encode(U32, Int(|m| % TWO32)), EncodeEntries(Writes(kk), Writes(vk), ps));
  }

  lemma EntryKeyFails(kdec: Reader, vdec: Reader, d: Value, b: seq<byte>, at: nat, m: map<int, Value>)
    requires kdec(b, at).OutOfRange?
    ensures DecodeEntry(kdec, vdec, d, b, at, m) == MapRead(m, kdec(b, at).at, false)
  {
  }

  lemma EntryValueFails(kdec: Reader, vdec: Reader, d: Value, b: seq<byte>, at: nat, m: map<int, Value>, key: int, at': nat)
    requires kdec(b, at) == Got(Int(key), at') && vdec(b, at').OutOfRange?
    ensures DecodeEntry(kdec, vdec, d, b, at, m) == MapRead(if key in m then m else m[key := d], vdec(b, at').at, false)
  {
  }

  lemma EntryRead(kdec: Reader, vdec: Reader, d: Value, b: seq<byte>, at: nat, m: map<int, Value>, key: int, at': nat, v: Value, next: nat)
    requires kdec(b, at) == Got(Int(key), at') && vdec(b, at') == Got(v, next)
    ensures DecodeEntry(kdec, vdec, d, b, at, m) == MapRead((if key in m then m else m[key := d])[key := v], next, true)
  {
  }

  /** One pass of the map reader's loop: read the key, make sure the map has
      an entry for it, read the value into that entry. */
  method ReadEntry(ar: BlockArchive, kk: Kind, vk: Kind, m: map<int, Value>) returns (ok: bool, out: map<int, Value>)
    requires ar.Valid() && IsIntKind(kk)
    modifies ar
    ensures DecodeEntry(Reads(kk), Reads(vk), Default(vk), ar.buf.bytes, old(ar.cursor), m) == MapRead(out, ar.cursor, ok)
    ensures ar.Valid()
  {
    ghost var b, at := ar.buf.bytes, ar.cursor;
    ghost var R, V, D := Reads(kk), Reads(vk), Default(vk);
    out := m;
    var key := ar.ReadValue(kk);
    assert R(b, at) == Decode(kk, b, at);
    if key.Thrown? {
      EntryKeyFails(R, V, D, b, at, m);
      return false, out;
    }
    if key.value.n !in out {
      out := out[key.value.n := Default(vk)];
    }
    ghost var at' := ar.cursor;
    var val := ar.ReadValue(vk);
    assert V(b, at') == Decode(vk, b, at');
    if val.Thrown? {
      EntryValueFails(R, V, D, b, at, m, key.value.n, at');
      return false, out;
    }
    EntryRead(R, V, D, b, at, m, key.value.n, at', val.value, ar.cursor);
    out := out[key.value.n := val.value];
    ok := true;
  }

  /** operator>> for std::map<K, V>: `m` is the target map, returned as it
      stands afterwards; `ok` is false when out_of_range was thrown. */
  method ReadMap(ar: BlockArchive, kk: Kind, vk: Kind, m: map<int, Value>) returns (ok: bool, out: map<int, Value>)
    requires ar.Valid() && IsIntKind(kk)
    modifies ar
    ensures DecodeMap(Reads(kk), Reads(vk), Default(vk), ar.buf.bytes, old(ar.cursor), m) == MapRead(out, ar.cursor, ok)
    ensures ar.Valid()
  {
    out := m;
    var n := ar.ReadUInt32();
    if n.Thrown? {
      return false, out;
    }
    ghost var R, V, D := Reads(kk), Reads(vk), Default(vk);
    ghost var b, target := ar.buf.bytes, DecodeMap(R, V, D, ar.buf.bytes, old(ar.cursor), m);
    ghost var rem: nat := n.value.n;
    var i := 0;
    while i < n.value.n
      invariant 0 <= i <= n.value.n && rem == n.value.n - i && ar.Valid() && ar.buf.bytes == b
      invariant DecodeEntries(R, V, D, b, ar.cursor, out, rem) == target
    {
      ghost var at, before, rem0 := ar.cursor, out, rem;
      ok, out := ReadEntry(ar, kk, vk, out);
      if !ok {
        return false, out;
      }
      i, rem := i + 1, rem - 1;
      DecodeEntriesStep(R, V, D, b, at, before, rem0, out, ar.cursor, rem);
    }
    return true, out;
  }
}

=== FILE: callbacks.dfy ===
/**
 * The callback registry CXCallBackMgr: a table from 32-bit handles to raw
 * callback pointers, so that whoever fires a callback holds a handle, never a
 * pointer that may have outlived its target.
 *
 * The registry's lock only makes each call atomic; the three operations are
 * modelled as sequential methods.
 */
module Callbacks {
  import opened Ints

  /** HRESULT S_FALSE: what Fire reports for a handle it does not know. */
  const S_FALSE: i32 := 1
  /** INVALID_HXCALLBACK_VALUE. */
  const INVALID_HANDLE: i32 := -1
  /** The largest value of the 32-bit seed counter. */
  const MAX_SEED: i32 := 0x7FFF_FFFF

  /** A callback target (IXCallBack). What OnCallBack does with its parameter
      belongs to the target, so it is a function the target carries. */
  class Target {
    const onCallBack: u32 -> i32

    constructor (onCallBack: u32 -> i32)
      ensures this.onCallBack == onCallBack
    {
      this.onCallBack := onCallBack;
    }
  }

  /** The registry's state: the seed counter and the handle table. */
  datatype Registry = Registry(seed: i32, table: map<i32, Target>)

  const Empty: Registry := Registry(0, map[])

  /** Handles in the table are strictly positive and the seed never negative. */
  predicate Valid(r: Registry) {
    0 <= r.seed && forall h :: h in r.table ==> 1 <= h
  }

  /** The handle Assign draws: increment the seed; when the increment wraps
      to a negative value, restart the seed at zero and increment again. */
  function NextHandle(seed: i32): (h: i32)
    requires 0 <= seed
    ensures 1 <= h
    ensures seed < MAX_SEED ==> h == seed + 1
    ensures seed == MAX_SEED ==> h == 1
  {
    var t := Inc32(seed);
    if t < 0 then Inc32(0) else t
  }

  /** Assign: the new registry and the handle returned. */
  function AssignSpec(r: Registry, cb: Target?): (Registry, i32)
    requires Valid(r)
  {
    if cb == null then (r, INVALID_HANDLE)
    else
      var h := NextHandle(r.seed);
      (Registry(h, r.table[h := cb]), h)
  }

  /** Close: erase the handle, whether or not it is present. */
  function CloseSpec(r: Registry, h: i32): Registry {
    Registry(r.seed, r.table - {h})
  }

  /** Fire: S_FALSE for an unknown handle, otherwise what the target returns. */
  function FireSpec(r: Registry, h: i32, param: u32): i32 {
    if h in r.table then r.table[h].onCallBack(param) else S_FALSE
  }

  lemma AssignKeepsValid(r: Registry, cb: Target?)
    requires Valid(r)
    ensures Valid(AssignSpec(r, cb).0)
  {
  }

  lemma CloseKeepsValid(r: Registry, h: i32)
    requires Valid(r)
    ensures Valid(CloseSpec(r, h))
  {
  }

  /** A null target is refused with the invalid handle and changes nothing. */
  lemma AssignNull(r: Registry)
    requires Valid(r)
    ensures AssignSpec(r, null) == (r, INVALID_HANDLE)
  {
  }

  /** A non-null target gets a positive handle, never the invalid one, which
      now maps to it while every other entry stays as it was. */
  lemma AssignRegisters(r: Registry, cb: Target)
    requires Valid(r)
    ensures var (r', h) := AssignSpec(r, cb);
      && h >= 1 && h != INVALID_HANDLE
      && r'.table.Keys == r.table.Keys + {h}
      && r'.table[h] == cb
      && (forall k :: k in r.table && k != h ==> r'.table[k] == r.table[k])
  {
  }

  /** Firing the handle Assign returned invokes that target with the parameter. */
  lemma AssignThenFire(r: Registry, cb: Target, param: u32)
    requires Valid(r)
    ensures var (r', h) := AssignSpec(r, cb); FireSpec(r', h, param) == cb.onCallBack(param)
  {
  }

  /** After Close(h), Fire(h, _) reports S_FALSE whatever the parameter. */
  lemma CloseThenFire(r: Registry, h: i32, param: u32)
    ensures FireSpec(CloseSpec(r, h), h, param) == S_FALSE
  {
  }

  /** Closing an unknown handle changes nothing; closing twice is closing once. */
  lemma CloseIdempotent(r: Registry, h: i32)
    ensures h !in r.table ==> CloseSpec(r, h) == r
    ensures CloseSpec(CloseSpec(r, h), h) == CloseSpec(r, h)
  {
    if h !in r.table {
      assert r.table - {h} == r.table;
    }
    assert r.table - {h} - {h} == r.table - {h};
  }

  /** Fire and Close on the invalid handle are no-ops. */
  lemma InvalidHandleInert(r: Registry, param: u32)
    requires Valid(r)
    ensures FireSpec(r, INVALID_HANDLE, param) == S_FALSE
    ensures CloseSpec(r, INVALID_HANDLE) == r
  {
    assert INVALID_HANDLE !in r.table;
    assert r.table - {INVALID_HANDLE} == r.table;
  }

  // -----------------------------------------------------------------------
  // Handle reuse

  /** Every handle in the table was drawn before the seed reached its value. */
  predicate SeedAbove(r: Registry) {
    forall h :: h in r.table ==> h <= r.seed
  }

  /** Until the seed wraps, Assign draws a handle nobody holds, so no
      registration is overwritten. */
  lemma AssignFreshBeforeWrap(r: Registry, cb: Target)
    requires Valid(r) && SeedAbove(r) && r.seed < MAX_SEED
    ensures var (r', h) := AssignSpec(r, cb);
      && h !in r.table && SeedAbove(r')
      && forall k :: k in r.table ==> k in r'.table && r'.table[k] == r.table[k]
  {
  }

  /** After the seed wraps, handle 1 is issued again without checking whether
      it is still registered: the earlier registration is silently replaced. */
  lemma WrapReissuesLiveHandle(a: Target, b: Target)
    ensures var r := Registry(MAX_SEED, map[1 := a]);
      var (r', h) := AssignSpec(r, b);
      h == 1 && 1 in r.table && r'.table == map[1 := b]
  {
  }

  datatype Call = AssignCall(cb: Target?) | CloseCall(h: i32) | FireCall(h: i32, param: u32)

  function Step(r: Registry, c: Call): (r': Registry)
    requires Valid(r)
    ensures Valid(r')
  {
    match c
    case AssignCall(cb) => AssignKeepsValid(r, cb); AssignSpec(r, cb).0
    case CloseCall(h) => CloseSpec(r, h)
    case FireCall(_, _) => r
  }

  function Replay(r: Registry, calls: seq<Call>): (r': Registry)
    requires Valid(r)
    ensures Valid(r')
    decreases |calls|
  {
    if calls == [] then r else Replay(Step(r, calls[0]), calls[1..])
  }

  /** Once closed, a handle stays unknown to every later call, from any
      caller, as long as the seed does not wrap around in between. */
  lemma {:induction false} ClosedStaysClosed(r: Registry, h: i32, calls: seq<Call>)
    requires Valid(r) && SeedAbove(r) && h <= r.seed && h !in r.table
    requires r.seed + |calls| <= MAX_SEED
    ensures h !in Replay(r, calls).table
    ensures forall p: u32 :: FireSpec(Replay(r, calls), h, p) == S_FALSE
    decreases |calls|
  {
    if calls != [] {
      var r1 := Step(r, calls[0]);
      match calls[0] {
        case AssignCall(cb) =>
          if cb != null {
            AssignFreshBeforeWrap(r, cb);
          }
        case CloseCall(k) =>
        case FireCall(_, _) =>
      }
      assert SeedAbove(r1) && h <= r1.seed && h !in r1.table;
      assert r1.seed <= r.seed + 1;
      ClosedStaysClosed(r1, h, calls[1..]);
    }
  }

  // -----------------------------------------------------------------------
  // The registry object

  class CallbackMgr {
    var seed: i32
    var table: map<i32, Target>

    function State(): Registry
      reads this
    {
      Registry(seed, table)
    }

    constructor ()
      ensures State() == Empty
    {
      seed := 0;
      table := map[];
    }

    method Assign(cb: Target?) returns (h: i32)
      requires Valid(State())
      modifies this
      ensures (State(), h) == AssignSpec(old(State()), cb)
    {
      if cb == null {
        return INVALID_HANDLE;
      }
      h := Inc32(seed);
      seed := h;
      if h < 0 {
        seed := 0;
        h := Inc32(seed);
        seed := h;
      }
      table := table[h := cb];
    }

    method Close(h: i32)
      modifies this
      ensures State() == CloseSpec(old(State()), h)
    {
      table := table - {h};
    }

    method Fire(h: i32, param: u32) returns (r: i32)
      ensures r == FireSpec(State(), h, param)
    {
      if h !in table {
        return S_FALSE;
      }
      r := table[h].onCallBack(param);
    }
  }
}

=== FILE: enumerator.dfy ===
/**
 * The restartable enumerators CArrayEnumerator, CSetEnumerator and
 * CMapEnumerator. All three run the same state machine over the container's
 * iteration order: a cursor and the two flags bReset and bNeedReset. One
 * class covers them; they differ only in the item sequence (a vector as is, a
 * set in ascending order, a map as key-ordered pairs) and the projection
 * applied by Current().
 */
module Enumerators {
  import opened Ints
  import opened Ordering

  /** The container iterator m_iterCur: singular until the first Reset(),
      then an index where `n` (the item count) is end(). */
  datatype Cursor = Singular | At(i: nat)

  /** The state machine's variables. */
  datatype Flags = Flags(cur: Cursor, reset: bool, needReset: bool)

  /** The constructor sets bNeedReset and clears bReset; m_iterCur is
      default-constructed (singular). */
  const Initial: Flags := Flags(Singular, false, true)

  /** The states the three operations can reach over `n` items. */
  predicate WellFormed(f: Flags, n: nat) {
    && (f.cur.At? ==> f.cur.i <= n)
    && (!f.needReset ==> f.cur.At?)
    && (f.needReset ==> f.cur.Singular? || f.cur.i == n)
    && (f.reset ==> f.cur == At(0))
  }

  /** Reset(): back to "before the first item". */
  function ResetSpec(f: Flags): Flags {
    Flags(At(0), true, false)
  }

  /** MoveNext() over `n` items: the new state and the value returned. */
  function MoveNextSpec(f: Flags, n: nat): (Flags, bool)
    requires WellFormed(f, n)
  {
    var g := if f.needReset then ResetSpec(f) else f;
    if g.cur.i == n then (g.(needReset := true), false)
    else if g.reset then (g.(reset := false), true)
    else if g.cur.i + 1 == n then (Flags(At(n), false, true), false)
    else (Flags(At(g.cur.i + 1), false, false), true)
  }

  datatype EnumError = CallMoveNextFirst | EndPosition

  datatype Result<T> = Ok(value: T) | Err(error: EnumError)

  /** Current(): the projected item under the cursor, or the exception the
      source throws. Undefined on a singular cursor, hence the precondition. */
  function CurrentSpec<T, U>(f: Flags, items: seq<T>, proj: T -> U): Result<U>
    requires f.cur.At? && f.cur.i <= |items|
  {
    if f.reset then Err(CallMoveNextFirst)
    else if f.cur.i == |items| then Err(EndPosition)
    else Ok(proj(items[f.cur.i]))
  }

  /** Where the next MoveNext() will try to stand. */
  function NextIndex(f: Flags): nat
    requires !f.needReset ==> f.cur.At?
  {
    if f.needReset || f.reset then 0 else f.cur.i + 1
  }

  /** The state "positioned on item i". */
  function PositionedAt(i: nat): Flags {
    Flags(At(i), false, false)
  }

  /** MoveNext() keeps the machine well formed; it returns true exactly when
      there is an item at the next index, and then stands on it; otherwise it
      arms the automatic reset. */
  lemma MoveNextAdvances(f: Flags, n: nat)
    requires WellFormed(f, n)
    ensures var (g, r) := MoveNextSpec(f, n);
      && WellFormed(g, n)
      && (r <==> NextIndex(f) < n)
      && (r ==> g == PositionedAt(NextIndex(f)))
      && (!r ==> g.needReset)
  {
  }

  /** After a MoveNext() that returned true, Current() yields the projected
      item at the position reached. */
  lemma CurrentAfterMoveNext<T, U>(f: Flags, items: seq<T>, proj: T -> U)
    requires WellFormed(f, |items|)
    requires MoveNextSpec(f, |items|).1
    ensures var g := MoveNextSpec(f, |items|).0;
      CurrentSpec(g, items, proj) == Ok(proj(items[NextIndex(f)]))
  {
    MoveNextAdvances(f, |items|);
  }

  /** Current() fails after an explicit Reset() and after a MoveNext() that
      returned false. */
  lemma CurrentFailsOffItem<T, U>(f: Flags, items: seq<T>, proj: T -> U)
    requires WellFormed(f, |items|)
    ensures CurrentSpec(ResetSpec(f), items, proj) == Err(CallMoveNextFirst)
    ensures !MoveNextSpec(f, |items|).1 ==>
      MoveNextSpec(f, |items|).0.cur.At? && CurrentSpec(MoveNextSpec(f, |items|).0, items, proj).Err?
  {
  }

  /** The state after k calls of MoveNext(). */
  function Advance(f: Flags, n: nat, k: nat): (g: Flags)
    requires WellFormed(f, n)
    ensures WellFormed(g, n)
  {
    if k == 0 then f
    else
      var h := Advance(f, n, k - 1);
      MoveNextAdvances(h, n);
      MoveNextSpec(h, n).0
  }

  /** What the k-th call of MoveNext() (k >= 1) returns. */
  function Returned(f: Flags, n: nat, k: nat): bool
    requires WellFormed(f, n) && k >= 1
  {
    MoveNextSpec(Advance(f, n, k - 1), n).1
  }

  /** A full pass from a state that needs a reset (a fresh enumerator, or one
      whose last MoveNext() returned false): calls 1..n return true and stand
      on items 0..n-1, call n+1 returns false and arms the next restart. */
  lemma {:induction false} FullPass(f: Flags, n: nat, k: nat)
    requires WellFormed(f, n) && f.needReset
    requires 1 <= k <= n + 1
    ensures Returned(f, n, k) <==> k <= n
    ensures k <= n ==> Advance(f, n, k) == PositionedAt(k - 1)
    ensures k == n + 1 ==> Advance(f, n, k).needReset
  {
    MoveNextAdvances(Advance(f, n, k - 1), n);
    if k > 1 {
      FullPass(f, n, k - 1);
    }
  }

  /** Over an empty container every MoveNext() returns false. */
  lemma EmptyNeverMoves(f: Flags)
    requires WellFormed(f, 0)
    ensures !MoveNextSpec(f, 0).1
  {
  }

  /** After a pass has ended, the next MoveNext() starts again at the first
      item, exactly as on a fresh enumerator. */
  lemma RestartsAfterPass(f: Flags, n: nat)
    requires WellFormed(f, n) && f.needReset && n >= 1
    ensures var g := Advance(f, n, n + 1);
      MoveNextSpec(g, n) == MoveNextSpec(Initial, n) == (PositionedAt(0), true)
  {
    FullPass(f, n, n + 1);
    MoveNextAdvances(Advance(f, n, n + 1), n);
  }

  // -----------------------------------------------------------------------
  // The enumerator object

  class Enumerator<T, U> {
    const items: seq<T>
    const proj: T -> U
    var cur: Cursor
    var reset: bool
    var needReset: bool

    function State(): Flags
      reads this
    {
      Flags(cur, reset, needReset)
    }

    ghost predicate Valid()
      reads this
    {
      WellFormed(State(), |items|)
    }

    /** A container filled with `items`, enumerated through `proj`. */
    constructor (items: seq<T>, proj: T -> U)
      ensures this.items == items && this.proj == proj
      ensures State() == Initial && Valid()
    {
      this.items := items;
      this.proj := proj;
      cur := Singular;
      reset := false;
      needReset := true;
    }

    /** Count(): the container size as an unsigned long, whatever the cursor. */
    method Count() returns (c: u32)
      ensures c == |items| % TWO32
    {
      c := |items| % TWO32;
    }

    method Reset()
      modifies this
      ensures State() == ResetSpec(old(State()))
    {
      needReset := false;
      reset := true;
      cur := At(0);
    }

    method MoveNext() returns (r: bool)
      requires Valid()
      modifies this
      ensures Valid()
      ensures (State(), r) == MoveNextSpec(old(State()), |items|)
    {
      if needReset {
        Reset();
        needReset := false;
      }
      if cur.i == |items| {
        needReset := true;
        return false;
      }
      if reset {
        reset := false;
        return true;
      }
      cur := At(cur.i + 1);
      if cur.i == |items| {
        needReset := true;
        return false;
      }
      return true;
    }

    method Current() returns (r: Result<U>)
      requires Valid() && cur.At?
      ensures r == CurrentSpec(State(), items, proj)
    {
      if reset {
        return Err(CallMoveNextFirst);
      } else if cur.i == |items| {
        return Err(EndPosition);
      }
      return Ok(proj(items[cur.i]));
    }
  }

  // -----------------------------------------------------------------------
  // The three containers' item sequences: a vector as it is, a set as
  // Ordering.Ascending, a map as Ordering.MapItems with PairProj below.

  /** CMapEnumerator's Current() converts key and value independently. */
  function PairProj<K, V, K2, V2>(kfn: K -> K2, fn: V -> V2): ((K, V)) -> (K2, V2)
  {
    (e: (K, V)) => (kfn(e.0), fn(e.1))
  }

  /** A client run over [a, b, c]: true/a, true/b, true/c, false, then a
      restart at a. */
  method ThreeItems<T>(a: T, b: T, c: T)
  {
    var e := new Enumerator([a, b, c], (x: T) => x);
    var more := e.MoveNext();
    var x := e.Current();
    assert more && x == Ok(a);
    more := e.MoveNext();
    x := e.Current();
    assert more && x == Ok(b);
    more := e.MoveNext();
    x := e.Current();
    assert more && x == Ok(c);
    more := e.MoveNext();
    assert !more;
    x := e.Current();
    assert x == Err(EndPosition);
    more := e.MoveNext();
    x := e.Current();
    assert more && x == Ok(a);
    e.Reset();
    x := e.Current();
    assert x == Err(CallMoveNextFirst);
  }
}

=== FILE: ints.dfy ===
/**
 * Fixed-width integers as the C++ code sees them (two's complement, 8 to 64
 * bits) and the big-endian ("network order") byte layout that htons/htonl
 * produce. A byte is the unsigned view of a `char` of a std::string.
 */
module Ints {

  const TWO8: int := 0x100
  const TWO16: int := 0x1_0000
  const TWO32: int := 0x1_0000_0000
  const TWO64: int := 0x1_0000_0000_0000_0000

  type byte = x: int | 0 <= x < 0x100
  type u16 = x: int | 0 <= x < 0x1_0000
  type u32 = x: int | 0 <= x < 0x1_0000_0000
  type u64 = x: int | 0 <= x < 0x1_0000_0000_0000_0000
  type i8 = x: int | -0x80 <= x < 0x80
  type i16 = x: int | -0x8000 <= x < 0x8000
  type i32 = x: int | -0x8000_0000 <= x < 0x8000_0000
  type i64 = x: int | -0x8000_0000_0000_0000 <= x < 0x8000_0000_0000_0000

  /** std::min on two integers. */
  function Min(a: int, b: int): int {
    if a <= b then a else b
  }

  /** The unsigned value of `v` at a width whose modulus is `m`, where `v` is
      a value of the signed or of the unsigned type of that width (a C++
      conversion between the two, two's complement). */
  function ToUnsigned(v: int, m: int): (u: int)
    requires m > 0 && m % 2 == 0 && -(m / 2) <= v < m
    ensures 0 <= u < m
    ensures u == v || u == v + m
  {
    if v < 0 then v + m else v
  }

  /** The signed reading of the unsigned value `u` at a width with modulus `m`. */
  function ToSigned(u: int, m: int): (v: int)
    requires m > 0 && m % 2 == 0 && 0 <= u < m
    ensures -(m / 2) <= v < m / 2
    ensures v == u || v == u - m
  {
    if u < m / 2 then u else u - m
  }

  lemma SignedOfUnsigned(v: int, m: int)
    requires m > 0 && m % 2 == 0 && -(m / 2) <= v < m / 2
    ensures ToSigned(ToUnsigned(v, m), m) == v
  {
  }

  lemma UnsignedOfSigned(u: int, m: int)
    requires m > 0 && m % 2 == 0 && 0 <= u < m
    ensures ToUnsigned(ToSigned(u, m), m) == u
  {
  }

  /** Truncating a value that already fits the width leaves it as it is. */
  lemma ModOfSmall(x: int, m: int)
    requires 0 <= x < m
    ensures x % m == x
  {
  }

  /** A 32-bit `long` incremented with wrap-around (_InterlockedIncrement). */
  function Inc32(v: i32): (r: i32)
    ensures v < 0x7FFF_FFFF ==> r == v + 1
    ensures v == 0x7FFF_FFFF ==> r == -0x8000_0000
  {
    ToSigned(ToUnsigned(v + 1, TWO32), TWO32)
  }

  // ---------------------------------------------------------------------
  // Big-endian layout. Wider layouts are built from two halves, high half
  // first, which is also how the archive writes a 64-bit value.

  function BE16(u: u16): (b: seq<byte>)
    ensures |b| == 2
  {
    [u / 0x100, u % 0x100]
  }

  function BE32(u: u32): (b: seq<byte>)
    ensures |b| == 4
  {
    BE16(u / 0x1_0000) + BE16(u % 0x1_0000)
  }

  function BE64(u: u64): (b: seq<byte>)
    ensures |b| == 8
  {
    BE32(u / 0x1_0000_0000) + BE32(u % 0x1_0000_0000)
  }

  function FromBE16(b: seq<byte>): (u: u16)
    requires |b| == 2
  {
    (b[0] as int) * 0x100 + b[1]
  }

  function FromBE32(b: seq<byte>): (u: u32)
    requires |b| == 4
  {
    (FromBE16(b[..2]) as int) * 0x1_0000 + FromBE16(b[2..])
  }

  function FromBE64(b: seq<byte>): (u: u64)
    requires |b| == 8
  {
    (FromBE32(b[..4]) as int) * 0x1_0000_0000 + FromBE32(b[4..])
  }

  lemma BE16RoundTrip(u: u16)
    ensures FromBE16(BE16(u)) == u
  {
  }

  lemma BE32RoundTrip(u: u32)
    ensures FromBE32(BE32(u)) == u
  {
    var b := BE32(u);
    assert b[..2] == BE16(u / 0x1_0000);
    assert b[2..] == BE16(u % 0x1_0000);
    BE16RoundTrip(u / 0x1_0000);
    BE16RoundTrip(u % 0x1_0000);
  }

  lemma BE64RoundTrip(u: u64)
    ensures FromBE64(BE64(u)) == u
  {
    var b := BE64(u);
    assert b[..4] == BE32(u / 0x1_0000_0000);
    assert b[4..] == BE32(u % 0x1_0000_0000);
    BE32RoundTrip(u / 0x1_0000_0000);
    BE32RoundTrip(u % 0x1_0000_0000);
  }

  /** Every two bytes are the layout of exactly one 16-bit value. */
  lemma BE16OfFromBE16(b: seq<byte>)
    requires |b| == 2
    ensures BE16(FromBE16(b)) == b
  {
    var u := FromBE16(b);
    assert u / 0x100 == b[0];
    assert u % 0x100 == b[1];
  }

  lemma BE32OfFromBE32(b: seq<byte>)
    requires |b| == 4
    ensures BE32(FromBE32(b)) == b
  {
    var hi, lo := FromBE16(b[..2]), FromBE16(b[2..]);
    var u := FromBE32(b);
    assert u / 0x1_0000 == hi && u % 0x1_0000 == lo;
    BE16OfFromBE16(b[..2]);
    BE16OfFromBE16(b[2..]);
    assert b == b[..2] + b[2..];
  }

  lemma BE64OfFromBE64(b: seq<byte>)
    requires |b| == 8
    ensures BE64(FromBE64(b)) == b
  {
    var hi, lo := FromBE32(b[..4]), FromBE32(b[4..]);
    var u := FromBE64(b);
    assert u / 0x1_0000_0000 == hi && u % 0x1_0000_0000 == lo;
    BE32OfFromBE32(b[..4]);
    BE32OfFromBE32(b[4..]);
    assert b == b[..4] + b[4..];
  }
}

=== FILE: ordering.dfy ===
/**
 * The iteration order of an ordered container keyed by integers
 * (std::set<int>, the keys of std::map<int, V>): ascending, each key once.
 */
module Ordering {

  predicate StrictlyIncreasing(s: seq<int>) {
    forall i, j :: 0 <= i < j < |s| ==> s[i] < s[j]
  }

  /** Some element of a non-empty set. */
  lemma Element(s: set<int>) returns (y: int)
    requires s != {}
    ensures y in s
  {
    if forall z :: z !in s { assert false; }
    y :| y in s;
  }

  lemma LeastOfInsert(s: set<int>, y: int, m: int)
    requires y in s && m in s - {y}
    requires forall x :: x in s - {y} ==> m <= x
    ensures exists l :: l in s && forall x :: x in s ==> l <= x
  {
    var l := if y < m then y else m;
    forall x | x in s ensures l <= x {
      if x != y {
        assert x in s - {y};
      }
    }
  }

  lemma {:induction false} LeastExists(s: set<int>)
    requires s != {}
    ensures exists m :: m in s && forall x :: x in s ==> m <= x
    decreases s
  {
    var y := Element(s);
    if s == {y} {
      assert forall x :: x in s ==> x == y;
    } else {
      LeastExists(s - {y});
      var m :| m in s - {y} && forall x :: x in s - {y} ==> m <= x;
      LeastOfInsert(s, y, m);
    }
  }

  /** The least element of a non-empty finite set. */
  function Least(s: set<int>): (m: int)
    requires s != {}
    ensures m in s && forall x :: x in s ==> m <= x
  {
    LeastExists(s);
    var m :| m in s && forall x :: x in s ==> m <= x;
    m
  }

  /** The elements of `s` in the order an ordered container visits them. */
  function Ascending(s: set<int>): (r: seq<int>)
    ensures |r| == |s|
    ensures forall x :: x in s <==> x in r
    ensures StrictlyIncreasing(r)
    decreases |s|
  {
    if s == {} then []
    else
      var m := Least(s);
      var rest := Ascending(s - {m});
      AscendingCons(m, rest, s);
      [m] + rest
  }

  lemma AscendingCons(m: int, rest: seq<int>, s: set<int>)
    requires m in s && forall x :: x in s ==> m <= x
    requires forall x :: x in s - {m} <==> x in rest
    requires StrictlyIncreasing(rest)
    ensures forall x :: x in s <==> x in [m] + rest
    ensures StrictlyIncreasing([m] + rest)
  {
    var r := [m] + rest;
    forall i, j | 0 <= i < j < |r| ensures r[i] < r[j] {
      if i == 0 {
        assert r[j] == rest[j - 1] && rest[j - 1] in rest;
      }
    }
  }

  /** The keys of a sequence of entries, in order. */
  function Keys<V>(r: seq<(int, V)>): (ks: seq<int>)
    ensures |ks| == |r| && forall i :: 0 <= i < |r| ==> ks[i] == r[i].0
  {
    seq(|r|, i requires 0 <= i < |r| => r[i].0)
  }

  /** The entries of a map keyed by integers in the order std::map visits
      them: ascending keys, each key once, each with its value in `m`.
      MapItemsComplete states that no key is missed. */
  function MapItems<V>(m: map<int, V>): (r: seq<(int, V)>)
    ensures |r| == |m|
    ensures forall i :: 0 <= i < |r| ==> r[i].0 in m && m[r[i].0] == r[i].1
    ensures StrictlyIncreasing(Keys(r))
  {
    var ks := Ascending(m.Keys);
    var r := seq(|ks|, i requires 0 <= i < |ks| => (ks[i], m[ks[i]]));
    assert Keys(r) == ks;
    r
  }

  /** Where the entry of a key of `m` stands in MapItems(m). */
  lemma MapItemsIndex<V>(m: map<int, V>, k: int) returns (i: nat)
    requires k in m
    ensures i < |MapItems(m)| && MapItems(m)[i].0 == k
  {
    var ks := Ascending(m.Keys);
    assert k in ks;
    i :| i < |ks| && ks[i] == k;
  }

  /** Every key of `m` has its entry in MapItems(m). */
  lemma MapItemsComplete<V>(m: map<int, V>)
    ensures forall k :: k in m ==> exists i :: 0 <= i < |MapItems(m)| && MapItems(m)[i].0 == k
  {
    forall k | k in m ensures exists i :: 0 <= i < |MapItems(m)| && MapItems(m)[i].0 == k {
      var i := MapItemsIndex(m, k);
    }
  }
}

=== FILE: refcount.dfy ===
/**
 * Intrusive reference counting (IXInterfaceImpl, IXInterfaceImpl_NoRef) and
 * the smart pointer VxSmartInterfacePtr that pairs AddRef with Release.
 *
 * Objects live on the Dafny heap; `delete this` is modelled by clearing the
 * `alive` flag, so "destroyed exactly once" is the single transition of
 * `alive` from true to false. Counts are plain integers: the interlocked
 * increment and decrement only make each call atomic.
 */
module RefCounting {

  // -----------------------------------------------------------------------
  // The counting protocol as a state machine

  /** What one tracked object's reference count and lifetime look like. */
  datatype RcState = RcState(count: int, alive: bool)

  datatype RcOp = AddRefOp | ReleaseOp

  /** A freshly constructed (or copy-constructed) object: count 0, alive. */
  const Fresh: RcState := RcState(0, true)

  /** AddRef on a live object: the count goes up by one. */
  function AddRefSpec(s: RcState): (t: RcState)
    requires s.alive
    ensures t.alive && t.count == s.count + 1
  {
    RcState(s.count + 1, true)
  }

  /** Release on a live object that some owner holds: the count goes down by
      one and the object is destroyed exactly when it reaches zero. */
  function ReleaseSpec(s: RcState): (t: RcState)
    requires s.alive && s.count >= 1
    ensures t.count == s.count - 1 && t.count >= 0
    ensures t.alive <==> t.count != 0
  {
    RcState(s.count - 1, s.count != 1)
  }

  /** Runs a sequence of calls; None when a call would touch a destroyed object
      or drive the count below zero (the debug assertion of Release). */
  function Run(s: RcState, ops: seq<RcOp>): Option<RcState>
    decreases |ops|
  {
    if ops == [] then Some(s)
    else if !s.alive then None
    else match ops[0]
      case AddRefOp => Run(AddRefSpec(s), ops[1..])
      case ReleaseOp => if s.count < 1 then None else Run(ReleaseSpec(s), ops[1..])
  }

  datatype Option<T> = None | Some(value: T)

  function Repeat(op: RcOp, n: nat): (r: seq<RcOp>)
    ensures |r| == n && forall i :: 0 <= i < n ==> r[i] == op
  {
    if n == 0 then [] else [op] + Repeat(op, n - 1)
  }

  lemma {:induction false} RunAppend(s: RcState, a: seq<RcOp>, b: seq<RcOp>)
    requires Run(s, a).Some?
    ensures Run(s, a + b) == Run(Run(s, a).value, b)
    decreases |a|
  {
    if a != [] {
      assert s.alive && (a + b)[0] == a[0];
      assert (a + b)[1..] == a[1..] + b;
      match a[0]
      case AddRefOp =>
        assert Run(s, a) == Run(AddRefSpec(s), a[1..]);
        assert Run(s, a + b) == Run(AddRefSpec(s), a[1..] + b);
        RunAppend(AddRefSpec(s), a[1..], b);
      case ReleaseOp =>
        assert s.count >= 1 && Run(s, a) == Run(ReleaseSpec(s), a[1..]);
        assert Run(s, a + b) == Run(ReleaseSpec(s), a[1..] + b);
        RunAppend(ReleaseSpec(s), a[1..], b);
    } else {
      assert a + b == b;
    }
  }

  lemma {:induction false} RunAddRefs(s: RcState, n: nat)
    requires s.alive
    ensures Run(s, Repeat(AddRefOp, n)) == Some(RcState(s.count + n, true))
    decreases n
  {
    if n > 0 {
      assert Repeat(AddRefOp, n)[1..] == Repeat(AddRefOp, n - 1);
      RunAddRefs(AddRefSpec(s), n - 1);
    }
  }

  /** k releases on an object whose count is k + m (m >= 1) leave it alive. */
  lemma {:induction false} RunReleasesAlive(c: int, k: nat)
    requires c > k
    ensures Run(RcState(c, true), Repeat(ReleaseOp, k)) == Some(RcState(c - k, true))
    decreases k
  {
    if k > 0 {
      assert Repeat(ReleaseOp, k)[1..] == Repeat(ReleaseOp, k - 1);
      RunReleasesAlive(c - 1, k - 1);
    }
  }

  /** After n AddRef and n Release calls (n >= 1) on a fresh object with no
      other owner, every call finds the object alive, it stays alive until the
      last Release, and that last Release destroys it. */
  lemma BalancedCallsDestroyOnce(n: nat)
    requires n >= 1
    ensures Run(Fresh, Repeat(AddRefOp, n) + Repeat(ReleaseOp, n - 1)) == Some(RcState(1, true))
    ensures Run(Fresh, Repeat(AddRefOp, n) + Repeat(ReleaseOp, n)) == Some(RcState(0, false))
  {
    RunAddRefs(Fresh, n);
    RunAppend(Fresh, Repeat(AddRefOp, n), Repeat(ReleaseOp, n - 1));
    RunReleasesAlive(n, n - 1);
    assert Repeat(ReleaseOp, n) == Repeat(ReleaseOp, n - 1) + [ReleaseOp];
    assert Repeat(AddRefOp, n) + Repeat(ReleaseOp, n)
        == (Repeat(AddRefOp, n) + Repeat(ReleaseOp, n - 1)) + [ReleaseOp];
    RunAppend(Fresh, Repeat(AddRefOp, n) + Repeat(ReleaseOp, n - 1), [ReleaseOp]);
  }

  /** Once destroyed, no further call is valid. */
  lemma NoCallAfterDestruction(ops: seq<RcOp>)
    requires ops != []
    ensures Run(RcState(0, false), ops) == None
  {
  }

  // -----------------------------------------------------------------------
  // The objects

  /** An object deriving from IXInterfaceImpl. `interfaces` names the
      capabilities a dynamic_cast can reach from it. */
  class RefObj {
    var count: int
    var alive: bool
    const interfaces: set<nat>

    function State(): RcState
      reads this
    {
      RcState(count, alive)
    }

    /** The protected constructor: the count starts at zero. */
    constructor (interfaces: set<nat>)
      ensures State() == Fresh && this.interfaces == interfaces
    {
      count := 0;
      alive := true;
      this.interfaces := interfaces;
    }

    /** The copy constructor makes a new identity whose count is not copied. */
    constructor CopyOf(other: RefObj)
      ensures State() == Fresh && interfaces == other.interfaces
    {
      count := 0;
      alive := true;
      interfaces := other.interfaces;
    }

    /** Copy assignment keeps the target's own count. */
    method AssignFrom(other: RefObj)
      ensures State() == old(State())
    {
    }

    method AddRef() returns (r: int)
      requires alive
      modifies this
      ensures State() == AddRefSpec(old(State()))
      ensures r == count
    {
      count := count + 1;
      r := count;
    }

    method Release() returns (r: int)
      requires alive && count >= 1
      modifies this
      ensures State() == ReleaseSpec(old(State()))
      ensures r == count
    {
      count := count - 1;
      r := count;
      if r == 0 {
        alive := false;   // delete this
      }
    }
  }

  /** IXInterfaceImpl_NoRef: for singletons whose lifetime is managed
      elsewhere; counting calls report fixed values and never destroy. */
  class NoRefObj {
    constructor ()
    {
    }

    method AddRef() returns (r: int)
      ensures r == 1
    {
      r := 1;
    }

    method Release() returns (r: int)
      ensures r == 2
    {
      r := 2;
    }
  }

  /** The checked downcast of the cross-type constructors: the same object when
      it offers the capability, null otherwise (never an error). */
  function TryAs(p: RefObj?, iface: nat): (q: RefObj?)
    ensures q != null ==> q == p && iface in p.interfaces
    ensures p != null && iface in p.interfaces ==> q == p
  {
    if p != null && iface in p.interfaces then p else null
  }

  // -----------------------------------------------------------------------
  // The smart pointer

  /** The counted object behind a smart pointer is alive and owned. */
  ghost predicate Owned(p: RefObj?)
    reads p
  {
    p != null ==> p.alive && p.count >= 1
  }

  class SmartRef {
    var px: RefObj?

    /** Default and nullptr construction. */
    constructor Null()
      ensures px == null
    {
      px := null;
    }

    /** VxSmartInterfacePtr(T* p, bool addref = true). */
    constructor FromRaw(p: RefObj?, addref: bool)
      requires p != null ==> p.alive
      modifies p
      ensures px == p
      ensures p != null ==> p.State() == (if addref then AddRefSpec(old(p.State())) else old(p.State()))
    {
      px := p;
      new;
      if p != null && addref {
        var _ := p.AddRef();
      }
    }

    /** The cross-type constructor from a raw pointer: a failed downcast
        yields null and no AddRef. */
    constructor FromOther(p: RefObj?, iface: nat, addref: bool)
      requires p != null ==> p.alive
      modifies p
      ensures px == TryAs(p, iface)
      ensures p != null ==>
        p.State() == (if px != null && addref then AddRefSpec(old(p.State())) else old(p.State()))
    {
      px := TryAs(p, iface);
      new;
      if px != null && addref {
        var _ := px.AddRef();
      }
    }

    /** Copy construction shares the object and adds one reference. */
    constructor Copy(rhs: SmartRef)
      requires rhs.px != null ==> rhs.px.alive
      modifies rhs.px
      ensures px == rhs.px
      ensures rhs.px != null ==> rhs.px.State() == AddRefSpec(old(rhs.px.State()))
    {
      px := rhs.px;
      new;
      if px != null {
        var _ := px.AddRef();
      }
    }

    /** The cross-type copy constructor: downcast, then AddRef when non-null. */
    constructor CopyAs(rhs: SmartRef, iface: nat)
      requires rhs.px != null ==> rhs.px.alive
      modifies rhs.px
      ensures px == TryAs(rhs.px, iface)
      ensures rhs.px != null ==>
        rhs.px.State() == (if px != null then AddRefSpec(old(rhs.px.State())) else old(rhs.px.State()))
    {
      px := TryAs(rhs.px, iface);
      new;
      if px != null {
        var _ := px.AddRef();
      }
    }

    /** Move construction takes the pointer without touching the count. */
    constructor Move(rhs: SmartRef)
      modifies rhs
      ensures px == old(rhs.px) && rhs.px == null
    {
      px := rhs.px;
      new;
      rhs.px := null;
    }

    /** The destructor: one Release when non-null. The wrapper owns nothing
        afterwards. */
    method Destroy()
      requires Owned(px)
      modifies this, px
      ensures px == null
      ensures old(px) != null ==> old(px).State() == ReleaseSpec(old(px.State()))
    {
      if px != null {
        var _ := px.Release();
      }
      px := null;
    }

    method Swap(other: SmartRef)
      modifies this, other
      ensures px == old(other.px) && other.px == old(px)
    {
      var tmp := px;
      px := other.px;
      other.px := tmp;
    }

    /** reset(): swap with an empty pointer, which then releases the old one. */
    method Reset()
      requires Owned(px)
      modifies this, px
      ensures px == null
      ensures old(px) != null ==> old(px).State() == ReleaseSpec(old(px.State()))
    {
      var tmp := new SmartRef.Null();
      tmp.Swap(this);
      tmp.Destroy();
    }

    /** reset(p, addref): the new reference is built before the old one is
        released, so resetting to the same object never destroys it while a
        reference is added. */
    method ResetTo(p: RefObj?, addref: bool)
      requires Owned(px) && (p != null ==> p.alive)
      modifies this, px, p
      ensures px == p
      ensures p != null && p == old(px) ==>
        p.State() == (if addref then old(p.State()) else ReleaseSpec(old(p.State())))
      ensures p != null && p != old(px) ==>
        p.State() == (if addref then AddRefSpec(old(p.State())) else old(p.State()))
      ensures old(px) != null && p != old(px) ==> old(px).State() == ReleaseSpec(old(px.State()))
    {
      var tmp := new SmartRef.FromRaw(p, addref);
      tmp.Swap(this);
      tmp.Destroy();
    }

    /** Copy assignment: copy-construct a temporary, swap, release the old
        object; self-assignment leaves every count as it was. */
    method AssignCopy(rhs: SmartRef)
      requires Owned(px) && (rhs.px != null ==> rhs.px.alive)
      modifies this, px, rhs.px
      ensures px == old(rhs.px)
      ensures px != null && px == old(px) ==> px.State() == old(px.State())
      ensures px != null && px != old(px) ==> px.State() == AddRefSpec(old(rhs.px.State()))
      ensures old(px) != null && old(px) != px ==> old(px).State() == ReleaseSpec(old(px.State()))
    {
      var tmp := new SmartRef.Copy(rhs);
      tmp.Swap(this);
      tmp.Destroy();
    }

    /** Cross-type copy assignment: the temporary is built by the downcasting
        copy constructor, so a failed downcast leaves the pointer null and
        still releases the old object. */
    method AssignCopyAs(rhs: SmartRef, iface: nat)
      requires Owned(px) && (rhs.px != null ==> rhs.px.alive)
      modifies this, px, rhs.px
      ensures px == TryAs(old(rhs.px), iface)
      ensures px != null && px == old(px) ==> px.State() == old(px.State())
      ensures px != null && px != old(px) ==> px.State() == AddRefSpec(old(rhs.px.State()))
      ensures px == null && old(rhs.px) != null && old(rhs.px) != old(px) ==> old(rhs.px).State() == old(rhs.px.State())
      ensures old(px) != null && old(px) != px ==> old(px).State() == ReleaseSpec(old(px.State()))
    {
      var tmp := new SmartRef.CopyAs(rhs, iface);
      tmp.Swap(this);
      tmp.Destroy();
    }

    /** Move assignment: release the current object, then take the source's
        pointer without counting; assigning to itself does nothing. */
    method AssignMove(rhs: SmartRef)
      requires Owned(px)
      requires rhs != this && rhs.px != null && rhs.px == px ==> px.count >= 2
      modifies this, px, rhs
      ensures rhs != this ==> px == old(rhs.px) && rhs.px == null
      ensures rhs == this ==> px == old(px) && (px != null ==> px.State() == old(px.State()))
      ensures rhs != this && old(px) != null ==> old(px).State() == ReleaseSpec(old(px.State()))
    {
      if rhs != this {
        Reset();
        rhs.Swap(this);
      }
    }

    /** detach(): hand the reference to the caller without a Release. */
    method Detach() returns (p: RefObj?)
      modifies this
      ensures p == old(px) && px == null
    {
      p := px;
      px := null;
    }

    function Get(): RefObj?
      reads this
    {
      px
    }

    /** operator!: true for an empty pointer. */
    predicate IsNull()
      reads this
    {
      px == null
    }

    /** operator==: equal when the two wrappers hold the same address. */
    predicate Equals(other: SmartRef)
      reads this, other
    {
      px == other.px
    }
  }

  /** A client run: two owners share an object that survives the first
      owner's end and is destroyed by the second's. */
  method SharedOwnership()
  {
    var obj := new RefObj({});
    var a := new SmartRef.FromRaw(obj, true);
    assert obj.count == 1;
    var b := new SmartRef.Copy(a);
    assert obj.count == 2 && a.Equals(b);
    var c := new SmartRef.Move(b);
    assert obj.count == 2 && b.IsNull();
    a.Destroy();
    assert obj.alive && obj.count == 1;
    var raw := c.Detach();
    assert raw == obj && obj.count == 1;
    var d := new SmartRef.FromRaw(raw, false);
    d.ResetTo(obj, true);
    assert obj.alive && obj.count == 1;
    d.Destroy();
    assert !obj.alive;
  }
}

=== FILE: split.dfy ===
/**
 * StringHelper's Split and ReplaceAll. Both walk a string from one
 * occurrence of a pattern to the next, leftmost first, and carry on after
 * it. SplitAll below is that walk as a plain recursion on the rest of the
 * string; Split's separator branch and ReplaceAll are proved against it.
 */
module StringSplit {
  import opened Ints
  import opened StdString
  import opened StringHelper

  /** Split's result: the pieces, or the std::out_of_range that
      s.substr(npos) throws. */
  datatype Outcome = Pieces(ps: seq<string>) | Thrown

  /** nMaxSplit's default, (unsigned int)-1. */
  const NoLimit: u32 := 0xFFFF_FFFF

  /** The pieces glued back together with `sep` between neighbours. */
  function Join(ps: seq<string>, sep: string): string {
    if ps == [] then []
    else if |ps| == 1 then ps[0]
    else ps[0] + sep + Join(ps[1..], sep)
  }

  /** `x` occurs nowhere in `p`. */
  ghost predicate Free(p: string, x: string) {
    forall j: nat :: !OccursAt(p, x, j)
  }

  // -----------------------------------------------------------------------
  // The reference walk

  /** `s` cut at every occurrence of `sep`, leftmost first. */
  function SplitAll(s: string, sep: string): (r: seq<string>)
    requires sep != []
    ensures 1 <= |r| <= |s| + 1
    decreases |s|
  {
    var e := Find(s, sep, 0);
    if e.None? then [s] else [s[..e.value]] + SplitAll(s[e.value + |sep|..], sep)
  }

  /** Gluing the pieces back with the separator gives `s` again. */
  lemma {:induction false} JoinSplitAll(s: string, sep: string)
    requires sep != []
    ensures Join(SplitAll(s, sep), sep) == s
    decreases |s|
  {
    var e := Find(s, sep, 0);
    if e.Some? {
      var piece, rest := s[..e.value], s[e.value + |sep|..];
      SplitAllStep(s, sep, e.value, piece, rest);
      JoinSplitAll(rest, sep);
      JoinCons(piece, SplitAll(rest, sep), sep);
      Rejoin(s, e.value, sep, piece, rest);
    } else {
      SplitAllDone(s, sep);
    }
  }

  /** No piece contains the separator. */
  lemma {:induction false} SplitAllFree(s: string, sep: string)
    requires sep != []
    ensures forall i :: 0 <= i < |SplitAll(s, sep)| ==> Free(SplitAll(s, sep)[i], sep)
    decreases |s|
  {
    var e := Find(s, sep, 0);
    if e.Some? {
      var p := s[..e.value];
      forall j: nat ensures !OccursAt(p, sep, j) {
        if OccursAt(p, sep, j) {
          assert s[j..j + |sep|] == p[j..j + |sep|];
          assert OccursAt(s, sep, j);
        }
      }
      SplitAllFree(s[e.value + |sep|..], sep);
    }
  }

  // -----------------------------------------------------------------------
  // Split

  /** The separator branch from `begin` on, with `count` pieces taken: cut
      at the next occurrence while the limit is not reached; then, unless
      the limit is reached, the rest of `s` is the last piece. */
  function SplitSepFrom(s: string, sep: string, limit: nat, begin: nat, count: nat): seq<string>
    requires sep != [] && begin <= |s|
    decreases |s| - begin
  {
    var e := Find(s, sep, begin);
    if e.Some? && count != limit then
      [s[begin..e.value]] + SplitSepFrom(s, sep, limit, e.value + |sep|, count + 1)
    else if count != limit then [s[begin..]]
    else []
  }

  /** The whitespace branch from `begin` on (npos is None): cut at the next
      whitespace character and continue at the next non-whitespace one. If
      there is none, the final s.substr(npos) throws unless the limit is
      reached. */
  function SplitWsFrom(s: string, limit: nat, begin: Option<nat>, count: nat): Outcome
    requires begin.Some? ==> begin.value <= |s|
    decreases if begin.None? then 0 else |s| + 1 - begin.value
  {
    var e := if begin.None? then None else FindFirstOf(s, Spaces, begin.value);
    if e.Some? && count != limit then
      var rest := SplitWsFrom(s, limit, FindFirstNotOf(s, Spaces, e.value), count + 1);
      if rest.Thrown? then Thrown else Pieces([s[begin.value..e.value]] + rest.ps)
    else if count == limit then Pieces([])
    else if begin.None? then Thrown
    else Pieces([s[begin.value..]])
  }

  /** Split(s, sep, nMaxSplit); an empty `sep` selects the whitespace
      branch. */
  function SplitSpec(s: string, sep: string, limit: u32): Outcome {
    if sep != [] then Pieces(SplitSepFrom(s, sep, limit, 0, 0))
    else SplitWsFrom(s, limit, Some(0), 0)
  }

  lemma SplitSepStep(s: string, sep: string, limit: nat, begin: nat, count: nat, e: nat, next: nat, count': nat)
    requires sep != [] && begin <= |s| && Find(s, sep, begin) == Some(e) && count != limit
    requires next == e + |sep| && count' == count + 1
    ensures next <= |s|
    ensures SplitSepFrom(s, sep, limit, begin, count) == [s[begin..e]] + SplitSepFrom(s, sep, limit, next, count')
  {
  }

  lemma SplitWsStep(s: string, limit: nat, begin: Option<nat>, count: nat, e: nat, next: Option<nat>, count': nat)
    requires begin.Some? && begin.value <= |s| && FindFirstOf(s, Spaces, begin.value) == Some(e) && count != limit
    requires next == FindFirstNotOf(s, Spaces, e) && count' == count + 1
    ensures begin.value <= e < |s| && (next.Some? ==> next.value <= |s|)
    ensures SplitWsFrom(s, limit, begin, count) == WsAfter([s[begin.value..e]], SplitWsFrom(s, limit, next, count'))
  {
  }

  method Split(s: string, sep: string, nMaxSplit: u32) returns (r: Outcome)
    ensures r == SplitSpec(s, sep, nMaxSplit)
  {
    if sep != [] {
      var ps := SplitOnSeparator(s, sep, nMaxSplit);
      r := Pieces(ps);
    } else {
      r := SplitOnSpaces(s, nMaxSplit);
    }
  }

  /** Split's loop for a non-empty separator. */
  method SplitOnSeparator(s: string, sep: string, nMaxSplit: u32) returns (vecStr: seq<string>)
    requires sep != []
    ensures vecStr == SplitSepFrom(s, sep, nMaxSplit, 0, 0)
  {
    vecStr := [];
    ghost var whole := SplitSepFrom(s, sep, nMaxSplit, 0, 0);
    var iBeginPos := 0;
    var iEndPos := Find(s, sep, iBeginPos);
    while iEndPos.Some?
      invariant iBeginPos <= |s| && iEndPos == Find(s, sep, iBeginPos)
      invariant vecStr + SplitSepFrom(s, sep, nMaxSplit, iBeginPos, |vecStr|) == whole
      decreases |s| - iBeginPos
    {
      if |vecStr| == nMaxSplit {
        break;
      }
      var piece := s[iBeginPos..iEndPos.value];
      var next := iEndPos.value + |sep|;
      ghost var taken := vecStr;
      vecStr := vecStr + [piece];
      SplitSepLoopStep(s, sep, nMaxSplit, whole, taken, iBeginPos, iEndPos.value, piece, next, vecStr);
      iBeginPos := next;
      iEndPos := Find(s, sep, iBeginPos);
    }
    SplitSepLoopExit(s, sep, nMaxSplit, whole, vecStr, iBeginPos);
    if |vecStr| != nMaxSplit {
      vecStr := vecStr + [s[iBeginPos..]];
    }
  }

  /** One turn of SplitOnSeparator's loop keeps what is taken plus what is
      left to take equal to the whole result. */
  lemma SplitSepLoopStep(s: string, sep: string, limit: nat, whole: seq<string>, taken: seq<string>,
                         b: nat, e: nat, piece: string, next: nat, taken': seq<string>)
    requires sep != [] && b <= |s| && Find(s, sep, b) == Some(e) && |taken| != limit
    requires piece == s[b..e] && next == e + |sep| && taken' == taken + [piece]
    requires taken + SplitSepFrom(s, sep, limit, b, |taken|) == whole
    ensures next <= |s| && taken' + SplitSepFrom(s, sep, limit, next, |taken'|) == whole
  {
    SplitSepStep(s, sep, limit, b, |taken|, e, next, |taken'|);
    SeqShift(taken, piece, SplitSepFrom(s, sep, limit, next, |taken'|), taken');
  }

  lemma SeqShift<T>(xs: seq<T>, x: T, ys: seq<T>, xs': seq<T>)
    requires xs' == xs + [x]
    ensures xs + ([x] + ys) == xs' + ys
  {
  }

  /** SplitOnSeparator's loop has ended: the last piece, if any, finishes
      the result. */
  lemma SplitSepLoopExit(s: string, sep: string, limit: nat, whole: seq<string>, taken: seq<string>, b: nat)
    requires sep != [] && b <= |s| && (Find(s, sep, b).None? || |taken| == limit)
    requires taken + SplitSepFrom(s, sep, limit, b, |taken|) == whole
    ensures (if |taken| != limit then taken + [s[b..]] else taken) == whole
  {
  }

  /** Split's loop for an empty separator: runs of whitespace separate. */
  method SplitOnSpaces(s: string, nMaxSplit: u32) returns (r: Outcome)
    ensures r == SplitWsFrom(s, nMaxSplit, Some(0), 0)
  {
    var vecStr: seq<string> := [];
    ghost var whole := SplitWsFrom(s, nMaxSplit, Some(0), 0);
    var iBeginPos: Option<nat> := Some(0);
    var iEndPos := FindFirstOf(s, Spaces, 0);
    while iEndPos.Some?
      invariant iBeginPos.Some? ==> iBeginPos.value <= |s|
      invariant iEndPos == if iBeginPos.None? then None else FindFirstOf(s, Spaces, iBeginPos.value)
      invariant WsAfter(vecStr, SplitWsFrom(s, nMaxSplit, iBeginPos, |vecStr|)) == whole
      decreases if iBeginPos.None? then 0 else |s| + 1 - iBeginPos.value
    {
      if |vecStr| == nMaxSplit {
        break;
      }
      var piece := s[iBeginPos.value..iEndPos.value];
      var next := FindFirstNotOf(s, Spaces, iEndPos.value);
      ghost var taken := vecStr;
      vecStr := vecStr + [piece];
      SplitWsLoopStep(s, nMaxSplit, whole, taken, iBeginPos, iEndPos.value, piece, next, vecStr);
      iBeginPos := next;
      iEndPos := if iBeginPos.None? then None else FindFirstOf(s, Spaces, iBeginPos.value);
    }
    SplitWsLoopExit(s, nMaxSplit, whole, vecStr, iBeginPos);
    if |vecStr| != nMaxSplit {
      if iBeginPos.None? {
        return Thrown;
      }
      vecStr := vecStr + [s[iBeginPos.value..]];
    }
    return Pieces(vecStr);
  }

  /** One turn of SplitOnSpaces' loop keeps what is taken plus what is
      left to take equal to the whole result. */
  lemma SplitWsLoopStep(s: string, limit: nat, whole: Outcome, taken: seq<string>, b: Option<nat>,
                        e: nat, piece: string, next: Option<nat>, taken': seq<string>)
    requires b.Some? && b.value <= |s| && FindFirstOf(s, Spaces, b.value) == Some(e) && |taken| != limit
    requires piece == s[b.value..e] && next == FindFirstNotOf(s, Spaces, e) && taken' == taken + [piece]
    requires WsAfter(taken, SplitWsFrom(s, limit, b, |taken|)) == whole
    ensures (next.Some? ==> next.value <= |s|) && WsAfter(taken', SplitWsFrom(s, limit, next, |taken'|)) == whole
  {
    SplitWsStep(s, limit, b, |taken|, e, next, |taken'|);
    var rest := SplitWsFrom(s, limit, next, |taken'|);
    if rest.Pieces? {
      SeqShift(taken, piece, rest.ps, taken');
    }
  }

  /** SplitOnSpaces' loop has ended: the last piece finishes the result,
      unless there is no position to take it from. */
  lemma SplitWsLoopExit(s: string, limit: nat, whole: Outcome, taken: seq<string>, b: Option<nat>)
    requires b.Some? ==> b.value <= |s|
    requires b.None? || FindFirstOf(s, Spaces, b.value).None? || |taken| == limit
    requires WsAfter(taken, SplitWsFrom(s, limit, b, |taken|)) == whole
    ensures whole == if |taken| == limit then Pieces(taken)
                     else if b.None? then Thrown else Pieces(taken + [s[b.value..]])
  {
    if |taken| == limit {
      assert taken + [] == taken;
    }
  }

  /** The pieces taken so far in front of what the rest of the walk gives. */
  function WsAfter(taken: seq<string>, rest: Outcome): Outcome {
    if rest.Thrown? then Thrown else Pieces(taken + rest.ps)
  }

  /** The separator branch keeps the first `limit` pieces of the reference
      walk and drops the rest: the unsplit remainder is not appended. */
  lemma {:induction false} SplitSepTakes(s: string, sep: string, limit: nat, begin: nat, count: nat)
    requires sep != [] && begin <= |s| && count <= limit
    ensures SplitSepFrom(s, sep, limit, begin, count)
         == SplitAll(s[begin..], sep)[..Min(limit - count, |SplitAll(s[begin..], sep)|)]
    decreases |s| - begin
  {
    var t := s[begin..];
    FindInSuffix(s, sep, begin);
    var e := Find(t, sep, 0);
    if e.Some? && count != limit {
      var next := begin + e.value + |sep|;
      assert Find(s, sep, begin) == Some(begin + e.value);
      SplitSepStep(s, sep, limit, begin, count, begin + e.value, next, count + 1);
      SplitSepTakes(s, sep, limit, next, count + 1);
      SplitSepTakesStep(s, sep, limit, begin, count, t, e.value, next);
    } else {
      SplitSepLast(s, sep, limit, begin, count);
      if count == limit {
        TakeNone(SplitAll(t, sep), limit - count);
      } else {
        SplitAllDone(t, sep);
        TakeAll(SplitAll(t, sep), limit - count);
      }
    }
  }

  /** SplitSepTakes' step: the cut at `e` and the pieces after it. */
  lemma SplitSepTakesStep(s: string, sep: string, limit: nat, begin: nat, count: nat, t: string, e: nat, next: nat)
    requires sep != [] && begin <= |s| && t == s[begin..] && Find(t, sep, 0) == Some(e) && count < limit
    requires next == begin + e + |sep| && next <= |s|
    requires SplitSepFrom(s, sep, limit, begin, count) == [s[begin..begin + e]] + SplitSepFrom(s, sep, limit, next, count + 1)
    requires SplitSepFrom(s, sep, limit, next, count + 1)
          == SplitAll(s[next..], sep)[..Min(limit - (count + 1), |SplitAll(s[next..], sep)|)]
    ensures SplitSepFrom(s, sep, limit, begin, count) == SplitAll(t, sep)[..Min(limit - count, |SplitAll(t, sep)|)]
  {
    var piece, rest := t[..e], t[e + |sep|..];
    SuffixSlices(s, begin, t, e, |sep|, piece, rest);
    SplitAllStep(t, sep, e, piece, rest);
    TakeCons(piece, SplitAll(rest, sep), SplitAll(t, sep), limit - (count + 1), limit - count);
  }

  /** No cut is left to make: at most the rest of `s` remains. */
  lemma SplitSepLast(s: string, sep: string, limit: nat, begin: nat, count: nat)
    requires sep != [] && begin <= |s| && (Find(s, sep, begin).None? || count == limit)
    ensures SplitSepFrom(s, sep, limit, begin, count) == if count != limit then [s[begin..]] else []
  {
  }

  /** The first `k + 1` of `a` followed by `xs` are `a` and the first `k`
      of `xs`. */
  lemma TakeCons<T>(a: T, xs: seq<T>, ys: seq<T>, k: int, k': int)
    requires ys == [a] + xs && 0 <= k && k' == k + 1
    ensures ys[..Min(k', |ys|)] == [a] + xs[..Min(k, |xs|)]
  {
  }

  lemma TakeNone<T>(ys: seq<T>, k: int)
    requires k == 0
    ensures ys[..Min(k, |ys|)] == []
  {
  }

  lemma TakeAll<T>(ys: seq<T>, k: int)
    requires |ys| <= k
    ensures ys[..Min(k, |ys|)] == ys
  {
  }

  /** Slices of the suffix `t` of `s` that starts at `begin`, read in `s`. */
  lemma SuffixSlices<T>(s: seq<T>, begin: nat, t: seq<T>, e: nat, n: nat, piece: seq<T>, rest: seq<T>)
    requires begin <= |s| && t == s[begin..] && e + n <= |t| && piece == t[..e] && rest == t[e + n..]
    ensures s[begin..begin + e] == piece && s[begin + e + n..] == rest
  {
  }

  /** `s` is what comes before an occurrence of `x`, `x`, and what follows. */
  lemma Rejoin<T>(s: seq<T>, e: nat, x: seq<T>, piece: seq<T>, rest: seq<T>)
    requires e + |x| <= |s| && s[e..e + |x|] == x && piece == s[..e] && rest == s[e + |x|..]
    ensures s == piece + x + rest
  {
    assert s == s[..e] + s[e..e + |x|] + s[e + |x|..];
  }

  /** Split with a separator: at most nMaxSplit pieces, each free of the
      separator, and they are the leading pieces of the reference walk. */
  lemma SplitWithSeparator(s: string, sep: string, limit: u32)
    requires sep != []
    ensures SplitSpec(s, sep, limit) == Pieces(SplitAll(s, sep)[..Min(limit, |SplitAll(s, sep)|)])
    ensures |SplitSpec(s, sep, limit).ps| <= limit
    ensures forall i :: 0 <= i < |SplitSpec(s, sep, limit).ps| ==> Free(SplitSpec(s, sep, limit).ps[i], sep)
  {
    SplitSepTakes(s, sep, limit, 0, 0);
    assert s[0..] == s;
    SplitAllFree(s, sep);
  }

  /** With the default limit (and a string shorter than it), Split cuts at
      every separator and the pieces glue back to `s`. */
  lemma SplitRejoins(s: string, sep: string)
    requires sep != [] && |s| < NoLimit
    ensures SplitSpec(s, sep, NoLimit) == Pieces(SplitAll(s, sep))
    ensures Join(SplitSpec(s, sep, NoLimit).ps, sep) == s
  {
    SplitWithSeparator(s, sep, NoLimit);
    JoinSplitAll(s, sep);
  }

  /** In the whitespace branch, with the limit out of reach, Split throws
      exactly when `s` ends in whitespace: the last find_first_not_of
      returns npos and substr(npos) is out of range. */
  lemma {:induction false} SplitWsThrows(s: string, limit: nat, b: nat, count: nat)
    requires count <= b <= |s| < limit
    ensures SplitWsFrom(s, limit, Some(b), count).Thrown? <==> b < |s| && s[|s| - 1] in Spaces
    decreases |s| + 1 - b
  {
    var e := FindFirstOf(s, Spaces, b);
    if e.Some? {
      var next := FindFirstNotOf(s, Spaces, e.value);
      if next.Some? {
        SplitWsThrows(s, limit, next.value, count + 1);
      } else {
        assert s[|s| - 1] in Spaces;
      }
    }
  }

  /** Split with an empty separator and the limit out of reach: it throws
      exactly on trailing whitespace; otherwise its pieces hold no
      whitespace, every piece but the first is non-empty, and `s` is the
      pieces with a run of whitespace between neighbours. */
  lemma SplitOnWhitespace(s: string, limit: u32)
    requires |s| < limit
    ensures SplitSpec(s, "", limit).Thrown? <==> s != [] && s[|s| - 1] in Spaces
    ensures var r := SplitSpec(s, "", limit);
      r.Pieces? ==> forall i, j :: 0 <= i < |r.ps| && 0 <= j < |r.ps[i]| ==> r.ps[i][j] !in Spaces
    ensures var r := SplitSpec(s, "", limit);
      r.Pieces? ==> (exists ws :: Separates(r.ps, ws, s)) && forall i :: 0 < i < |r.ps| ==> r.ps[i] != []
  {
    SplitWsThrows(s, limit, 0, 0);
    SplitWsFixedAgrees(s, limit, 0, 0);
    var ws := SplitWsFixedFields(s, limit, 0, 0);
    assert s[0..] == s;
  }

  /** A non-empty run of whitespace. */
  predicate SpaceRun(w: string) {
    w != [] && forall j :: 0 <= j < |w| ==> w[j] in Spaces
  }

  /** The pieces with `ws[k]` between `ps[k]` and `ps[k + 1]`. */
  function Interleave(ps: seq<string>, ws: seq<string>): string
    requires |ps| == |ws| + 1
    decreases |ws|
  {
    if ws == [] then ps[0] else ps[0] + ws[0] + Interleave(ps[1..], ws[1..])
  }

  /** `s` is the pieces `ps` separated by the runs of whitespace `ws`. */
  ghost predicate Separates(ps: seq<string>, ws: seq<string>, s: string) {
    |ps| == |ws| + 1 && (forall k :: 0 <= k < |ws| ==> SpaceRun(ws[k])) && s == Interleave(ps, ws)
  }

  /** The corrected walk from `b` cuts s[b..] into its whitespace-separated
      fields: the runs it skips lie between the pieces, a piece after a run
      is empty only at the very end, and then `s` ends in whitespace. */
  lemma {:induction false} SplitWsFixedFields(s: string, limit: nat, b: nat, count: nat) returns (ws: seq<string>)
    requires count <= b <= |s| < limit
    ensures var r := SplitWsFixed(s, limit, b, count);
      Separates(r, ws, s[b..]) && forall i :: 0 < i < |r| - 1 ==> r[i] != []
    ensures var r := SplitWsFixed(s, limit, b, count);
      (b < |s| && s[b] !in Spaces ==> r[0] != []) && (|r| > 1 && r[|r| - 1] == [] ==> s != [] && s[|s| - 1] in Spaces)
    decreases |s| + 1 - b
  {
    match FindFirstOf(s, Spaces, b)
    case None =>
      SplitWsFixedLast(s, limit, b, count);
      ws := [];
    case Some(e) =>
      var b' := SplitWsFixedCut(s, limit, b, count, e);
      var ws' := SplitWsFixedFields(s, limit, b', count + 1);
      assert b < |s| && s[b] !in Spaces ==> b < e;
      ws := FieldsCons(s, b, e, b', SplitWsFixed(s, limit, b, count), SplitWsFixed(s, limit, b', count + 1), ws');
  }

  /** No whitespace is left: the rest of `s` is the last piece. */
  lemma SplitWsFixedLast(s: string, limit: nat, b: nat, count: nat)
    requires count <= b <= |s| < limit && FindFirstOf(s, Spaces, b).None?
    ensures SplitWsFixed(s, limit, b, count) == [s[b..]] && Interleave([s[b..]], []) == s[b..]
  {
  }

  /** The fields of s[b'..] with the piece s[b..e] and the run s[e..b'] in
      front are the fields of s[b..]. */
  lemma FieldsCons(s: string, b: nat, e: nat, b': nat, r: seq<string>, rest: seq<string>, ws': seq<string>)
    returns (ws: seq<string>)
    requires b <= e < b' <= |s| && SpaceRun(s[e..b']) && r == [s[b..e]] + rest
    requires Separates(rest, ws', s[b'..]) && forall i :: 0 < i < |rest| - 1 ==> rest[i] != []
    requires b' < |s| ==> rest[0] != []
    requires b' == |s| ==> rest == [[]]
    requires |rest| > 1 && rest[|rest| - 1] == [] ==> s != [] && s[|s| - 1] in Spaces
    requires b' == |s| ==> s[|s| - 1] in Spaces
    ensures Separates(r, ws, s[b..]) && forall i :: 0 < i < |r| - 1 ==> r[i] != []
    ensures |r| > 1 && r[|r| - 1] == [] ==> s != [] && s[|s| - 1] in Spaces
    ensures b < e ==> r[0] != []
  {
    ws := [s[e..b']] + ws';
    SeparatesCons(s[b..e], s[e..b'], rest, ws', s[b'..]);
    Slices3(s, b, e, b');
  }

  /** One cut of the corrected walk: the piece up to the whitespace at `e`,
      then the rest of the walk from the end `b'` of that run. */
  lemma SplitWsFixedCut(s: string, limit: nat, b: nat, count: nat, e: nat) returns (b': nat)
    requires count <= b <= |s| < limit && FindFirstOf(s, Spaces, b) == Some(e)
    ensures b <= e < b' <= |s| && count + 1 <= b' && SpaceRun(s[e..b'])
    ensures SplitWsFixed(s, limit, b, count) == [s[b..e]] + SplitWsFixed(s, limit, b', count + 1)
    ensures b' < |s| ==> s[b'] !in Spaces
    ensures b' == |s| ==> SplitWsFixed(s, limit, b', count + 1) == [[]] && s[|s| - 1] in Spaces
    ensures b' == (if FindFirstNotOf(s, Spaces, e).None? then |s| else FindFirstNotOf(s, Spaces, e).value)
  {
    var next := FindFirstNotOf(s, Spaces, e);
    b' := if next.None? then |s| else next.value;
    var w := s[e..b'];
    assert forall j :: 0 <= j < |w| ==> w[j] == s[e + j];
    if next.None? {
      assert SplitWsFixed(s, limit, b', count + 1) == [s[b'..]] && s[b'..] == [];
      assert e <= |s| - 1;
    }
  }

  /** A piece and a run in front of a separated string. */
  lemma SeparatesCons(piece: string, w: string, rest: seq<string>, ws: seq<string>, u: string)
    requires Separates(rest, ws, u) && SpaceRun(w)
    ensures Separates([piece] + rest, [w] + ws, piece + w + u)
    ensures |rest| > 1 ==> ([piece] + rest)[1] == rest[0]
    ensures ([piece] + rest)[|rest|] == rest[|rest| - 1]
  {
    assert ([piece] + rest)[1..] == rest && ([w] + ws)[1..] == ws;
  }

  lemma Slices3<T>(s: seq<T>, b: nat, e: nat, b': nat)
    requires b <= e <= b' <= |s|
    ensures s[b..] == s[b..e] + s[e..b'] + s[b'..]
  {
  }

  /** The whitespace-separated fields of `s`: the corrected walk with no
      limit in reach. */
  function WsFields(s: string): seq<string> {
    SplitWsFixed(s, |s| + 1, 0, 0)
  }

  /** A limit the walk cannot reach does not change its result. */
  lemma {:induction false} WsFixedLimitFree(s: string, l1: nat, l2: nat, b: nat, count: nat)
    requires count <= b <= |s| < l1 && |s| < l2
    ensures SplitWsFixed(s, l1, b, count) == SplitWsFixed(s, l2, b, count)
    decreases |s| + 1 - b
  {
    match FindFirstOf(s, Spaces, b)
    case None =>
      SplitWsFixedLast(s, l1, b, count);
      SplitWsFixedLast(s, l2, b, count);
    case Some(e) =>
      var b1 := SplitWsFixedCut(s, l1, b, count, e);
      var b2 := SplitWsFixedCut(s, l2, b, count, e);
      WsFixedLimitFree(s, l1, l2, b1, count + 1);
  }

  /** Under a smaller limit the corrected walk keeps the first pieces of the
      walk under a larger one. */
  lemma {:induction false} WsFixedTakes(s: string, limit: nat, big: nat, b: nat, count: nat)
    requires count <= limit <= big && count <= b <= |s| < big
    ensures SplitWsFixed(s, limit, b, count)
         == SplitWsFixed(s, big, b, count)[..Min(limit - count, |SplitWsFixed(s, big, b, count)|)]
    decreases |s| + 1 - b
  {
    match FindFirstOf(s, Spaces, b)
    case None =>
    case Some(e) =>
      if count != limit {
        var b' := SplitWsFixedCut(s, big, b, count, e);
        SplitWsFixedStep(s, limit, b, count, e, b');
        WsFixedTakes(s, limit, big, b', count + 1);
        TakeCons(s[b..e], SplitWsFixed(s, big, b', count + 1), SplitWsFixed(s, big, b, count), limit - (count + 1), limit - count);
      }
  }

  /** One cut of the corrected branch, for any limit not yet reached. */
  lemma SplitWsFixedStep(s: string, limit: nat, b: nat, count: nat, e: nat, b': nat)
    requires b <= |s| && count != limit && FindFirstOf(s, Spaces, b) == Some(e)
    requires b' == (if FindFirstNotOf(s, Spaces, e).None? then |s| else FindFirstNotOf(s, Spaces, e).value)
    ensures b' <= |s| && SplitWsFixed(s, limit, b, count) == [s[b..e]] + SplitWsFixed(s, limit, b', count + 1)
  {
  }

  /** Split's whitespace branch throws only when it would take every field
      and the last one is the empty piece after trailing whitespace: the
      fields from `b` on, added to the `count` taken, stay within the limit. */
  lemma {:induction false} WsThrowsWithinLimit(s: string, limit: nat, big: nat, b: nat, count: nat)
    requires count <= limit && count <= b <= |s| < big
    ensures SplitWsFrom(s, limit, Some(b), count).Thrown? ==> count + |SplitWsFixed(s, big, b, count)| <= limit
    decreases |s| + 1 - b
  {
    match FindFirstOf(s, Spaces, b)
    case None =>
    case Some(e) =>
      if count != limit {
        var next := FindFirstNotOf(s, Spaces, e);
        SplitWsStep(s, limit, Some(b), count, e, next, count + 1);
        var b' := SplitWsFixedCut(s, big, b, count, e);
        match next
        case None => SplitWsFromEnd(s, limit, count + 1);
        case Some(_) => WsThrowsWithinLimit(s, limit, big, b', count + 1);
      }
  }

  /** Past trailing whitespace there is no begin left: the walk stops with
      no piece when the limit is reached, and throws otherwise. */
  lemma SplitWsFromEnd(s: string, limit: nat, count: nat)
    ensures SplitWsFrom(s, limit, None, count) == if count == limit then Pieces([]) else Thrown
  {
  }

  /** Split with an empty separator, for every limit: a result is the first
      nMaxSplit fields of `s` (all of them when fewer), and there is no
      exception while fewer than all the fields are asked for. */
  lemma SplitOnWhitespaceAnyLimit(s: string, limit: u32)
    ensures var r := SplitSpec(s, "", limit);
      r.Pieces? ==> r.ps == WsFields(s)[..Min(limit, |WsFields(s)|)]
    ensures limit < |WsFields(s)| ==> SplitSpec(s, "", limit).Pieces?
  {
    SplitWsFixedAgrees(s, limit, 0, 0);
    WsThrowsWithinLimit(s, limit, |s| + 1, 0, 0);
    WsFixedTakesFields(s, limit);
  }

  /** With nMaxSplit 2, "a b " gives "a" and "b": the loop stops at the
      limit before the final substr, so the trailing blank does not throw. */
  lemma SplitLimitBeforeTrailingSpace()
    ensures SplitSpec("a b ", "", 2) == Pieces(["a", "b"])
  {
    var s := "a b ";
    assert FindFirstOf(s, Spaces, 0) == Some(1);
    assert FindFirstNotOf(s, Spaces, 1) == Some(2);
    assert FindFirstOf(s, Spaces, 2) == Some(3);
    assert FindFirstNotOf(s, Spaces, 3).None?;
    assert SplitWsFrom(s, 2, None, 2) == Pieces([]);
    assert s[0..1] == "a" && s[2..3] == "b";
  }

  /** The corrected walk under any limit keeps the first fields. */
  lemma WsFixedTakesFields(s: string, limit: nat)
    ensures SplitWsFixed(s, limit, 0, 0) == WsFields(s)[..Min(limit, |WsFields(s)|)]
  {
    if limit <= |s| + 1 {
      WsFixedTakes(s, limit, |s| + 1, 0, 0);
    } else {
      WsFixedLimitFree(s, limit, |s| + 1, 0, 0);
      SplitWsFixedAgrees(s, |s| + 1, 0, 0);
    }
  }

  /** The fields of `s` are separated by non-empty runs of whitespace, and
      only the first and the last of them can be empty. */
  lemma WsFieldsSeparate(s: string)
    ensures exists ws :: Separates(WsFields(s), ws, s)
    ensures forall i :: 0 < i < |WsFields(s)| - 1 ==> WsFields(s)[i] != []
  {
    var ws := SplitWsFixedFields(s, |s| + 1, 0, 0);
    assert s[0..] == s;
    assert Separates(WsFields(s), ws, s);
  }

  /** "a " ends in whitespace: Split throws where the pieces "a" and ""
      were evidently meant. */
  lemma SplitTrailingSpaceThrows()
    ensures SplitSpec("a ", "", NoLimit).Thrown?
    ensures SplitWsFixed("a ", NoLimit, 0, 0) == ["a", ""]
  {
    SplitOnWhitespace("a ", NoLimit);
    assert FindFirstOf("a ", Spaces, 0) == Some(1);
    assert FindFirstNotOf("a ", Spaces, 1).None?;
    assert FindFirstOf("a ", Spaces, 2).None?;
    assert "a "[2..] == "";
    assert SplitWsFixed("a ", NoLimit, 2, 1) == [""];
    assert "a "[0..1] == "a";
  }

  /** The whitespace branch with the end of `s` standing in for npos after
      a trailing run of whitespace, so that the last piece is empty, as in
      the separator branch, instead of an exception. */
  function SplitWsFixed(s: string, limit: nat, begin: nat, count: nat): seq<string>
    requires begin <= |s|
    decreases |s| + 1 - begin
  {
    var e := FindFirstOf(s, Spaces, begin);
    if e.Some? && count != limit then
      var next := FindFirstNotOf(s, Spaces, e.value);
      [s[begin..e.value]] + SplitWsFixed(s, limit, if next.None? then |s| else next.value, count + 1)
    else if count == limit then []
    else [s[begin..]]
  }

  /** The corrected branch never throws, gives at most `limit` pieces, none
      of them holding whitespace, and it agrees with Split wherever Split
      does not throw. */
  lemma {:induction false} SplitWsFixedAgrees(s: string, limit: nat, b: nat, count: nat)
    requires count <= limit && b <= |s|
    ensures var r := SplitWsFixed(s, limit, b, count);
      |r| <= limit - count && forall i, j :: 0 <= i < |r| && 0 <= j < |r[i]| ==> r[i][j] !in Spaces
    ensures SplitWsFrom(s, limit, Some(b), count).Pieces? ==> SplitWsFrom(s, limit, Some(b), count).ps == SplitWsFixed(s, limit, b, count)
    decreases |s| + 1 - b
  {
    var e := FindFirstOf(s, Spaces, b);
    if e.Some? && count != limit {
      var next := FindFirstNotOf(s, Spaces, e.value);
      var b' := if next.None? then |s| else next.value;
      SplitWsFixedAgrees(s, limit, b', count + 1);
      var rest := SplitWsFixed(s, limit, b', count + 1);
      var r := SplitWsFixed(s, limit, b, count);
      assert r == [s[b..e.value]] + rest;
      forall i, j | 0 <= i < |r| && 0 <= j < |r[i]| ensures r[i][j] !in Spaces {
        if i > 0 {
          assert r[i] == rest[i - 1];
        }
      }
    }
  }

  // -----------------------------------------------------------------------
  // ReplaceAll

  /** s.replace(p, n, ins): the `n` characters at `p` give way to `ins`. */
  function Splice(s: string, p: nat, n: nat, ins: string): (r: string)
    requires p + n <= |s|
    ensures |r| == |s| - n + |ins| && r[..p] == s[..p] && r[p..p + |ins|] == ins && r[p + |ins|..] == s[p + n..]
  {
    s[..p] + ins + s[p + n..]
  }

  /** How far a walk at `pos` is from running off the end of `s`. */
  function Remaining(s: string, pos: nat): nat {
    if pos <= |s| then |s| + 1 - pos else 0
  }

  /** One turn of the replace loop at `pos`: the next occurrence of `src`
      gives way to `ins`, and the search resumes `skip` characters after
      where it started; None once `src` is not found. The walk gets closer
      to the end as long as the inserted text is shorter than the step plus
      the text it replaces. */
  function ReplaceStep(s: string, src: string, ins: string, skip: nat, pos: nat): (r: Option<(string, nat)>)
    requires |ins| <= skip && (src != [] || |ins| < skip)
    ensures r.None? <==> Find(s, src, pos).None?
    ensures r.Some? ==> Remaining(r.value.0, r.value.1) < Remaining(s, pos)
  {
    match Find(s, src, pos)
    case None => None
    case Some(p) => Some((Splice(s, p, |src|, ins), p + skip))
  }

  /** The replace loop from `pos` on, turn after turn until `src` is not
      found. */
  function ReplaceWalk(s: string, src: string, ins: string, skip: nat, pos: nat): string
    requires |ins| <= skip && (src != [] || |ins| < skip)
    decreases Remaining(s, pos)
  {
    match ReplaceStep(s, src, ins, skip, pos)
    case None => s
    case Some((s', pos')) => ReplaceWalk(s', src, ins, skip, pos')
  }

  /** ReplaceAll(s, src, dst) as written: it inserts dst.c_str() and then
      advances by dst.length(). An empty `src` is found at every position,
      so the loop ends only if `dst` holds a NUL, which makes each turn
      advance further than it inserts. */
  method ReplaceAll(s: string, src: string, dst: string) returns (s': string)
    requires src != [] || |CStr(dst)| < |dst|
    ensures s' == ReplaceWalk(s, src, CStr(dst), |dst|, 0)
  {
    s' := s;
    ghost var ins, whole := CStr(dst), ReplaceWalk(s, src, CStr(dst), |dst|, 0);
    var nPos: nat := 0;
    var found := Find(s', src, nPos);
    while found.Some?
      invariant found == Find(s', src, nPos)
      invariant ReplaceWalk(s', src, ins, |dst|, nPos) == whole
      decreases Remaining(s', nPos)
    {
      ghost var s0, pos := s', nPos;
      nPos := found.value;
      s' := Splice(s', nPos, |src|, CStr(dst));
      nPos := nPos + |dst|;
      ReplaceStepAt(s0, src, ins, |dst|, pos, found.value, s', nPos);
      ReplaceWalkNext(s0, src, ins, |dst|, pos, s', nPos);
      found := Find(s', src, nPos);
    }
    ReplaceWalkDone(s', src, ins, |dst|, nPos);
  }

  /** Resuming right after the inserted text replaces the occurrences the
      reference walk cuts at, and never rescans inserted text. */
  lemma {:induction false} ReplaceWalkJoins(u: string, t: string, src: string, ins: string)
    requires src != []
    ensures ReplaceWalk(u + t, src, ins, |ins|, |u|) == u + Join(SplitAll(t, src), ins)
    decreases |t|
  {
    match Find(t, src, 0)
    case None =>
      WalkAtSuffixDone(u, t, src, ins);
      SplitAllDone(t, src);
    case Some(e) =>
      var u', rest := u + t[..e] + ins, t[e + |src|..];
      WalkAtSuffixStep(u, t, src, ins, e, u', rest);
      ReplaceWalkJoins(u', rest, src, ins);
      JoinAfterCut(u, t, src, ins, e, u', rest);
  }

  /** The walk resumed after `u` cuts at the first occurrence in `t`. */
  lemma WalkAtSuffixStep(u: string, t: string, src: string, ins: string, e: nat, u': string, rest: string)
    requires src != [] && Find(t, src, 0) == Some(e)
    requires u' == u + t[..e] + ins && rest == t[e + |src|..]
    ensures ReplaceWalk(u + t, src, ins, |ins|, |u|) == ReplaceWalk(u' + rest, src, ins, |ins|, |u'|)
  {
    var s := u + t;
    SuffixAfter(u, t, s);
    FindInSuffix(s, src, |u|);
    SpliceInSuffix(u, t, s, e, |src|, ins, u', rest);
    ReplaceWalkUnfold(s, src, ins, |ins|, |u|, |u| + e, u' + rest, |u'|);
  }

  /** The walk resumed after `u` stops when `t` holds no occurrence. */
  lemma WalkAtSuffixDone(u: string, t: string, src: string, ins: string)
    requires src != [] && Find(t, src, 0).None?
    ensures ReplaceWalk(u + t, src, ins, |ins|, |u|) == u + t
  {
    var s := u + t;
    SuffixAfter(u, t, s);
    FindInSuffix(s, src, |u|);
    ReplaceWalkDone(s, src, ins, |ins|, |u|);
  }

  /** Gluing the pieces of `t` after `u` is gluing the first piece and
      then the pieces of what follows the first occurrence. */
  lemma JoinAfterCut(u: string, t: string, src: string, ins: string, e: nat, u': string, rest: string)
    requires src != [] && Find(t, src, 0) == Some(e)
    requires u' == u + t[..e] + ins && rest == t[e + |src|..]
    ensures u + Join(SplitAll(t, src), ins) == u' + Join(SplitAll(rest, src), ins)
  {
    var piece := t[..e];
    SplitAllStep(t, src, e, piece, rest);
    JoinCons(piece, SplitAll(rest, src), ins);
    Regroup(u, piece, ins, Join(SplitAll(rest, src), ins));
  }

  /** ReplaceWalk's step, with the new string and position named. */
  lemma ReplaceWalkUnfold(s: string, src: string, ins: string, skip: nat, pos: nat, p: nat, s': string, pos': nat)
    requires src != [] && |ins| <= skip && Find(s, src, pos) == Some(p)
    requires s' == Splice(s, p, |src|, ins) && pos' == p + skip
    ensures ReplaceWalk(s, src, ins, skip, pos) == ReplaceWalk(s', src, ins, skip, pos')
  {
    ReplaceStepAt(s, src, ins, skip, pos, p, s', pos');
    ReplaceWalkNext(s, src, ins, skip, pos, s', pos');
  }

  lemma ReplaceStepAt(s: string, src: string, ins: string, skip: nat, pos: nat, p: nat, s': string, pos': nat)
    requires |ins| <= skip && (src != [] || |ins| < skip) && Find(s, src, pos) == Some(p)
    requires s' == Splice(s, p, |src|, ins) && pos' == p + skip
    ensures ReplaceStep(s, src, ins, skip, pos) == Some((s', pos'))
  {
  }

  lemma ReplaceWalkNext(s: string, src: string, ins: string, skip: nat, pos: nat, s': string, pos': nat)
    requires |ins| <= skip && (src != [] || |ins| < skip) && ReplaceStep(s, src, ins, skip, pos) == Some((s', pos'))
    ensures ReplaceWalk(s, src, ins, skip, pos) == ReplaceWalk(s', src, ins, skip, pos')
  {
  }

  lemma ReplaceWalkDone(s: string, src: string, ins: string, skip: nat, pos: nat)
    requires |ins| <= skip && (src != [] || |ins| < skip) && Find(s, src, pos).None?
    ensures ReplaceWalk(s, src, ins, skip, pos) == s
  {
  }

  lemma SplitAllStep(t: string, sep: string, e: nat, piece: string, rest: string)
    requires sep != [] && Find(t, sep, 0) == Some(e)
    requires piece == t[..e] && rest == t[e + |sep|..]
    ensures SplitAll(t, sep) == [piece] + SplitAll(rest, sep)
  {
  }

  lemma SplitAllDone(t: string, sep: string)
    requires sep != [] && Find(t, sep, 0).None?
    ensures SplitAll(t, sep) == [t]
  {
  }

  /** The part of `u + t` after `u` is `t`. */
  lemma SuffixAfter<T>(u: seq<T>, t: seq<T>, s: seq<T>)
    requires s == u + t
    ensures s[|u|..] == t
  {
  }

  /** Replacing `n` elements at offset `e` of the `t` part of `u + t`. */
  lemma SpliceInSuffix(u: string, t: string, s: string, e: nat, n: nat, ins: string, u': string, rest: string)
    requires s == u + t && e + n <= |t| && u' == u + t[..e] + ins && rest == t[e + n..]
    ensures Splice(s, |u| + e, n, ins) == u' + rest
  {
    assert s[..|u| + e] == u + t[..e];
    assert s[|u| + e + n..] == rest;
  }

  lemma Regroup<T>(u: seq<T>, a: seq<T>, b: seq<T>, c: seq<T>)
    ensures (u + a + b) + c == u + (a + b + c)
  {
  }

  lemma JoinCons(a: string, xs: seq<string>, sep: string)
    requires xs != []
    ensures Join([a] + xs, sep) == a + sep + Join(xs, sep)
  {
    assert ([a] + xs)[1..] == xs;
  }

  /** With a `dst` free of NUL characters, ReplaceAll replaces every
      occurrence the reference walk cuts at by `dst`: the result is the
      pieces of `s` glued with `dst`. In particular a string without `src`
      comes back unchanged. */
  lemma ReplaceAllJoins(s: string, src: string, dst: string)
    requires src != [] && '\0' !in dst
    ensures ReplaceWalk(s, src, CStr(dst), |dst|, 0) == Join(SplitAll(s, src), dst)
    ensures Find(s, src, 0).None? ==> ReplaceWalk(s, src, CStr(dst), |dst|, 0) == s
  {
    assert CStr(dst) == dst;
    ReplaceWalkJoins([], s, src, dst);
    assert [] + s == s;
  }

  /** A NUL in `dst` cuts the inserted text short while the position still
      advances by all of dst.length(): in "aa" the second "a" is skipped,
      although both were evidently to be replaced. */
  lemma ReplaceSkipsAfterNul()
    ensures ReplaceWalk("aa", "a", CStr("\0b"), 2, 0) == "a"
  {
    assert CStr("\0b") == "";
    assert OccursAt("aa", "a", 0);
    ReplaceWalkUnfold("aa", "a", "", 2, 0, 0, "a", 2);
    ReplaceWalkDone("a", "a", "", 2, 2);
  }

  /** With an empty `src` and a `dst` that starts with NUL, every turn
      inserts nothing: ReplaceAll ends and leaves `s` as it was. */
  lemma {:induction false} ReplaceEmptyInsertsNothing(s: string, skip: nat, pos: nat)
    requires skip > 0
    ensures ReplaceWalk(s, [], [], skip, pos) == s
    decreases Remaining(s, pos)
  {
    match ReplaceStep(s, [], [], skip, pos)
    case None =>
    case Some((s', pos')) =>
      assert s' == s[..pos] + s[pos..] == s;
      ReplaceWalkNext(s, [], [], skip, pos, s', pos');
      ReplaceEmptyInsertsNothing(s, skip, pos');
  }

  /** "ab" with an empty `src` and `dst` "\0" stays "ab". */
  lemma ReplaceEmptySrcEnds()
    ensures ReplaceWalk("ab", "", CStr("\0"), |"\0"|, 0) == "ab"
  {
    assert CStr("\0") == "";
    ReplaceEmptyInsertsNothing("ab", 1, 0);
  }

  /** Inserting `dst` itself replaces both: with `src` a single character
      and `s` that character twice, the result is `dst` twice, whatever
      `dst` holds ("\0b" included). */
  lemma ReplaceFixedReplacesBoth(c: char, dst: string)
    ensures ReplaceAllFixed([c, c], [c], dst) == dst + dst
  {
    var s, src: string := [c, c], [c];
    assert OccursAt(s, src, 0) && OccursAt(src, src, 0);
    assert s[1..] == src && src[1..] == [];
    SplitAllDone([], src);
    SplitAllStep(src, src, 0, [], []);
    SplitAllStep(s, src, 0, [], src);
    JoinCons([], [[]], dst);
    JoinCons([], [[], []], dst);
  }

  /** ReplaceAll inserting `dst` itself: every occurrence the reference walk
      cuts at is replaced by `dst`, NUL characters or not. */
  function ReplaceAllFixed(s: string, src: string, dst: string): (r: string)
    requires src != []
    ensures r == Join(SplitAll(s, src), dst)
    ensures Find(s, src, 0).None? ==> r == s
  {
    ReplaceWalkJoins([], s, src, dst);
    assert [] + s == s;
    ReplaceWalk(s, src, dst, |dst|, 0)
  }
}

=== FILE: stdstring.dfy ===
/**
 * The std::string members the string helpers are built from: find, rfind,
 * find_first_of, find_first_not_of, find_last_not_of and c_str(). A
 * position is a `nat`; std::string::npos is `None`. Each search is
 * characterised completely by its postcondition (the first or last
 * position with the property, or none), which is what the helpers'
 * proofs use.
 */
module StdString {

  datatype Option<T> = None | Some(value: T)

  /** `x` occurs in `s` starting at position `i`. */
  predicate OccursAt(s: string, x: string, i: nat) {
    i + |x| <= |s| && s[i..i + |x|] == x
  }

  /** s.find(x, from): the first occurrence of `x` at or after `from`. An
      empty `x` is found at `from` itself as long as `from <= |s|`. */
  function Find(s: string, x: string, from: nat): (r: Option<nat>)
    ensures r.Some? ==> from <= r.value && OccursAt(s, x, r.value)
    ensures r.Some? ==> forall j :: from <= j < r.value ==> !OccursAt(s, x, j)
    ensures r.None? ==> forall j: nat :: from <= j ==> !OccursAt(s, x, j)
    decreases |s| - from
  {
    if from + |x| > |s| then None
    else if OccursAt(s, x, from) then Some(from)
    else Find(s, x, from + 1)
  }

  /** s.rfind(x): the last occurrence of `x`; an empty `x` is found at |s|. */
  function RFind(s: string, x: string): (r: Option<nat>)
    ensures r.Some? ==> OccursAt(s, x, r.value) && forall j: nat :: r.value < j ==> !OccursAt(s, x, j)
    ensures r.None? ==> forall j: nat :: !OccursAt(s, x, j)
  {
    if |x| > |s| then None else RFindAtOrBefore(s, x, |s| - |x|)
  }

  function RFindAtOrBefore(s: string, x: string, i: nat): (r: Option<nat>)
    requires i + |x| <= |s|
    ensures r.Some? ==> r.value <= i && OccursAt(s, x, r.value)
    ensures r.Some? ==> forall j :: r.value < j <= i ==> !OccursAt(s, x, j)
    ensures r.None? ==> forall j: nat :: j <= i ==> !OccursAt(s, x, j)
  {
    if OccursAt(s, x, i) then Some(i)
    else if i == 0 then None
    else RFindAtOrBefore(s, x, i - 1)
  }

  /** s.find_first_of(t, from): the first position at or after `from` whose
      character is one of `t`. */
  function FindFirstOf(s: string, t: string, from: nat): (r: Option<nat>)
    ensures r.Some? ==> from <= r.value < |s| && s[r.value] in t
    ensures r.Some? ==> forall j :: from <= j < r.value ==> s[j] !in t
    ensures r.None? ==> forall j :: from <= j < |s| ==> s[j] !in t
    decreases |s| - from
  {
    if from >= |s| then None
    else if s[from] in t then Some(from)
    else FindFirstOf(s, t, from + 1)
  }

  /** s.find_first_not_of(t, from): the first position at or after `from`
      whose character is not one of `t`. */
  function FindFirstNotOf(s: string, t: string, from: nat): (r: Option<nat>)
    ensures r.Some? ==> from <= r.value < |s| && s[r.value] !in t
    ensures r.Some? ==> forall j :: from <= j < r.value ==> s[j] in t
    ensures r.None? ==> forall j :: from <= j < |s| ==> s[j] in t
    decreases |s| - from
  {
    if from >= |s| then None
    else if s[from] !in t then Some(from)
    else FindFirstNotOf(s, t, from + 1)
  }

  /** s.find_last_not_of(t): the last position whose character is not one
      of `t`. */
  function FindLastNotOf(s: string, t: string): (r: Option<nat>)
    ensures r.Some? ==> r.value < |s| && s[r.value] !in t
    ensures r.Some? ==> forall j :: r.value < j < |s| ==> s[j] in t
    ensures r.None? ==> forall j :: 0 <= j < |s| ==> s[j] in t
  {
    FindLastNotOfBelow(s, t, |s|)
  }

  function FindLastNotOfBelow(s: string, t: string, n: nat): (r: Option<nat>)
    requires n <= |s|
    ensures r.Some? ==> r.value < n && s[r.value] !in t
    ensures r.Some? ==> forall j :: r.value < j < n ==> s[j] in t
    ensures r.None? ==> forall j :: 0 <= j < n ==> s[j] in t
  {
    if n == 0 then None
    else if s[n - 1] !in t then Some(n - 1)
    else FindLastNotOfBelow(s, t, n - 1)
  }

  /** dst.c_str() read as a C string: everything before the first NUL. */
  function CStr(s: string): (r: string)
    ensures r <= s && '\0' !in r
    ensures |r| < |s| ==> s[|r|] == '\0'
  {
    if s == [] || s[0] == '\0' then [] else [s[0]] + CStr(s[1..])
  }

  /** Searching from `from` is searching the suffix that starts there. */
  lemma FindInSuffix(s: string, x: string, from: nat)
    requires from <= |s|
    ensures Find(s, x, from) == Shift(Find(s[from..], x, 0), from)
  {
    var t := s[from..];
    forall j: nat ensures OccursAt(t, x, j) <==> OccursAt(s, x, from + j) {
      if j + |x| <= |t| {
        assert t[j..j + |x|] == s[from + j..from + j + |x|];
      }
    }
    var r, q := Find(s, x, from), Find(t, x, 0);
    if q.Some? {
      assert OccursAt(s, x, from + q.value);
      assert r.Some? && from <= r.value <= from + q.value;
      assert OccursAt(t, x, r.value - from);
      assert r.value == from + q.value;
    } else {
      forall j: nat | from <= j ensures !OccursAt(s, x, j) {
        assert !OccursAt(t, x, j - from);
      }
    }
  }

  function Shift(r: Option<nat>, d: nat): Option<nat> {
    if r.None? then None else Some(r.value + d)
  }
}

=== FILE: strings.dfy ===
/**
 * StringHelper's trimming, case mapping, prefix and suffix tests and
 * leading-zero removal. A helper that changes its `string&` argument in
 * place is a method taking the old value and returning the new one; the
 * overloads that return a new string are functions.
 */
module StringHelper {
  import opened StdString

  /** `spaces`: blank, tab, newline, vertical tab, form feed, carriage return. */
  const Spaces: string := " \t\n\U{000B}\U{000C}\r"

  // -----------------------------------------------------------------------
  // Trimming

  /** TrimLeft(s, trimTargets): what is left of `s` after its leading run of
      characters from `t`. */
  function TrimLeftOf(s: string, t: string): (r: string)
    ensures |r| <= |s| && r == s[|s| - |r|..]
    ensures r != [] ==> r[0] !in t
    ensures forall i :: 0 <= i < |s| - |r| ==> s[i] in t
  {
    var first := FindFirstNotOf(s, t, 0);
    if first.None? then [] else s[first.value..]
  }

  /** TrimRight(s, trimTargets): what is left of `s` after its trailing run
      of characters from `t`. */
  function TrimRightOf(s: string, t: string): (r: string)
    ensures |r| <= |s| && r == s[..|r|]
    ensures r != [] ==> r[|r| - 1] !in t
    ensures forall i :: |r| <= i < |s| ==> s[i] in t
  {
    var last := FindLastNotOf(s, t);
    if last.None? then [] else s[..last.value + 1]
  }

  /** Trim(s, trimTargets): TrimLeft, then TrimRight. */
  function TrimOf(s: string, t: string): string {
    TrimRightOf(TrimLeftOf(s, t), t)
  }

  /** The three properties of TrimLeftOf's contract fix its result. */
  lemma TrimLeftUnique(s: string, t: string, r: string)
    requires |r| <= |s| && r == s[|s| - |r|..]
    requires r != [] ==> r[0] !in t
    requires forall i :: 0 <= i < |s| - |r| ==> s[i] in t
    ensures r == TrimLeftOf(s, t)
  {
  }

  /** The three properties of TrimRightOf's contract fix its result. */
  lemma TrimRightUnique(s: string, t: string, r: string)
    requires |r| <= |s| && r == s[..|r|]
    requires r != [] ==> r[|r| - 1] !in t
    requires forall i :: |r| <= i < |s| ==> s[i] in t
    ensures r == TrimRightOf(s, t)
  {
  }

  /** Trim keeps the slice of `s` between its first and its last character
      not in `t`. */
  lemma TrimKeepsMiddle(s: string, t: string) returns (i: nat)
    ensures i + |TrimOf(s, t)| <= |s| && TrimOf(s, t) == s[i..i + |TrimOf(s, t)|]
    ensures forall j :: 0 <= j < i ==> s[j] in t
    ensures forall j :: i + |TrimOf(s, t)| <= j < |s| ==> s[j] in t
  {
    var l := TrimLeftOf(s, t);
    i := |s| - |l|;
    assert TrimOf(s, t) == l[..|TrimOf(s, t)|];
  }

  /** Trimming the right end first gives the same result. */
  lemma TrimEitherOrder(s: string, t: string)
    ensures TrimOf(s, t) == TrimLeftOf(TrimRightOf(s, t), t)
  {
    var r := TrimOf(s, t);
    var i := TrimKeepsMiddle(s, t);
    var k := if r == [] then 0 else i + |r|;
    if r != [] {
      assert s[k - 1] == r[|r| - 1];
    }
    TrimRightUnique(s, t, s[..k]);
    var rs := s[..k];
    assert rs[|rs| - |r|..] == r;
    if r != [] {
      assert r[0] == TrimLeftOf(s, t)[0];
    }
    TrimLeftUnique(rs, t, r);
  }

  /** Trimming a trimmed string changes nothing. */
  lemma TrimIdempotent(s: string, t: string)
    ensures TrimOf(TrimOf(s, t), t) == TrimOf(s, t)
  {
    var r := TrimOf(s, t);
    TrimLeftUnique(r, t, r);
    TrimRightUnique(r, t, r);
  }

  /** TrimLeft(s): the in-place overload, with `spaces` as the targets. */
  method TrimLeft(s: string) returns (s': string)
    ensures s' == TrimLeftOf(s, Spaces)
  {
    var pos := FindFirstNotOf(s, Spaces, 0);
    if pos.None? {
      s' := "";
    } else {
      s' := s[pos.value..];
    }
  }

  /** TrimRight(s): the in-place overload, with `spaces` as the targets. */
  method TrimRight(s: string) returns (s': string)
    ensures s' == TrimRightOf(s, Spaces)
  {
    var pos := FindLastNotOf(s, Spaces);
    if pos.None? {
      s' := "";
    } else {
      s' := s[..pos.value + 1];
    }
  }

  /** Trim(s): TrimLeft(s), then TrimRight(s). */
  method Trim(s: string) returns (s': string)
    ensures s' == TrimOf(s, Spaces)
  {
    s' := TrimLeft(s);
    s' := TrimRight(s');
  }

  // -----------------------------------------------------------------------
  // Case mapping

  /** toupper and tolower in the "C" locale: only ASCII letters change. */
  function UpperChar(c: char): char {
    if 'a' <= c <= 'z' then (c as int - 32) as char else c
  }

  function LowerChar(c: char): char {
    if 'A' <= c <= 'Z' then (c as int + 32) as char else c
  }

  predicate IsLowerLetter(c: char) {
    'a' <= c <= 'z'
  }

  predicate IsUpperLetter(c: char) {
    'A' <= c <= 'Z'
  }

  /** Mapping to one case and then to the other is mapping to the other. */
  lemma CaseRoundTrip(c: char)
    ensures LowerChar(UpperChar(c)) == LowerChar(c) && UpperChar(LowerChar(c)) == UpperChar(c)
    ensures !IsLowerLetter(UpperChar(c)) && !IsUpperLetter(LowerChar(c))
  {
  }

  /** Upper(s): every character through toupper, in place. */
  method Upper(s: string) returns (s': string)
    ensures |s'| == |s| && forall i :: 0 <= i < |s| ==> s'[i] == UpperChar(s[i])
    ensures forall i :: 0 <= i < |s'| ==> !IsLowerLetter(s'[i])
  {
    s' := s;
    for i := 0 to |s|
      invariant |s'| == |s|
      invariant forall j :: 0 <= j < i ==> s'[j] == UpperChar(s[j]) && !IsLowerLetter(s'[j])
      invariant forall j :: i <= j < |s| ==> s'[j] == s[j]
    {
      s' := s'[i := UpperChar(s'[i])];
    }
  }

  /** Lower(s): every character through tolower, in place. */
  method Lower(s: string) returns (s': string)
    ensures |s'| == |s| && forall i :: 0 <= i < |s| ==> s'[i] == LowerChar(s[i])
    ensures forall i :: 0 <= i < |s'| ==> !IsUpperLetter(s'[i])
  {
    s' := s;
    for i := 0 to |s|
      invariant |s'| == |s|
      invariant forall j :: 0 <= j < i ==> s'[j] == LowerChar(s[j]) && !IsUpperLetter(s'[j])
      invariant forall j :: i <= j < |s| ==> s'[j] == s[j]
    {
      s' := s'[i := LowerChar(s'[i])];
    }
  }

  // -----------------------------------------------------------------------
  // Prefix and suffix tests

  /** BeginsWith(s, prefix): the first occurrence of `prefix` is at 0,
      which is exactly when `s` starts with it (always, for ""). */
  function BeginsWith(s: string, prefix: string): (b: bool)
    ensures b <==> |prefix| <= |s| && s[..|prefix|] == prefix
  {
    Find(s, prefix, 0) == Some(0)
  }

  /** EndsWith(s, suffix): the last occurrence of `suffix` ends where `s`
      ends, which is exactly when `s` ends with it (always, for ""). */
  function EndsWith(s: string, suffix: string): (b: bool)
    ensures b <==> |suffix| <= |s| && s[|s| - |suffix|..] == suffix
  {
    var pos := RFind(s, suffix);
    pos.Some? && pos.value + |suffix| == |s|
  }

  // -----------------------------------------------------------------------
  // Leading zeros

  predicate AllZeros(s: string) {
    forall i :: 0 <= i < |s| ==> s[i] == '0'
  }

  predicate IsNumeral(s: string) {
    forall i :: 0 <= i < |s| ==> '0' <= s[i] <= '9'
  }

  /** The value of a decimal numeral; "" reads as 0. */
  function DecimalValue(s: string): nat
    requires IsNumeral(s)
  {
    if s == [] then 0
    else DecimalValue(s[..|s| - 1]) * 10 + (s[|s| - 1] as int - '0' as int)
  }

  /** Zeros in front of a numeral do not change its value. */
  lemma {:induction false} LeadingZerosValue(z: string, t: string)
    requires AllZeros(z) && IsNumeral(t)
    ensures IsNumeral(z + t) && DecimalValue(z + t) == DecimalValue(t)
    decreases |t|
  {
    if t == [] {
      assert z + t == z;
      ZerosValue(z);
    } else {
      var u := z + t;
      assert u[..|u| - 1] == z + t[..|t| - 1];
      LeadingZerosValue(z, t[..|t| - 1]);
    }
  }

  lemma {:induction false} ZerosValue(z: string)
    requires AllZeros(z)
    ensures IsNumeral(z) && DecimalValue(z) == 0
    decreases |z|
  {
    if z != [] {
      ZerosValue(z[..|z| - 1]);
    }
  }

  /** RemoveFrontZero(s): drop the leading '0's, unless `s` is all '0's (or
      empty), which stays as it is. A numeral keeps its value. */
  method RemoveFrontZero(s: string) returns (s': string)
    ensures AllZeros(s) ==> s' == s
    ensures !AllZeros(s) ==> s' != [] && |s'| <= |s| && s' == s[|s| - |s'|..] && s'[0] != '0' && AllZeros(s[..|s| - |s'|])
    ensures IsNumeral(s) ==> IsNumeral(s') && DecimalValue(s') == DecimalValue(s)
  {
    s' := s;
    var i := 0;
    while i < |s|
      invariant i <= |s| && AllZeros(s[..i])
    {
      if s[i] != '0' {
        s' := s[i..];
        assert s == s[..i] + s';
        if IsNumeral(s) {
          LeadingZerosValue(s[..i], s');
        }
        return;
      }
      i := i + 1;
    }
    assert s[..i] == s;
  }
}
